=== FILE: README.md ===
# ONIE EEPROM and xeth switch drivers, modelled in Dafny

This project models three parts of the Platina Systems kernel tree for the
MK1 top-of-rack switch:

- **The ONIE EEPROM codec.** It has two drivers: the NVMEM-cell one
  (`drivers/nvmem/onie.c`) and the raw-EEPROM one
  (`drivers/misc/eeprom/onie.c`). The EEPROM holds an 11-byte header
  (`"TlvInfo\0"`, version 1, a big-endian TLV-area length). After the header
  come type-length-value records and a closing CRC record. That record holds
  the CRC-32 of every byte before its value.
  - The model validates an image the way both drivers do.
  - A value is looked up the way `onie_value` and `onie_get_tlv` walk the
    records: vendor_extension values are concatenated, and every other type
    stops at its first record.
  - A value is stored the way `onie_set_tlv` rebuilds the image in the
    writeback buffer. A stored value is split into records of at most
    255 bytes.
  - Of the sysfs attribute handlers, the model covers the NVMEM driver's
    `onie_show_default`, its value stores and `onie_store_cache`, and the
    raw-EEPROM driver's `onie_store` argument checks; the other show
    handlers are listed under "Left out".
- **The xeth switch driver.** This covers:
  - parsing interface names into port, subport and bridge references;
  - the VLAN id table;
  - the sysfs string tables;
  - the port and upper devices' ethtool operations;
  - the sideband transmit queue;
  - the mux, which stripes its lower devices over a table and counts
    events;
  - the Platina vendor hooks that name ports and give them MAC addresses
    and xids.
- **The UIO PCI DMA driver** (`drivers/uio-pci-dma`), a separate driver:
  its table of registers that disable interrupts.
- **The Go sideband client.** This covers:
  - the interface cache and how ifinfo messages update it;
  - the buffer pools;
  - the stat-setting command `Xeth.Set`.

The layout has one module per source file, plus shared helper modules:
- `Bytes` and `Text` model C integer conversions, byte orders, `printf` and `sscanf`;
- `Errno` holds the x86 Linux error numbers;
- `Wrappers` holds Option and Result;
- `OnieFormat` holds the format both ONIE drivers share;
- `Ethtool` holds the speed, duplex and autoneg checks shared by ports and uppers.

**How the model is written**
- Pure computations are functions.
- Objects the source updates in place are classes whose methods are proved
  against those functions. Examples are the ONIE cache and writeback
  buffers (arrays), the VLAN table, the string tables, the ports and
  uppers, the mux, the transmit queue, the interface cache and the pools.
- Kernel results are ints: a negative errno, or a count.
- Allocation failures, the result of the socket send, the host's view of
  its interfaces and the NVMEM cell read are parameters of the operations
  that meet them, except the allocations listed under "Left out".

## Model

| member | source | states |
|---|---|---|
| OnieFormat.Crc | drivers/nvmem/onie.c:188-191 | onie_crc is a 32-bit value: crc32_le(~0, data) ^ ~0 over the bytes before the CRC |
| OnieFormat.FullSize | drivers/nvmem/onie.c:236-237 | the announced image size is the header size plus the header's TLV-area length, so never less than the header |
| OnieFormat.ValidateImage | drivers/nvmem/onie.c:223-257 | an image validates iff its id and version are right, its announced size is at most 2048 and the stored CRC matches; it then returns that size; otherwise it returns -EIDRM, -EINVAL, -EFBIG or -EBADF, with -EIDRM exactly for a wrong id |
| OnieFormat.TlvBytes | drivers/nvmem/onie.c:152-156 | a record is its type byte, its length byte and its value |
| OnieFormat.Serialize | drivers/nvmem/onie.c:183-186 | records lie back to back, each at least two bytes |
| OnieFormat.SerializeAppend | drivers/nvmem/onie.c:183-186 | serializing two runs of records is concatenating their bytes |
| OnieFormat.OfType | drivers/nvmem/onie.c:382-395 | the records a lookup of type t considers all have type t |
| OnieFormat.OfTypeAbsent | drivers/nvmem/onie.c:382-395 | no record of type t is selected exactly when none is present |
| OnieFormat.ChunksContent | drivers/nvmem/onie.c:399-416 | insert_tlv's chunks concatenate back to the value, cost two bytes each, and the first holds the first min(255, len) bytes |
| OnieFormat.OfTypeChunks | drivers/nvmem/onie.c:399-416 | every chunk of a value has the value's type |
| OnieFormat.ReplaceOfType | drivers/nvmem/onie.c:449-474 | after set_tlv, the records of type t are exactly the new value's chunks, and every other type keeps its records in order |
| OnieFormat.Replace | drivers/nvmem/onie.c:449-474 | with no record of type t, the new list is the old records followed by v's chunks |
| OnieFormat.BodyAbsent | drivers/nvmem/onie.c:449-457 | with no record of type t, the copy loop copies every record unchanged |
| OnieFormat.ImagePrefix | drivers/nvmem/onie.c:475-478 | the rebuilt image up to its CRC has the header, the records and the CRC record header |
| OnieFormat.Build | drivers/nvmem/onie.c:475-479 | a rebuilt image is the header, records, CRC record and CRC, within 2048 bytes |
| OnieFormat.BuildValidates | drivers/nvmem/onie.c:223-257 | a rebuilt image validates with its own size, whatever follows it in the buffer |
| OnieFormat.BuiltWellFormed | drivers/nvmem/onie.c:223-257 | a rebuilt image is well formed and its records read back as the list it was built from |
| OnieFormat.BuiltImage | drivers/nvmem/onie.c:475-480 | a buffer starting with a rebuilt image validates, is well formed and holds exactly its records |
| OnieFormat.SetTlvImageValidates | drivers/nvmem/onie.c:432-484 | the image set_tlv leaves fits the 2048-byte buffer and validates with its own size |
| OnieFormat.SetTlvWellFormed | drivers/nvmem/onie.c:432-484 | the image set_tlv leaves is well formed again, so set_tlv can be applied to it again |
| OnieFormat.SetTlvImage | drivers/nvmem/onie.c:432-484 | corrected (see Findings): -EINVAL when the image would not fit, else an image of 17 to 2048 bytes |
| OnieFormat.SetTlvImageAsWritten | drivers/nvmem/onie.c:432-480 | as written: -EINVAL only from insert_tlv with a non-empty value, and then the corrected rewrite refuses too; an image it builds is within 2048 bytes exactly when the corrected rewrite accepts it |
| OnieFormat.BeforeSnoc | drivers/nvmem/onie.c:449-457 | the copy loop copies a record into the writeback buffer only while no record of type t has been met |
| OnieFormat.BodyBefore | drivers/nvmem/onie.c:449-463 | when t is present, the new record list starts with the records copied before it and the chunks of the value |
| OnieFormat.ReplaceCovers | drivers/nvmem/onie.c:449-471 | the new record list is at least as long as the copied records and chunks insert_tlv checks against its bound |
| OnieFormat.Expected | drivers/nvmem/onie.c:380-396 | a count read back after storing v is positive, at most v's length and the destination size, all of v for vendor_extension; otherwise -ENOMSG or -EINVAL |
| OnieFormat.ReplaceNoCrc | drivers/nvmem/onie.c:449-474 | set_tlv's new record list has no CRC record before the closing one |
| OnieFormat.CrcRecordOverflow | drivers/nvmem/onie.c:467-479 | as written, a 2021-byte value on an empty cache passes insert_tlv's bound and then writes a 2054-byte image past the buffer; the bounded rewrite refuses it with -EINVAL |
| OnieFormat.ParseSound | drivers/nvmem/onie.c:449-451 | the records the until-CRC walk visits are exactly the bytes it walked, and none of them is a CRC record |
| OnieFormat.ParseSerialized | drivers/nvmem/onie.c:449-451 | conversely, walking serialized records that end in a CRC type finds exactly those records |
| OnieFormat.ValueFrom | drivers/nvmem/onie.c:380-396 | the walk of get_tlv only ever adds to the bytes it has copied out |
| OnieFormat.ValueCounted | drivers/nvmem/onie.c:382-392 | a found value of n bytes has its first n bytes among those copied out |
| OnieFormat.ListValueOfType | drivers/nvmem/onie.c:382-395 | only the records of the wanted type affect a lookup |
| OnieFormat.ListValueFound | drivers/nvmem/onie.c:383-384 | once a lookup has matched a record, it never reports -ENOMSG again |
| OnieFormat.ListValueMissing | drivers/nvmem/onie.c:376-396 | a lookup reports -ENOMSG exactly when no record has the type |
| OnieFormat.ChunksValueConcatenated | drivers/nvmem/onie.c:385-392 | a vendor_extension lookup concatenates all its records, or fails with -EINVAL once they pass the destination size |
| OnieFormat.ChunksValueFirst | drivers/nvmem/onie.c:393-394 | a lookup of any other type stops at its first record |
| OnieFormat.ChunksValue | drivers/nvmem/onie.c:380-396 | a lookup over a stored value's chunks returns the length Expected gives, with those bytes copied out |
| OnieFormat.BuiltValue | drivers/nvmem/onie.c:376-396 | a lookup in a rebuilt image sees exactly the records of its list |
| OnieFormat.WellFormedValue | drivers/nvmem/onie.c:376-396 | a lookup in a well-formed cache sees exactly the records before its CRC record |
| OnieFormat.WellFormedMissing | drivers/nvmem/onie.c:376-379 | in a well-formed cache, a type reads as missing iff none of its records is there; an empty TLV area reads as missing for every type |
| OnieFormat.SetThenValue | drivers/nvmem/onie.c:432-484 | reading t back after set_tlv stored v: the first 255-byte chunk for ordinary types, all of v for vendor_extension, -ENOMSG for an empty v, -EINVAL for a destination that is too small |
| OnieFormat.SetKeepsOtherValues | drivers/nvmem/onie.c:432-484 | set_tlv leaves every other type's value as it was |
| OnieBuffer.Copy | drivers/nvmem/onie.c:480 | memcpy writes src at the offset and keeps every other byte of the array |
| OnieBuffer.Append | drivers/nvmem/onie.c:453-455 | a write at the cursor extends the image held before it by the written bytes |
| OnieBuffer.ChunkBytesSerialized | drivers/nvmem/onie.c:399-416 | the bytes insert_tlv writes are the serialized chunks |
| OnieBuffer.InsertTlv | drivers/nvmem/onie.c:399-416 | insert_tlv writes v's chunks from dst0 on and advances the cursor by their size; it refuses (false) exactly when the chunks would pass the bound |
| OnieBuffer.ResetHeader | drivers/nvmem/onie.c:198-203 | the header becomes the blank one (id, version 1, length 0) and every byte after it is kept |
| OnieBuffer.VisitStep | drivers/nvmem/onie.c:452-465 | one record visited by the copy loop, and what it adds to the new list |
| OnieBuffer.CopyTlv | drivers/nvmem/onie.c:452-457 | corrected (see Findings): a record of another type is copied to the cursor unchanged, or -EINVAL when it would pass the bound, which the source copy does not check |
| OnieBuffer.InsertRest | drivers/nvmem/onie.c:459-465 | the first record of type t is replaced by v's chunks, or -EINVAL |
| OnieBuffer.CopyRecords | drivers/nvmem/onie.c:448-466 | the copy loop writes the blank header and the replaced list into the writeback buffer, or -EINVAL exactly when that list does not fit |
| OnieBuffer.Visit | drivers/nvmem/onie.c:452-465 | one turn of the copy loop keeps the loop's image equation and reports a record it cannot fit |
| OnieBuffer.Relabel | drivers/nvmem/onie.c:476-477 | the header length written over the blank header turns the records and CRC record into ImagePrefix |
| OnieBuffer.Label | drivers/nvmem/onie.c:475-477 | reset_crc and the header length leave the image up to its CRC |
| OnieBuffer.Seal | drivers/nvmem/onie.c:475-479 | the writeback buffer holds Build of the new list, and its size is returned |
| OnieBuffer.Assemble | drivers/nvmem/onie.c:448-474 | the header and Replace of the cache's records, with v appended when there was no record of type t, or -EINVAL when they do not fit |
| OnieBuffer.Rewrite | drivers/nvmem/onie.c:432-484 | the writeback buffer holds SetTlvImage of the cache, or -EINVAL exactly when SetTlvImage refuses it |
| OnieBuffer.Commit | drivers/nvmem/onie.c:475-480 | on success the cache starts with the new image and keeps its tail; on failure it is unchanged |
| OnieBuffer.TakeInto | drivers/nvmem/onie.c:382-392 | a matching record's bytes are copied to the destination at the running count, or -EINVAL past sz |
| OnieBuffer.ReadValue | drivers/nvmem/onie.c:376-396 | the lookup over the cache array returns Value's count and writes the bytes it copies to dst |
| OnieStore.TrimNewline | drivers/misc/eeprom/onie.c:466-468 | one trailing newline is dropped, and nothing else |
| OnieStore.StoreValue | drivers/misc/eeprom/onie.c:418-472 | a write stores six MAC octets, a big-endian u16 num_macs or a one-byte device_version, or the text less its newline for the other types; a short MAC scan is -EINVAL, an out-of-range number -ERANGE, a parse error its own error, and crc is -EPERM |
| OnieStore.StoreValueStored | drivers/misc/eeprom/onie.c:418-472 | what is stored reads back as what was written: the MAC octets, the number from its two bytes, the text |
| OnieEeprom.Validate | drivers/misc/eeprom/onie.c:163-196 | with sz = 0 it is ValidateImage; with 0 < sz < 17 it is -EBADR; with sz ≥ 17 only the header is checked (-EIDRM, -EINVAL or -EFBIG) and the bytes still to read are returned, 0 once sz covers the image |
| OnieEeprom.SetTlvOutcome | drivers/misc/eeprom/onie.c:474-528 | corrected (see Findings): -EPERM without a writer, -EINVAL when the image would not fit, else the writer's result |
| OnieEeprom.SetTlvOutcomeAsWritten | drivers/misc/eeprom/onie.c:474-528 | as written: -EPERM without a writer; -EINVAL only from insert_tlv's bound, where the corrected outcome is -EINVAL too; it differs from the corrected outcome only when the image it hands to the writer is longer than 2048 bytes |
| OnieEeprom.SetTlvOverruns | drivers/misc/eeprom/onie.c:494-525 | as written, a 2021-byte product_name on an empty cache builds a 2054-byte image, copies it over the 2048-byte cache and returns the writer's result; the corrected outcome is -EINVAL |
| OnieEeprom.Eeprom.Create | drivers/misc/eeprom/onie.c:200-229 | the zeroed cache takes the image's first fs bytes when it validates with size fs, and stays zero otherwise |
| OnieEeprom.Eeprom.ValueOf | drivers/misc/eeprom/onie.c:246-279 | onie_value returns Value's count and copies its bytes out |
| OnieEeprom.Eeprom.SetTlv | drivers/misc/eeprom/onie.c:474-528 | corrected (see Findings): the result is SetTlvOutcome; without a writer nothing changes; on success the cache starts with SetTlvImage and that image is handed to the writer; on -EINVAL the cache is unchanged |
| OnieEeprom.Eeprom.Store | drivers/misc/eeprom/onie.c:418-472 | corrected set_tlv (see Findings): StoreValue's error, changing nothing, or SetTlv of the value; the write's length on success, with the cache starting with SetTlvImage |
| OnieNvmem.CacheInitAsWritten | drivers/nvmem/onie.c:259-273 | as written, cache_init rewrites only the first 17 bytes and keeps the rest, writing the header length 17 where the TLV area is the 6-byte CRC record |
| OnieNvmem.CacheInitAnnouncesStaleBytes | drivers/nvmem/onie.c:268-269 | the image cache_init leaves announces 28 bytes, so its CRC check reads bytes it never wrote |
| OnieNvmem.CacheInitSamePrefix | drivers/nvmem/onie.c:259-273 | cache_init's image up to byte k ≥ 17 depends only on the cache up to byte k |
| OnieNvmem.CacheInitCanFail | drivers/nvmem/onie.c:259-273 | of a cache and the same cache with byte 24 changed, at least one fails validation after cache_init |
| OnieNvmem.ShowResult | drivers/nvmem/onie.c:507-516 | 0 exactly for an empty value or a lone NUL byte; otherwise the lookup's own result |
| OnieNvmem.Nvmem.Probe | drivers/nvmem/onie.c:486-499 | both buffers are allocated and zeroed |
| OnieNvmem.Nvmem.CacheInit | drivers/nvmem/onie.c:259-273 | the corrected init leaves a 17-byte image of no records that validates and is well formed, whatever the rest of the cache holds |
| OnieNvmem.Nvmem.GetTlv | drivers/nvmem/onie.c:363-397 | the cell check's error, or Value's count with its bytes written to v |
| OnieNvmem.Nvmem.SetTlv | drivers/nvmem/onie.c:432-484 | the cache takes SetTlvImage on success and is unchanged on -EINVAL |
| OnieNvmem.Nvmem.ShowDefault | drivers/nvmem/onie.c:507-516 | the lookup into the page buffer, its result mapped by ShowResult |
| OnieNvmem.Nvmem.Store | drivers/nvmem/onie.c:608-709 | StoreValue's error, changing nothing, or set_tlv of the value; the write's length on success, with the cache starting with SetTlvImage |
| OnieNvmem.Nvmem.StoreCache | drivers/nvmem/onie.c:639-650 | -ERANGE for 2048 bytes or more, changing nothing; else the write's length, with the bytes copied over the start of the cache |
| OnieNvmem.Nvmem.StoreCacheChecked | drivers/nvmem/onie.c:639-650 | corrected (see Findings): -ERANGE for 2048 bytes or more and -EINVAL for bytes that leave the cache malformed, both changing nothing; else the bytes copied over the start; a well-formed cache stays well formed |
| OnieNvmem.RunawayBuf | drivers/nvmem/onie.c:639-650 | a 2047-byte write the store accepts |
| OnieNvmem.RunawayFrom | drivers/nvmem/onie.c:376-396 | over a cache of 0xFF records the walks of set_tlv and get_tlv never meet a CRC record inside the buffer |
| OnieNvmem.StoreCacheRunaway | drivers/nvmem/onie.c:449-451 | as written, after that write the cache announces 2048 bytes, is not well formed, and both walks run off its end |
| OnieNvmem.WellFormedWalkable | drivers/nvmem/onie.c:223-257 | a well-formed cache can be walked, and a lookup of any type other than crc ends inside it |
| XethParse.U16Sub | drivers/net/ethernet/xeth/parse.c:62 | the u16 subtraction of the base wraps modulo 2^16 |
| XethParse.ParseXethbr | drivers/net/ethernet/xeth/parse.c:27-48 | "xethbr.ID" gives a bridge reference with id ID in [1, userids) and ndi ID, else it is refused |
| XethParse.Subport | drivers/net/ethernet/xeth/parse.c:72-84 | "-N" after the port gives subport N - base when that is below subports; no dash means -1 and the same cursor |
| XethParse.UserId | drivers/net/ethernet/xeth/parse.c:85-109 | ".ID" must give an id in [1, userids) followed by 't' or 'u', which picks tagged or untagged |
| XethParse.ParseXethFields | drivers/net/ethernet/xeth/parse.c:50-118 | a parsed port name has a port below ports, a subport below subports or -1, portid 4094 - port - subport*ports, and either ndi = id = portid or a user id with ndi -1; iflinki is id & 1 |
| XethParse.Parse | drivers/net/ethernet/xeth/parse.c:120-128 | "xethbr." names are bridges, other "xeth" names are ports, and anything else is refused |
| XethParse.BridgeNameParses | drivers/net/ethernet/xeth/parse.c:27-48 | a bridge's name parses back to its id iff the id is a valid user id |
| XethParse.SubportOfName | drivers/net/ethernet/xeth/parse.c:72-84 | the subport step on a printed name gives back its subport, or refuses an out-of-range one |
| XethParse.UserIdOfName | drivers/net/ethernet/xeth/parse.c:85-109 | the id step on a printed name gives back its id and tag |
| XethParse.ParseXethFrom | drivers/net/ethernet/xeth/parse.c:50-118 | parse_xeth is the port step, the subport step and the id step in turn |
| XethParse.PortNameParses | drivers/net/ethernet/xeth/parse.c:50-118 | a port, subport or bridge-port name parses back to the numbers it was printed from, and is refused exactly when one is out of range |
| XethParse.PrivRef.constructor | drivers/net/ethernet/xeth/parse.c:120-128 | a fresh reference to be filled in |
| XethParse.ParseXethbrInto | drivers/net/ethernet/xeth/parse.c:27-48 | 0 with the reference holding ParseXethbr's result, or -EINVAL exactly when it refuses |
| XethParse.SubportInto | drivers/net/ethernet/xeth/parse.c:72-84 | the cursor step writes subporti and portid as Subport says, or fails exactly when it refuses |
| XethParse.UserIdInto | drivers/net/ethernet/xeth/parse.c:85-113 | the id step writes id, ndi and devtype as UserId says |
| XethParse.ParseXethInto | drivers/net/ethernet/xeth/parse.c:50-118 | 0 with the reference holding ParseXeth's result, or -EINVAL exactly when it refuses |
| XethParse.ParseName | drivers/net/ethernet/xeth/parse.c:120-128 | 0 with the reference holding Parse's result, or -EINVAL exactly when Parse refuses |
| XethVlan.Find | drivers/net/ethernet/xeth/xeth_vlan.c:59-71 | the first slot in [lo, hi) holding the device, with none before it, or -ENODEV when there is none |
| XethVlan.FindWritten | drivers/net/ethernet/xeth/xeth_vlan.c:90-100 | a slot just written with a device, which appears nowhere before it, is where Find finds it |
| XethVlan.Clamp | drivers/net/ethernet/xeth/xeth_vlan.c:133-137 | an mtu above the new limit drops to the limit; any other stays |
| XethVlan.VlanTable.constructor | drivers/net/ethernet/xeth/xeth_vlan.c:21-35 | empty slots, with the cursors at 3999 and 3000 |
| XethVlan.VlanTable.SearchAssociates | drivers/net/ethernet/xeth/xeth_vlan.c:32-35 | the walk over the associate slots returns Find's slot |
| XethVlan.VlanTable.Id | drivers/net/ethernet/xeth/xeth_vlan.c:59-71 | an xeth device's own id, else the first associate slot holding it, else -ENODEV |
| XethVlan.VlanTable.NewDev | drivers/net/ethernet/xeth/xeth_vlan.c:73-82 | -ENOSPC when the cursors meet, else the device takes the top free id and the cursor moves down |
| XethVlan.VlanTable.Associate | drivers/net/ethernet/xeth/xeth_vlan.c:90-100 | the next bottom id, else the first emptied slot, else -ENOSPC; a device not associated before is found there by Id |
| XethVlan.VlanTable.Disassociate | drivers/net/ethernet/xeth/xeth_vlan.c:113-126 | the first associate slot holding the device is emptied and nothing else changes |
| XethVlan.VlanTable.ChangeMtu | drivers/net/ethernet/xeth/xeth_vlan.c:128-140 | every xeth device on the link gets max_mtu = link mtu - 4 and its mtu clamped to it; no other device changes |
| XethVlan.VlanTable.Stop | drivers/net/ethernet/xeth/xeth_vlan.c:286-302 | every slot is emptied and the cursors stay |
| XethKstrs.DecimalLength | drivers/net/ethernet/xeth/xeth_kstrs.c:105-112 | a number below 10^k has at most k digits |
| XethKstrs.Width | drivers/net/ethernet/xeth/xeth_kstrs.c:105-111 | the name width is 1 to 4 digits, growing at 10, 100 and 1000 |
| XethKstrs.WidthIsDigits | drivers/net/ethernet/xeth/xeth_kstrs.c:105-111 | for up to 4096 entries, every index below n fits the width |
| XethKstrs.AttrNameRoundTrip | drivers/net/ethernet/xeth/xeth_kstrs.c:112-113 | each attribute name is exactly width digits and reads back as its index |
| XethKstrs.AttrNamesDistinct | drivers/net/ethernet/xeth/xeth_kstrs.c:112-113 | distinct indices get distinct attribute names |
| XethKstrs.Stored | drivers/net/ethernet/xeth/xeth_kstrs.c:28-55 | an empty write stores nothing; any other stores the text less one trailing newline |
| XethKstrs.Strlcpy | drivers/net/ethernet/xeth/xeth_kstrs.c:134 | strlcpy keeps at most size - 1 characters and returns the full length |
| XethKstrs.Prefix | drivers/net/ethernet/xeth/xeth_kstrs.c:140-147 | the count stops at n or at the first NULL entry |
| XethKstrs.Kstrs.constructor | drivers/net/ethernet/xeth/xeth_kstrs.c:86-121 | an uninitialised table |
| XethKstrs.Kstrs.Init | drivers/net/ethernet/xeth/xeth_kstrs.c:86-121 | -EINVAL above 4096, -ENOMEM on a failed allocation, else n NULL entries named by their padded index and the kobject's result |
| XethKstrs.Kstrs.Store | drivers/net/ethernet/xeth/xeth_kstrs.c:28-55 | the entry becomes Stored(buf) and the write's length is returned, or -ENOMEM with the entry NULL |
| XethKstrs.Kstrs.String | drivers/net/ethernet/xeth/xeth_kstrs.c:123-138 | -EINVAL outside the table (negative indices included), -ENOENT for NULL, else strlcpy's result |
| XethKstrs.Kstrs.Count | drivers/net/ethernet/xeth/xeth_kstrs.c:140-147 | the number of entries set before the first NULL one |
| XethKstrs.PrefixIs | drivers/net/ethernet/xeth/xeth_kstrs.c:140-147 | that count is the one index before which all entries are set and at which one is not |
| Ethtool.ValidateSpeed | drivers/net/ethernet/xeth/xeth_port.c:275-285 | only the listed link speeds are accepted; any other is -EINVAL |
| Ethtool.ValidateDuplex | drivers/net/ethernet/xeth/xeth_port.c:267-273 | half, full and unknown duplex are accepted; any other is -EINVAL |
| Ethtool.Apply | drivers/net/ethernet/xeth/xeth_upper.c:364-408 | autoneg off takes a valid speed and duplex; autoneg on takes supported advertised modes with speed 0; nothing else changes |
| Ethtool.ApplyIdempotent | drivers/net/ethernet/xeth/xeth_upper.c:364-408 | a request accepted once is accepted again and changes nothing |
| XethPort.ValidatePort | drivers/net/ethernet/xeth/xeth_port.c:236-265 | a connector with a link mode is accepted iff that mode is supported; DA, NONE and OTHER always are |
| XethPort.SetLink | drivers/net/ethernet/xeth/xeth_port.c:287-331 | the connector is written before the speed, duplex and modes are checked |
| XethPort.RefusedRequestChangesPort | drivers/net/ethernet/xeth/xeth_port.c:287-331 | a refused request can still leave a new connector |
| XethPort.SetLinkIdempotent | drivers/net/ethernet/xeth/xeth_port.c:287-331 | an accepted request is accepted again and changes nothing |
| XethPort.SetFec | drivers/net/ethernet/xeth/xeth_port.c:374-434 | an unknown mode is -EINVAL; unsupported FEC modes are -EOPNOTSUPP; else exactly those FEC modes are advertised |
| XethPort.FecCaps | drivers/net/ethernet/xeth/xeth_port.c:350-361 | OFF, RS and BASER for the supported modes, AUTO when both RS and BASER are, NONE when none is |
| XethPort.GetFecparamAsWritten | drivers/net/ethernet/xeth/xeth_port.c:343-372 | as written, advertising BASER overwrites fec and leaves active_fec 0 |
| XethPort.GetFecparam | drivers/net/ethernet/xeth/xeth_port.c:343-372 | the corrected read: fec is FecCaps, and active_fec names the advertised mode |
| XethPort.FecRoundTrip | drivers/net/ethernet/xeth/xeth_port.c:343-434 | after setting a mode, the port reports it as the active one |
| XethPort.FecBaserNotReported | drivers/net/ethernet/xeth/xeth_port.c:366-370 | as written, a port set to BASER reports no active mode and BASER alone as its capability |
| XethPort.Port.constructor | drivers/net/ethernet/xeth/xeth_port.c:494-557 | the probed port's numbers and settings; an unsplit port or first subport gets the platform's count of zeroed statistics, a later subport none |
| XethPort.Port.PrivFlags | drivers/net/ethernet/xeth/xeth_port.c:210-214 | an unsplit port or first subport shows its flags; others show none |
| XethPort.Port.SetPrivFlags | drivers/net/ethernet/xeth/xeth_port.c:216-226 | refused on a later subport or for a bit past the flags; else stored, read back by PrivFlags, and sent |
| XethPort.SubportStatOverrun | drivers/net/ethernet/xeth/xeth_port.c:84-94 | as written, the store lands past the port's statistics exactly on a later subport with an index below the platform's count, subport 2 with index 0 for one |
| XethPort.Port.EthtoolStat | drivers/net/ethernet/xeth/xeth_port.c:84-95 | corrected (see Findings): on an unsplit port or first subport statistic index gets the count; an index past the platform's count, or any index on a later subport, is counted as invalid |
| XethPort.Port.ResetEthtoolStats | drivers/net/ethernet/xeth/xeth_port.c:71-82 | every statistic is zeroed on an unsplit port or first subport |
| XethPort.Port.SetLinkKsettings | drivers/net/ethernet/xeth/xeth_port.c:287-331 | the settings SetLink leaves, its error, or on success the send's result with the messages queued |
| XethPort.Port.SetFecparam | drivers/net/ethernet/xeth/xeth_port.c:374-434 | the settings SetFec leaves, its error, or on success the send's result with the messages queued |
| XethSbtx.MsgSet | drivers/net/ethernet/xeth/xeth_sbtx.c:42-50 | a header the receiver takes as a message, with the given version and kind |
| XethSbtx.Settings | drivers/net/ethernet/xeth/xeth_sbtx.c:239-249 | the settings message carries speed 0 under autoneg and the set speed otherwise |
| XethSbtx.Backoff | drivers/net/ethernet/xeth/xeth_sbtx.c:121-124 | a backoff step stays a backoff step, and reaches 320 ms exactly from 160 ms on |
| XethSbtx.BackoffAfter | drivers/net/ethernet/xeth/xeth_sbtx.c:105-124 | the sleep after k empty polls is a backoff step between 10 and 320 ms |
| XethSbtx.BackoffDoubles | drivers/net/ethernet/xeth/xeth_sbtx.c:105-124 | after k empty polls the sleep is 10·2^k ms, capped at 320 ms |
| XethSbtx.SettingsEntries | drivers/net/ethernet/xeth/xeth_sbtx.c:229-253 | nothing when disconnected, else the settings message and, when allocated, the advertised link modes |
| XethSbtx.Sbtx.constructor | drivers/net/ethernet/xeth/xeth_sbtx.c:10-13 | an empty queue |
| XethSbtx.Sbtx.Pop | drivers/net/ethernet/xeth/xeth_sbtx.c:58-72 | the head entry removed, or none from an empty queue |
| XethSbtx.Sbtx.Push | drivers/net/ethernet/xeth/xeth_sbtx.c:74-80 | the entry goes back at the head |
| XethSbtx.Sbtx.Queue | drivers/net/ethernet/xeth/xeth_sbtx.c:82-92 | dropped while disconnected, else appended at the tail |
| XethSbtx.Sbtx.Flush | drivers/net/ethernet/xeth/xeth_sbtx.c:94-101 | the queue is empty; the counter still holds the entries the queue let go of, which the debug check reports |
| XethSbtx.Sbtx.Send | drivers/net/ethernet/xeth/xeth_sbtx.c:31-40 | -ENOMEM, counted, on a failed allocation, else the message is queued |
| XethSbtx.Sbtx.SendFlags | drivers/net/ethernet/xeth/xeth_sbtx.c:187-201 | queues an ethtool-flags message for the xid |
| XethSbtx.Sbtx.SendChangeUpper | drivers/net/ethernet/xeth/xeth_sbtx.c:170-185 | queues a change-upper message with linking as 1 or 0 |
| XethSbtx.Sbtx.SendBreak | drivers/net/ethernet/xeth/xeth_sbtx.c:157-168 | queues a break message |
| XethSbtx.Sbtx.SendSettings | drivers/net/ethernet/xeth/xeth_sbtx.c:229-253 | queues SettingsEntries; -ENOMEM with nothing queued when the first allocation fails |
| XethSbtx.Sbtx.Service | drivers/net/ethernet/xeth/xeth_sbtx.c:103-155 | INIT_LIST_HEAD lets go of the entries already queued (still counted); the poll trace, the number of entries sent, the result and the retry and message counters are those of Serviced on the same sends and arrivals; the entries sent are, in order, the head of what other threads queued; the sleeps are Sleeps of the trace; it runs every tick unless it stops with 1 for end of file or a send error other than -EAGAIN; the queue is flushed at the end |
| XethSbtx.Sbtx.Tick | drivers/net/ethernet/xeth/xeth_sbtx.c:113-150 | one turn of the loop keeps it in step with Serviced, the queue and the backoff |
| XethSbtx.Sbtx.PollOnce | drivers/net/ethernet/xeth/xeth_sbtx.c:119-150 | one poll: empty (nothing sent), -EAGAIN (the entry pushed back, a retry counted) or taken (the head entry sent, a message counted for n > 0) |
| XethSbtx.Sbtx.Arrive | drivers/net/ethernet/xeth/xeth_sbtx.c:82-92 | what other threads queue between polls joins the tail while connected |
| XethSbtx.Idled | drivers/net/ethernet/xeth/xeth_sbtx.c:121-125 | an empty poll sleeps the current backoff and doubles it for the next |
| XethSbtx.Sent | drivers/net/ethernet/xeth/xeth_sbtx.c:129-140 | a non-empty poll resets the backoff to 10 ms, and sleeps it only after -EAGAIN |
| XethSbtx.SleepsAreBackoff | drivers/net/ethernet/xeth/xeth_sbtx.c:121-140 | every sleep of a poll trace is a backoff step |
| XethSbtx.Serviced | drivers/net/ethernet/xeth/xeth_sbtx.c:113-151 | the reference run, one poll per tick: it stops only on end of file or a send error other than -EAGAIN, polls on every tick until then, and never takes more entries than were queued or than it sent |
| XethSbtx.ServicedPolls | drivers/net/ethernet/xeth/xeth_sbtx.c:119-150 | the i-th poll comes from a run still going after i ticks; it is empty exactly when every entry queued by then has been taken, and refused exactly when it is not empty and its send returned -EAGAIN |
| XethSbtx.ServicedPrefix | drivers/net/ethernet/xeth/xeth_sbtx.c:113-151 | the i-th poll of a run is the one its (i + 1)-th tick adds |
| XethSbtx.ServicedStops | drivers/net/ethernet/xeth/xeth_sbtx.c:113 | once a send has ended the loop, later ticks change nothing |
| XethSbtx.Polled | drivers/net/ethernet/xeth/xeth_sbtx.c:121-140 | one more poll of either kind: its sleep, the next backoff and the retry count |
| XethSbtx.ModesUpTo | drivers/net/ethernet/xeth/xeth_sbtx.c:209-219 | bit b of the word is set iff mode b is, for b below the bound |
| XethSbtx.Modes | drivers/net/ethernet/xeth/xeth_sbtx.c:209-219 | bit b of the word is set iff mode b is set and b is below min(nbits, 64) |
| XethSbtx.ModesWord | drivers/net/ethernet/xeth/xeth_sbtx.c:217-219 | the bit loop builds Modes of the link-mode set |
| XethMux.MuxBits | drivers/net/ethernet/xeth/xeth_mux.c:565-572 | 12 bits for VLAN encapsulation, 0 for an unknown one |
| XethMux.LowerHash | drivers/net/ethernet/xeth/xeth_mux.c:232-241 | slot 0 for an untagged frame, else the TCI's low bit |
| XethMux.UpperHeadIndexed | drivers/net/ethernet/xeth/xeth_mux.c:706-711 | the bucket at index, or none past the last bucket |
| XethMux.GetSsetCount | drivers/net/ethernet/xeth/xeth_mux.c:403-415 | 0 for the test set, the number of counters, the number of flags, or -EOPNOTSUPP |
| XethMux.Reloaded | drivers/net/ethernet/xeth/xeth_mux.c:668-683 | reload_lowers keeps the table's length |
| XethMux.LastDivisor | drivers/net/ethernet/xeth/xeth_mux.c:677-682 | the largest k in 1..n dividing x |
| XethMux.Striped | drivers/net/ethernet/xeth/xeth_mux.c:677-682 | with no lowers a slot keeps what it held; with any, it holds one of them |
| XethMux.StripedIsLastDivisor | drivers/net/ethernet/xeth/xeth_mux.c:677-682 | slot j holds the lower whose 1-based position is the largest one dividing j + 1 |
| XethMux.ReloadedFills | drivers/net/ethernet/xeth/xeth_mux.c:668-683 | with no lowers the table is unchanged; with any, every slot names one of them |
| XethMux.XmitLower | drivers/net/ethernet/xeth/xeth_mux.c:274-303 | after a reload, untagged and even-TCI frames leave by the first lower and odd-TCI frames by the second |
| XethMux.NextHit | drivers/net/ethernet/xeth/xeth_mux.c:678 | from one slot the stride writes, the next it writes is n further on |
| XethMux.Mux.constructor | drivers/net/ethernet/xeth/xeth_mux.c:102-131 | every counter zero and no lowers |
| XethMux.Mux.CounterInc | drivers/net/ethernet/xeth/xeth_mux.c:594-599 | that counter goes up by one and no other changes |
| XethMux.Mux.ReloadLowers | drivers/net/ethernet/xeth/xeth_mux.c:668-683 | the table becomes Reloaded of the lowers |
| XethMux.Mux.Stripe | drivers/net/ethernet/xeth/xeth_mux.c:678-680 | one pass writes lowers[n-1] to slots n-1, 2n-1, … and leaves the others |
| XethUpper.Search | drivers/net/ethernet/xeth/xeth_upper.c:64-72 | the first unused xid in [base, base + range), else -ENOSPC |
| XethUpper.LnkoValidate | drivers/net/ethernet/xeth/xeth_upper.c:443-482 | the first failing check in order: address length, address, xid range, xid in use, vid range, kind; 0 when all pass |
| XethUpper.ValidateData | drivers/net/ethernet/xeth/xeth_upper.c:456-481 | the xid, vid and kind checks |
| XethUpper.Pcp | drivers/net/ethernet/xeth/xeth_upper.c:146 | the priority shifted to the top three bits of a 16-bit TCI |
| XethUpper.Vid | drivers/net/ethernet/xeth/xeth_upper.c:147-158 | the low twelve bits of the xid, as a u16 and then masked |
| XethUpper.EncapTags | drivers/net/ethernet/xeth/xeth_upper.c:141-162 | a VLAN upper pushes an 802.1Q tag with the high twelve xid bits under an 802.1ad tag with the low twelve; other uppers push one 802.1Q tag |
| XethUpper.TciFields | drivers/net/ethernet/xeth/xeth_upper.c:146-158 | a tag's fields give back its priority and vid |
| XethUpper.VlanTagsCarryXid | drivers/net/ethernet/xeth/xeth_upper.c:141-162 | a VLAN upper's two tags give back any 24-bit xid |
| XethUpper.FlagsAcceptedAsWritten | drivers/net/ethernet/xeth/xeth_upper.c:318 | as written: a word is accepted iff it is below 2^(n mod 32), the C shift count; below 32 names that is FlagsAccepted |
| XethUpper.FlagsAccepted | drivers/net/ethernet/xeth/xeth_upper.c:313-319 | corrected (see Findings): a word is accepted iff it has no bit at or past n |
| XethUpper.FlagsAcceptedMonotone | drivers/net/ethernet/xeth/xeth_upper.c:313-319 | with the corrected check, naming more flags never refuses a word accepted before |
| XethUpper.FlagsRefusedWithAllNames | drivers/net/ethernet/xeth/xeth_upper.c:318 | as written, flag 0 alone is accepted with 31 names and refused with 32 |
| XethUpper.Upper.constructor | drivers/net/ethernet/xeth/xeth_upper.c:504-604 | a new upper with its xid, settings and name tables, and zeroed counters |
| XethUpper.Upper.SetPrivFlags | drivers/net/ethernet/xeth/xeth_upper.c:313-328 | corrected (see Findings): a word with a bit past the named flags is -EINVAL and changes nothing; else it is stored and sent |
| XethUpper.Upper.GetSsetCount | drivers/net/ethernet/xeth/xeth_upper.c:243-257 | 0 for the test set, the statistic names set before the first empty one, the same for the flag names, or -EOPNOTSUPP |
| XethUpper.Upper.EthtoolStat | drivers/net/ethernet/xeth/xeth_upper.c:734-745 | the counter takes the count; an index past 512 is counted as invalid |
| XethUpper.Upper.LinkStat | drivers/net/ethernet/xeth/xeth_upper.c:747-762 | the link counter takes the count; an index past 24 is counted as invalid |
| XethUpper.Upper.ResetStats | drivers/net/ethernet/xeth/xeth_upper.c:124-139 | every link and ethtool counter is zeroed |
| XethUpper.Upper.SetLinkKsettings | drivers/net/ethernet/xeth/xeth_upper.c:364-408 | a refused request changes and sends nothing; an accepted one is Apply's result, and it is sent |
| Platina.Bounded | drivers/platform/onie/platina.c:72-76 | scnprintf into IFNAMSIZ keeps at most 15 characters |
| Platina.Ifname | drivers/platform/onie/platina.c:66-77 | the mux's name, "xeth<base+port>" or "xeth<base+port>-<base+subport>" |
| Platina.IfnameParses | drivers/platform/onie/platina.c:66-77 | port and subport names are never cut and parse back to the port and subport they came from |
| Platina.MuxIfnameNotParsed | drivers/platform/onie/platina.c:66-77 | the mux's name is not one the parser takes for a port |
| Platina.Address | drivers/platform/onie/platina.c:91-100 | the base MAC plus the offset, cut to 48 bits |
| Platina.MacOffsetAsWritten | drivers/platform/onie/platina.c:93-99 | as written: 2 for the mux, 4 + port for a port, at least 4 + port for a subport |
| Platina.MacOffset | drivers/platform/onie/platina.c:93-99 | corrected (see Findings): 2 for the mux, 4 + port for a port, and an offset past 4 whose quotient and remainder by the port count give back the subport and port |
| Platina.HwAddrAsWritten | drivers/platform/onie/platina.c:87-101 | as written: offset 2 for the mux, 4 + port, or 4 + port + 4 × subport |
| Platina.HwAddress | drivers/platform/onie/platina.c:87-101 | corrected: the subport stride is the port count, as the xids use |
| Platina.SubportMacsCollide | drivers/platform/onie/platina.c:87-101 | as written, port 0 subport 1 gets port 4 subport 0's address |
| Platina.AddressInjective | drivers/platform/onie/platina.c:91-100 | distinct offsets below 2^48 give distinct addresses |
| Platina.SubportMacsDistinct | drivers/platform/onie/platina.c:87-101 | corrected, the subports of the 32 ports have distinct addresses, none of them among the first four |
| Platina.Xid | drivers/platform/onie/platina.c:103-112 | 3000 for the mux, 3999 - port, or 3999 - port - nports × subport |
| Platina.XidsDistinct | drivers/platform/onie/platina.c:103-112 | the xids are distinct, fit 12 bits, and are never 0 or the mux's |
| Platina.PortIsSubportZero | drivers/platform/onie/platina.c:103-112 | an unsplit port and its subport 0 share an xid |
| Platina.CString | drivers/platform/onie/platina.c:297 | the characters before the first NUL |
| Platina.PartNumber | drivers/platform/onie/platina.c:288-297 | at most 254 characters of what get_tlv copied |
| Platina.Probe | drivers/platform/onie/platina.c:275-304 | get_tlv's error is passed on; one of the three part numbers goes to the mk1 probe; any other is -ENXIO |
| Platina.ProbeAccepts | drivers/platform/onie/platina.c:299-301 | a stored known part number is recognised, whatever follows its NUL |
| Platina.ProbeTruncates | drivers/platform/onie/platina.c:295-297 | a full-length value is read as its first 254 characters |
| Platina.CStringOf | drivers/platform/onie/platina.c:297 | a NUL after p makes the C string p |
| UioPciDma.Lookup | drivers/uio-pci-dma/pci.c:101-106 | none exactly when no entry has the offset, else a value stored under it |
| UioPciDma.Stored | drivers/uio-pci-dma/pci.c:101-111 | the entry is there after the write; the table grows by at most one and keeps its offsets in place |
| UioPciDma.Line | drivers/uio-pci-dma/pci.c:86-88 | "%x %x\n": two hex numbers, a space between, a newline at the end |
| UioPciDma.Listing | drivers/uio-pci-dma/pci.c:85-89 | at least four characters per entry, extending the listing of the entries before the last |
| UioPciDma.ListingPrefix | drivers/uio-pci-dma/pci.c:85-89 | the listing of the first k entries starts the listing of all of them |
| UioPciDma.IndexOf | drivers/uio-pci-dma/pci.c:101-106 | the first position holding the offset, or the table's length |
| UioPciDma.StoredMap | drivers/uio-pci-dma/pci.c:92-113 | a write keeps the offsets distinct, grows the table iff the offset is new, maps the offset to the value and leaves the rest |
| UioPciDma.IndexOfFirst | drivers/uio-pci-dma/pci.c:101-106 | IndexOf is the first position holding the offset |
| UioPciDma.ListingAppends | drivers/uio-pci-dma/pci.c:79-90 | a new offset's line is added at the end of the listing |
| UioPciDma.LineReadsBack | drivers/uio-pci-dma/pci.c:86-88 | a listed line reads back as its offset and value |
| UioPciDma.DisableRegs.Entries | drivers/uio-pci-dma/pci.c:40-48 | at most 8 entries, with distinct offsets |
| UioPciDma.DisableRegs.constructor | drivers/uio-pci-dma/pci.c:40-48 | a zeroed table |
| UioPciDma.DisableRegs.Store | drivers/uio-pci-dma/pci.c:92-113 | -EINVAL on a full table; else the table becomes Stored and the write's length is returned |
| UioPciDma.DisableRegs.Show | drivers/uio-pci-dma/pci.c:79-90 | the listing of the entries in table order |
| GoIfcache.CopyInto | drivers/net/ethernet/xeth/go/src/xeth/ifcache.go:96 | Go's copy keeps the destination's length and overwrites min(len) bytes |
| GoIfcache.Cloned | drivers/net/ethernet/xeth/go/src/xeth/ifcache.go:78-125 | with no arguments the defaults; the address always stays 6 bytes |
| GoIfcache.ApplyArgFields | drivers/net/ethernet/xeth/go/src/xeth/ifcache.go:91-120 | an argument sets the fields it names and leaves the others |
| GoIfcache.ClonedLastWins | drivers/net/ethernet/xeth/go/src/xeth/ifcache.go:91-120 | each field of a clone is the one the last argument naming it gave |
| GoIfcache.ApplyAllSnoc | drivers/net/ethernet/xeth/go/src/xeth/ifcache.go:91-120 | applying one more argument after a run is one more step of the loop |
| GoIfcache.ClonedAppend | drivers/net/ethernet/xeth/go/src/xeth/ifcache.go:91-120 | cloning a + b is applying b in order to the clone of a; a clone is its arguments applied in order to the defaults |
| GoIfcache.Entry.constructor | drivers/net/ethernet/xeth/go/src/xeth/ifcache.go:28-49 | an entry holding the value |
| GoIfcache.Ifcache.constructor | drivers/net/ethernet/xeth/go/src/xeth/ifcache.go:51-54 | empty index and name maps |
| GoIfcache.Ifcache.Clone | drivers/net/ethernet/xeth/go/src/xeth/ifcache.go:78-125 | a new entry holding Cloned(args), filed under its int32 index and its name over the old maps |
| GoIfcache.Ifcache.Indexed | drivers/net/ethernet/xeth/go/src/xeth/ifcache.go:58-66 | a hit returns the cached entry untouched; a miss clones what the host knows, so the result is never nil |
| GoIfcache.Ifcache.Named | drivers/net/ethernet/xeth/go/src/xeth/ifcache.go:68-76 | the same lookup by name |
| GoIfcache.Ifcache.Del | drivers/net/ethernet/xeth/go/src/xeth/ifcache.go:127-134 | the entry loses its index key and name key, and its address is cut to length 0 |
| GoIfcache.Ifcache.Forget | drivers/net/ethernet/xeth/go/src/xeth/ifcache.go:130-132 | the three writes of del once the entry is found |
| GoIfcache.Ifcache.Unreg | drivers/net/ethernet/xeth/go/src/xeth/ifcache.go:136-141 | the entry moves to the default namespace and nothing else changes |
| GoIfinfo.ReasonString | drivers/net/ethernet/xeth/go/src/xeth/ifinfo.go:47-65 | the reason's name, or "@" and its number past the last name |
| GoIfinfo.ReasonStringInjective | drivers/net/ethernet/xeth/go/src/xeth/ifinfo.go:47-65 | different reasons print differently |
| GoIfinfo.NameNotNumbered | drivers/net/ethernet/xeth/go/src/xeth/ifinfo.go:47-65 | no reason name starts with "@" |
| GoIfinfo.FirstSeenIgnoresMessage | drivers/net/ethernet/xeth/go/src/xeth/ifinfo.go:105-130 | as written, an uncached interface the host cannot find is left as "unknown", not under the message's name |
| GoIfinfo.CacheAsWritten | drivers/net/ethernet/xeth/go/src/xeth/ifinfo.go:101-134 | NEW clones the message; DEL and UNREG are del and unreg, and for an uncached ifindex they act on the entry Indexed clones from the host: del files it under its own index with its address cut to length 0, drops the message's ifindex key and unfiles its name; unreg files it in the default namespace; UP/DOWN set flags and REG the namespace of Indexed's entry; VLAN reasons change nothing |
| GoIfinfo.Cache | drivers/net/ethernet/xeth/go/src/xeth/ifinfo.go:101-134 | corrected: an uncached interface for UP, DOWN, DUMP or REG is cloned from the message; DEL and UNREG of an uncached ifindex act as in CacheAsWritten |
| GoPools.GetClass | drivers/net/ethernet/xeth/go/src/xeth/pools.go:53-62 | the page pool below the page size (negative lengths included), the jumbo pool from it on |
| GoPools.PutClass | drivers/net/ethernet/xeth/go/src/xeth/pools.go:64-77 | a capacity of one of the three sizes goes to that pool; any other panics |
| GoPools.PutReturnsToGetPool | drivers/net/ethernet/xeth/go/src/xeth/pools.go:53-77 | a buffer from PoolGet goes back to the pool it came from |
| GoPools.Pools.constructor | drivers/net/ethernet/xeth/go/src/xeth/pools.go:33-51 | three empty pools |
| GoPools.Pools.PoolGet | drivers/net/ethernet/xeth/go/src/xeth/pools.go:53-62 | the buffer leaves its pool (the last pooled one, or a new zeroed one); `buf[:n]` panics exactly for a negative n or one past the capacity, else the buffer has length n and its pool's capacity |
| GoPools.Pools.PoolPut | drivers/net/ethernet/xeth/go/src/xeth/pools.go:64-77 | pushed onto the pool of its capacity (page and jumbo at full length), or a panic that files nothing |
| GoXeth.LastIndex | drivers/net/ethernet/xeth/go/src/xeth/xeth.go:95-101 | the last position of a name in the list |
| GoXeth.MapIndexofStats | drivers/net/ethernet/xeth/go/src/xeth/xeth.go:95-101 | the map built is IndexMap: every name to its last position, and nothing else |
| GoXeth.IndexMapStep | drivers/net/ethernet/xeth/go/src/xeth/xeth.go:97-99 | adding a name at the end maps it to the new position and leaves the others |
| GoXeth.IndexMapDistinct | drivers/net/ethernet/xeth/go/src/xeth/xeth.go:95-101 | with distinct names, each maps to its own position |
| GoXeth.BuiltinTable | drivers/net/ethernet/xeth/go/src/xeth/xeth.go:62-87 | the built-in link-statistics table maps its 24 distinct names to positions 0..23, as MapIndexofStats would |
| GoXeth.Normalized | drivers/net/ethernet/xeth/go/src/xeth/xeth.go:137-138 | every '_' and '.' becomes '-' and nothing else changes |
| GoXeth.NormalizedIdempotent | drivers/net/ethernet/xeth/go/src/xeth/xeth.go:137-138 | normalizing twice is normalizing once |
| GoXeth.Resolve | drivers/net/ethernet/xeth/go/src/xeth/xeth.go:139-145 | the built-in table first (net stat), then the driver's (ethtool stat), else unknown |
| GoXeth.CommandFields | drivers/net/ethernet/xeth/go/src/xeth/xeth.go:146-152 | a command reads back as its op, ifindex, statindex and count |
| GoXeth.Set | drivers/net/ethernet/xeth/go/src/xeth/xeth.go:132-155 | an unknown name is an error and nothing is sent; else the bytes of the command for the resolved op and index |
| GoXeth.PutLE | drivers/net/ethernet/xeth/go/src/xeth/xeth.go:150-152 | the eight little-endian bytes of a u64 at the offset, every other byte kept |

## Left out

- I/O, locking and concurrency are not modelled: the mutexes and spinlocks,
  RCU, the sideband socket and `msleep`. The socket send is a parameter of
  `XethSbtx.Sbtx.Service`. Go's `WriteMsgUnix` is not called:
  `GoXeth.Set` returns the bytes it would write.
- The NVMEM cell read is not modelled. Its outcome is a parameter
  (`cellStatus`), and so is the writer of the raw-EEPROM driver
  (`writerResult`). OnieNvmem.Nvmem.Probe does not model the `devm_kzalloc`
  failure (-ENOMEM) or the cell read `onie_probe` starts with
  (drivers/nvmem/onie.c:490-497).
- XethPort.Port.SetPrivFlags, XethPort.Port.SetLinkKsettings and
  XethPort.Port.SetFecparam call `xeth_sbtx_et_flags` and
  `xeth_sbtx_et_settings`, which take the mux. Their bodies are not part of
  this model. They are taken to queue what `xeth_sbtx_ethtool_flags` and
  `xeth_sbtx_ethtool_settings` queue (xeth_sbtx.c:187-253), which is how
  the model sends them (`Sbtx.SendFlags`, `Sbtx.SendSettings`).
- The NVMEM driver's `onie_show_cache`, `onie_show_mac_base`,
  `onie_show_device_version`, `onie_show_num_macs`, `onie_show_crc` and
  `onie_store_crc` (drivers/nvmem/onie.c:540-606, :711-726), and the
  raw-EEPROM driver's `onie_show` (drivers/misc/eeprom/onie.c:370-416), are
  not modelled: they format a looked-up value with `scnprintf` or write the
  cache back through the NVMEM cell, and the lookup itself is modelled.
- OnieEeprom.Eeprom.Create does not model the `kzalloc` failure (-ENOMEM)
  or an error from `kobject_init_and_add` (drivers/misc/eeprom/onie.c:207-209,
  :226-228): the model's object is always created.
- XethKstrs.Kstrs.Init keeps its old tables on -ENOMEM, where the C
  releases them and leaves NULL pointers. The driver only initialises
  fresh tables, on which the two agree.
- nvmem `onie_get_tlv` unlocks twice when the cell check fails. This
  needs concurrency, which is out of scope.
- The CRC-32 is computed bit by bit (reflected polynomial 0xEDB88320). No
  proof depends on its value, only on it being a function of the bytes
  before it.
- OnieBuffer.ReadValue and OnieEeprom.Eeprom.ValueOf require the
  destination to hold every byte the walk copies. For vendor_extension
  an empty record resets the count but not the destination pointer, so
  more bytes can be copied than the count returned. The callers' page-sized
  buffers always hold them.
- OnieStore.StoreValue stores a MAC word by its low 8 bits, as the C
  `u8` assignment does. The sscanf scan is a parameter (`Scan`), and so is
  `kstrtouint`'s parse of a number (`num`, its value or error).
- The kstrs header comment promises -ERANGE for a bad index, but
  `xeth_kstrs_string` returns -EINVAL, and the model follows the code.
- XethParse.ParseXethInto, XethParse.SubportInto and XethParse.UserIdInto
  do not state the fields a refused name has already written.
- XethVlan.VlanTable.ChangeMtu requires every slot the xeth walk visits to
  hold a device. After `xeth_vlan_stop` the C code would dereference NULL.
  VLAN tag insertion's allocation failure (`vlan_insert_tag`) is not
  modelled.
- XethPort.SetLink: a refused request can still change the port's connector
  (XethPort.RefusedRequestChangesPort). This is modelled as written.
- The port and upper ksettings tables of the Platina board
  (platina.c:114-184) are not modelled. Neither are `platina_mk1_probe`'s
  registration steps or `platina_remove`; Platina.Probe stops at the
  choice of probe.
- The counter and flag counts come from `xeth_mux.c`'s name tables. The
  numeric values of the device kinds are not part of this model.
- The UIO interrupt handler and a failing `sscanf` in `store_disable_regs`
  are not modelled. The store takes the two scanned words.
- The Go ifinfo message layout is not modelled. `DefaultNetns` is 1, as
  its comment says.
- `unreg` looks up the global `Interface`, not its receiver. The model has
  one cache, so the two coincide.
- The Go `sync.Pool` hands out buffers in no promised order. The model
  hands out the last buffer put back.
- `GoXeth.Set` does not take its buffer from `SbSetStatPool`, as the
  source does not.
- The interface cache does not keep its index and name maps consistent.
  A NEW message that renames an interface leaves the old name mapped to the
  stale entry. The model keeps this behaviour: `GoIfcache.Ifcache.Valid`
  only promises that each entry is filed under its own index and name.

- OnieBuffer.CopyRecords, OnieBuffer.Assemble, OnieBuffer.Rewrite,
  OnieBuffer.Commit, OnieBuffer.ReadValue, OnieEeprom.SetTlvOutcome,
  OnieEeprom.Eeprom.ValueOf, OnieEeprom.Eeprom.SetTlv, OnieEeprom.Eeprom.Store,
  OnieNvmem.Nvmem.GetTlv, OnieNvmem.Nvmem.SetTlv, OnieNvmem.Nvmem.ShowDefault
  and OnieNvmem.Nvmem.Store require a cache whose record walk ends at a CRC
  record inside the buffer (`Walkable`, or `Value(...).Some?`). The C walks
  do not check this, and store_cache can leave a cache that breaks it
  (see Findings). Past that point the C reads and writes outside its
  buffers, which the model does not describe.
- OnieNvmem.Nvmem.CacheInit is modelled on its own. The validation that
  should call it (`onie_cache_validate`'s caller) is not modelled, because
  the call is unreachable as written (see Findings).
- XethParse and XethKstrs take names as character sequences. A NUL inside a
  name, which would end the C string early, is not modelled.
- XethMux.UpperHeadIndexed and XethMux.Mux.CounterInc do not model their
  `!priv` guard (no mux device yet): the model's mux always exists.

## Findings

| source | as written | input that shows it | evidently intended | confidence | as-written member | corrected member |
|---|---|---|---|---|---|---|
| drivers/nvmem/onie.c:268-269 | `tl` (the whole image, 17 bytes) is written as the header's TLV-area length; the one call (:321-322) is unreachable as written, because `cache.n` is a `size_t` (:109) and `cache.n < 0` never holds, so the defect is latent | any cache handed to cache_init: the header announces 28 bytes, so validation checks a CRC at bytes 24..28 that were never written | the TLV-area length 6 (the CRC record) | not executed | OnieNvmem.CacheInitAnnouncesStaleBytes | OnieNvmem.Nvmem.CacheInit |
| drivers/nvmem/onie.c:452-479 | only insert_tlv's chunks are checked against the 2048-byte bound; the records the copy path copies (:452-457) and the CRC record are written unchecked, so a long value inserted before a long record also writes past the buffer | an empty cache and a 2021-byte product_name: the chunks end at byte 2048 and the image is 2054 bytes | every write checked, -EINVAL when the image does not fit | not executed | OnieFormat.CrcRecordOverflow, OnieFormat.SetTlvImageAsWritten | OnieBuffer.Rewrite, OnieBuffer.CopyTlv |
| drivers/misc/eeprom/onie.c:494-525 | the same unchecked copy and CRC record as the NVMEM driver's set_tlv; the image is then copied whole into the 2048-byte cache (:523) and the writer's result returned (:525) | an empty cache, a writer and a 2021-byte product_name: a 2054-byte image passes the writeback buffer and the cache, and the writer's result is returned | every write checked, -EINVAL when the image does not fit | not executed | OnieEeprom.SetTlvOverruns, OnieEeprom.SetTlvOutcomeAsWritten | OnieEeprom.SetTlvOutcome, OnieEeprom.Eeprom.SetTlv |
| drivers/net/ethernet/xeth/xeth_port.c:84-94 | the count is stored into `ext[0].stats[index]` for any index below the platform's count, but `xeth_port_probe` (:506-509) allocates `ext` and its statistics only for `subport <= 0`; the sideband receiver (xeth_sbrx.c:42-43) calls it for every port device | a stat message for subport 2 with index 0: the store lands past the device's private area | statistics kept only where they were allocated, other messages counted invalid | not executed | XethPort.SubportStatOverrun | XethPort.Port.EthtoolStat |
| drivers/platform/onie/platina.c:87-101 | subport addresses use a stride of 4 | port 0 subport 1 and port 4 subport 0 get the same MAC | a stride of the port count, as the xids use | not executed | Platina.SubportMacsCollide | Platina.SubportMacsDistinct |
| drivers/net/ethernet/xeth/xeth_port.c:366-370 | BASER is assigned to `fec` | a port advertising BASER reports active_fec 0 and fec BASER alone | `active_fec = ETHTOOL_FEC_BASER` | not executed | XethPort.FecBaserNotReported | XethPort.FecRoundTrip |
| drivers/net/ethernet/xeth/xeth_upper.c:318 | `flags >= (1 << n)` with a 32-bit int shift | 32 flag names: flag word 1 is refused | every set bit one of the n named flags | not executed | XethUpper.FlagsRefusedWithAllNames | XethUpper.Upper.SetPrivFlags |
| drivers/net/ethernet/xeth/go/src/xeth/ifinfo.go:107-130 | `Indexed` never returns nil, so the `clone(info)` branches are dead | an UP message for an uncached interface the host cannot find leaves an entry named "unknown" | an uncached interface is cloned from the message | not executed | GoIfinfo.FirstSeenIgnoresMessage | GoIfinfo.Cache |
| drivers/nvmem/onie.c:639-650 | store_cache copies any bytes below 2048 over the cache without validating them; set_tlv (:449-451) and get_tlv (:380-396) then walk records until a CRC record | a 2047-byte write of the header with TLV-area length 2037 and then 0xFF bytes: the records run to the end of the buffer without a CRC record, so both walks read past it | refuse a write that leaves the cache malformed | not executed | OnieNvmem.StoreCacheRunaway | OnieNvmem.Nvmem.StoreCacheChecked |

=== FILE: bytes.dfy ===
/**
 * Bytes and fixed-width integers: big-endian fields of the ONIE header,
 * little-endian u64 fields of the sideband messages, and the C/Go
 * truncating casts written out on unbounded integers.
 */
module Bytes {
  type Byte = b: int | 0 <= b < 256

  const U16Limit: nat := 0x1_0000
  const U32Limit: nat := 0x1_0000_0000

  /** (u16)x, (u32)x and (s16)x, (s8)x conversions of C and Go. */
  function U16(x: int): (r: nat)
    ensures r < U16Limit && (0 <= x < U16Limit ==> r == x)
  { x % U16Limit }

  function U32(x: int): (r: nat)
    ensures r < U32Limit && (0 <= x < U32Limit ==> r == x)
  { x % U32Limit }

  function S16(x: int): (r: int)
    ensures -0x8000 <= r < 0x8000 && (r - x) % U16Limit == 0
    ensures -0x8000 <= x < 0x8000 ==> r == x
  { var u := x % U16Limit; if u < 0x8000 then u else u - U16Limit }

  function S32(x: int): (r: int)
    ensures -0x8000_0000 <= r < 0x8000_0000 && (r - x) % U32Limit == 0
    ensures -0x8000_0000 <= x < 0x8000_0000 ==> r == x
  { var u := x % U32Limit; if u < 0x8000_0000 then u else u - U32Limit }

  function S8(x: int): (r: int)
    ensures -0x80 <= r < 0x80 && (r - x) % 0x100 == 0
    ensures -0x80 <= x < 0x80 ==> r == x
  { var u := x % 0x100; if u < 0x80 then u else u - 0x100 }

  /** Big-endian 16- and 32-bit fields. */
  function BE16(x: nat): (r: seq<Byte>)
    requires x < U16Limit
    ensures |r| == 2
  { [x / 0x100, x % 0x100] }

  function GetBE16(s: seq<Byte>, i: nat): (r: nat)
    requires i + 2 <= |s|
    ensures r < U16Limit
  { (s[i] as int) * 0x100 + s[i + 1] }

  function BE32(x: nat): (r: seq<Byte>)
    requires x < U32Limit
    ensures |r| == 4
  { BE16(x / U16Limit) + BE16(x % U16Limit) }

  function GetBE32(s: seq<Byte>, i: nat): (r: nat)
    requires i + 4 <= |s|
    ensures r < U32Limit
  { GetBE16(s, i) * U16Limit + GetBE16(s, i + 2) }

  lemma BE16RoundTrip(x: nat, s: seq<Byte>, i: nat)
    requires x < U16Limit && i + 2 <= |s| && s[i..i + 2] == BE16(x)
    ensures GetBE16(s, i) == x
  {
    assert s[i] == BE16(x)[0] && s[i + 1] == BE16(x)[1];
  }

  lemma BE32RoundTrip(x: nat, s: seq<Byte>, i: nat)
    requires x < U32Limit && i + 4 <= |s| && s[i..i + 4] == BE32(x)
    ensures GetBE32(s, i) == x
  {
    assert s[i..i + 2] == BE16(x / U16Limit) by { assert s[i..i + 2] == s[i..i + 4][..2]; }
    assert s[i + 2..i + 4] == BE16(x % U16Limit) by { assert s[i + 2..i + 4] == s[i..i + 4][2..]; }
    BE16RoundTrip(x / U16Limit, s, i);
    BE16RoundTrip(x % U16Limit, s, i + 2);
  }

  function Pow256(n: nat): (r: nat)
    ensures r >= 1
  { if n == 0 then 1 else 0x100 * Pow256(n - 1) }

  function Pow2(k: nat): (r: nat)
    ensures r >= 1
  { if k == 0 then 1 else 2 * Pow2(k - 1) }

  /**
   * The unsigned value of the C expression 1 << n: 2^n for n below 32;
   * an over-wide shift is undefined in C and x86 shifts by n mod 32.
   */
  function ShlOne32(n: nat): (r: nat)
    ensures n < 32 ==> r == Pow2(n)
  { Pow2(n % 32) }

  /** n-byte little-endian encoding: the host order of the sideband. */
  function LE(x: nat, n: nat): (r: seq<Byte>)
    ensures |r| == n
  { if n == 0 then [] else [x % 0x100] + LE(x / 0x100, n - 1) }

  function GetLE(s: seq<Byte>): nat
  { if s == [] then 0 else (s[0] as int) + 0x100 * GetLE(s[1..]) }

  lemma {:induction false} LERoundTrip(x: nat, n: nat)
    requires x < Pow256(n)
    ensures GetLE(LE(x, n)) == x
  {
    if n > 0 {
      LERoundTrip(x / 0x100, n - 1);
      assert LE(x, n)[1..] == LE(x / 0x100, n - 1);
    }
  }

  function Zeros(n: nat): (r: seq<Byte>)
    ensures |r| == n && forall i :: 0 <= i < n ==> r[i] == 0
  { seq(n, _ => 0) }

  /** Quotient and remainder are unique. */
  lemma DivModUnique(x: nat, n: nat, q: nat, r: nat)
    requires n >= 1 && x == q * n + r && 0 <= r < n
    ensures x / n == q && x % n == r
  {
    var q', r' := x / n, x % n;
    var d: int := q - q';
    assert d * n == r' - r by {
      assert d * n == q * n - q' * n;
    }
    if d >= 1 {
      MulAtLeast(d, n);
    } else if d <= -1 {
      MulAtLeast(-d, n);
    }
  }

  lemma MulAtLeast(a: int, n: nat)
    requires a >= 1
    ensures a * n >= n
  {
  }
}

=== FILE: errno.dfy ===
/**
 * Linux error numbers used by the drivers in this model (the x86 and
 * generic asm values).  The kernel functions return them negated.
 */
module Errno {
  const EPERM: int := 1
  const ENOENT: int := 2
  const ENXIO: int := 6
  const EBADF: int := 9
  const EAGAIN: int := 11
  const ENOMEM: int := 12
  const EBUSY: int := 16
  const ENODEV: int := 19
  const EINVAL: int := 22
  const EFBIG: int := 27
  const ENOSPC: int := 28
  const ERANGE: int := 34
  const ENOMSG: int := 42
  const EIDRM: int := 43
  const EBADR: int := 53
  const EOPNOTSUPP: int := 95
  const EADDRNOTAVAIL: int := 99
}

=== FILE: ethtool.dfy ===
/**
 * The parts of Linux's ethtool interface (include/uapi/linux/ethtool.h)
 * that the xeth drivers use: connector, duplex and autoneg codes,
 * link-mode bit numbers, FEC flags, string-set ids, and the link
 * settings object.  A link-mode bitmap is the set of its bit numbers.
 */
module Ethtool {
  import opened Errno
  import opened Wrappers

  const PortTp: nat := 0x00
  const PortAui: nat := 0x01
  const PortMii: nat := 0x02
  const PortFibre: nat := 0x03
  const PortBnc: nat := 0x04
  const PortDa: nat := 0x05
  const PortNone: nat := 0xef
  const PortOther: nat := 0xff

  const DuplexHalf: nat := 0x00
  const DuplexFull: nat := 0x01
  const DuplexUnknown: nat := 0xff

  const AutonegDisable: nat := 0x00
  const AutonegEnable: nat := 0x01

  /** ETHTOOL_LINK_MODE_*_BIT */
  const ModeTp: nat := 7
  const ModeAui: nat := 8
  const ModeMii: nat := 9
  const ModeFibre: nat := 10
  const ModeBnc: nat := 11
  const ModeFecNone: nat := 49
  const ModeFecRs: nat := 50
  const ModeFecBaser: nat := 51

  /** The three FEC link modes. */
  const FecModes: set<nat> := {ModeFecNone, ModeFecRs, ModeFecBaser}

  /** struct ethtool_fecparam flags */
  const FecNone: bv32 := 1
  const FecAuto: bv32 := 2
  const FecOff: bv32 := 4
  const FecRs: bv32 := 8
  const FecBaser: bv32 := 16

  /** enum ethtool_stringset */
  const SsTest: int := 0
  const SsStats: int := 1
  const SsPrivFlags: int := 2

  type LinkModes = set<nat>

  /** struct ethtool_link_settings, the fields the drivers read or write. */
  datatype Base = Base(speed: nat, duplex: nat, port: nat, phyAddress: nat, autoneg: nat,
                       mdioSupport: nat, ethTpMdix: nat, ethTpMdixCtrl: nat)

  /** struct ethtool_link_ksettings */
  datatype KSettings = KSettings(base: Base, supported: LinkModes, advertising: LinkModes)

  /** The seven speeds (Mb/s) the drivers accept. */
  const Speeds: set<nat> := {1000, 10000, 20000, 25000, 40000, 50000, 100000}

  /** The speed check of xeth_port_validate_speed and xeth_upper_validate_speed. */
  function ValidateSpeed(speed: nat): (r: int)
    ensures r == 0 || r == -EINVAL
    ensures r == 0 <==> speed in Speeds
  {
    if speed != 100000 && speed != 50000 && speed != 40000 && speed != 25000 &&
       speed != 20000 && speed != 10000 && speed != 1000
    then -EINVAL else 0
  }

  /** The duplex check of xeth_port_validate_duplex and xeth_upper_validate_duplex. */
  function ValidateDuplex(duplex: nat): (r: int)
    ensures r == 0 || r == -EINVAL
    ensures r == 0 <==> duplex in {DuplexHalf, DuplexFull, DuplexUnknown}
  {
    if duplex != DuplexHalf && duplex != DuplexFull && duplex != DuplexUnknown then -EINVAL else 0
  }

  /**
   * The speed/duplex/autoneg part of a set_link_ksettings request, which
   * the port and upper drivers share.  Autoneg off takes a valid speed
   * and duplex as given; autoneg on takes the advertised modes when they
   * are all supported, with speed 0.  Nothing else changes.
   */
  function Apply(ks: KSettings, req: KSettings): (r: Result<KSettings>)
    ensures r.Err? ==> r.errno == EINVAL
    ensures r.Ok? ==> (r.value.supported == ks.supported && r.value.base.port == ks.base.port &&
      r.value.base.phyAddress == ks.base.phyAddress && r.value.base.mdioSupport == ks.base.mdioSupport &&
      r.value.base.ethTpMdix == ks.base.ethTpMdix && r.value.base.ethTpMdixCtrl == ks.base.ethTpMdixCtrl)
    ensures r.Ok? <==> (req.base.duplex in {DuplexHalf, DuplexFull, DuplexUnknown} &&
      if req.base.autoneg == AutonegDisable then req.base.speed in Speeds else req.advertising <= ks.supported)
    ensures r.Ok? ==> r.value.base.duplex == req.base.duplex
    ensures r.Ok? && req.base.autoneg == AutonegDisable ==>
      r.value.base.autoneg == AutonegDisable && r.value.base.speed == req.base.speed && r.value.advertising == ks.advertising
    ensures r.Ok? && req.base.autoneg != AutonegDisable ==>
      r.value.base.autoneg == AutonegEnable && r.value.base.speed == 0 && r.value.advertising == req.advertising
  {
    if req.base.autoneg == AutonegDisable then
      if ValidateSpeed(req.base.speed) != 0 then Err(EINVAL)
      else if ValidateDuplex(req.base.duplex) != 0 then Err(EINVAL)
      else Ok(ks.(base := ks.base.(autoneg := req.base.autoneg, speed := req.base.speed, duplex := req.base.duplex)))
    else if req.advertising - ks.supported != {} then Err(EINVAL)
    else if ValidateDuplex(req.base.duplex) != 0 then Err(EINVAL)
    else
      assert forall m :: m in req.advertising ==> m in req.advertising - ks.supported || m in ks.supported;
      Ok(ks.(advertising := req.advertising,
                base := ks.base.(autoneg := AutonegEnable, speed := 0, duplex := req.base.duplex)))
  }

  /** A request once accepted is accepted again and changes nothing the second time. */
  lemma ApplyIdempotent(ks: KSettings, req: KSettings)
    requires Apply(ks, req).Ok?
    ensures Apply(Apply(ks, req).value, req) == Apply(ks, req)
  {
    var k1 := Apply(ks, req).value;
    if req.base.autoneg == AutonegDisable {
      assert k1 == ks.(base := ks.base.(autoneg := req.base.autoneg, speed := req.base.speed, duplex := req.base.duplex));
    } else {
      assert k1 == ks.(advertising := req.advertising,
                       base := ks.base.(autoneg := AutonegEnable, speed := 0, duplex := req.base.duplex));
    }
  }
}

=== FILE: go_ifcache.dfy ===
/**
 * The sideband client's interface cache (go/src/xeth/ifcache.go): the
 * entries it has learnt about network interfaces, found by ifindex and by
 * name.  An entry is an object both maps may point to; clone builds one
 * from a list of field sources applied over defaults, in order, and
 * stores it under its index and its name.  A lookup that misses asks the
 * host (net.InterfaceByIndex / InterfaceByName, a parameter here) and
 * caches what it learns, or a bare entry when the host does not know the
 * interface either.
 */
module GoIfcache {
  import opened Wrappers
  import opened Bytes

  /** ETH_ALEN: the length of an entry's hardware address. */
  const EthAlen: nat := 6

  /** The network namespace of the host, 1 (other namespaces are named by inode). */
  const DefaultNetns: nat := 1

  /** DevType of an entry; the message carries one of the driver's device types. */
  datatype DevType = LinuxUnknown | DevTypeCode(code: nat)

  /** InterfaceEntry as a value. */
  datatype Iface = Iface(name: string, index: int, iflink: int, mtu: int, flags: nat,
                         hwaddr: seq<Byte>, netns: nat, id: nat, portIndex: int,
                         subportIndex: int, devType: DevType)

  /** The fields of an ifinfo message that clone reads; addr is its 6-byte address. */
  datatype MsgIfinfo = MsgIfinfo(reason: nat, ifindex: int, ifname: string, addr: seq<Byte>,
                                 flags: nat, net: nat, iflinkindex: int, id: nat,
                                 portindex: int, subportindex: int, devtype: DevType)

  /** The fields of a net.Interface that clone reads. */
  datatype NetInterface = NetInterface(index: int, mtu: int, name: string, hwaddr: seq<Byte>, flags: nat)

  /** The argument kinds clone takes, one per case of its type switch. */
  datatype Arg =
    | FromMsg(msg: MsgIfinfo)
    | FromInterface(p: NetInterface)
    | IndexArg(ifindex: int)
    | NameArg(name: string)
    | HwAddrArg(addr: seq<Byte>)
    | FlagsArg(flags: nat)
    | NetnsArg(netns: nat)

  /** Go's copy(dst, src): the first min(len(dst), len(src)) bytes of src over dst. */
  function CopyInto(dst: seq<Byte>, src: seq<Byte>): (r: seq<Byte>)
    ensures |r| == |dst|
    ensures forall i :: 0 <= i < |r| ==> r[i] == if i < |src| then src[i] else dst[i]
  {
    if |src| >= |dst| then src[..|dst|] else src + dst[|src|..]
  }

  /** The entry clone starts from. */
  function Default(): Iface
  {
    Iface("unknown", 0, 0, 1500, 0, Zeros(EthAlen), DefaultNetns, 0, -1, -1, LinuxUnknown)
  }

  /** One step of clone's loop. */
  function ApplyArg(e: Iface, a: Arg): Iface
  {
    match a
    case FromMsg(t) =>
      e.(index := t.ifindex, name := t.ifname, hwaddr := CopyInto(e.hwaddr, t.addr), flags := t.flags,
         netns := t.net, iflink := t.iflinkindex, id := t.id, portIndex := t.portindex,
         subportIndex := t.subportindex, devType := t.devtype)
    case FromInterface(t) =>
      e.(index := t.index, mtu := t.mtu, name := t.name, hwaddr := CopyInto(e.hwaddr, t.hwaddr), flags := t.flags)
    case IndexArg(i) => e.(index := i)
    case NameArg(s) => e.(name := s)
    case HwAddrArg(h) => e.(hwaddr := CopyInto(e.hwaddr, h))
    case FlagsArg(f) => e.(flags := f)
    case NetnsArg(n) => e.(netns := n)
  }

  /**
   * The entry clone builds: the arguments applied to the defaults in
   * order.  With no arguments it is the defaults: name "unknown", index
   * 0, MTU 1500, a zero 6-byte address, port and subport -1.  The
   * address stays 6 bytes long whatever is copied into it.
   */
  function Cloned(args: seq<Arg>): (r: Iface)
    ensures |r.hwaddr| == EthAlen
    ensures args == [] ==> (r.name == "unknown" && r.index == 0 && r.iflink == 0 && r.mtu == 1500 &&
      r.hwaddr == Zeros(EthAlen) && r.netns == DefaultNetns && r.devType == LinuxUnknown &&
      r.id == 0 && r.portIndex == -1 && r.subportIndex == -1)
  {
    if args == [] then Default() else ApplyArg(Cloned(args[..|args| - 1]), args[|args| - 1])
  }

  /** The fields of an entry that an argument sets outright. */
  datatype Field = NameF | IndexF | IflinkF | MtuF | FlagsF | NetnsF | IdF | PortF | SubportF | DevTypeF

  datatype Val = S(s: string) | I(i: int) | D(d: DevType)

  function Get(e: Iface, f: Field): Val
  {
    match f
    case NameF => S(e.name)
    case IndexF => I(e.index)
    case IflinkF => I(e.iflink)
    case MtuF => I(e.mtu)
    case FlagsF => I(e.flags)
    case NetnsF => I(e.netns)
    case IdF => I(e.id)
    case PortF => I(e.portIndex)
    case SubportF => I(e.subportIndex)
    case DevTypeF => D(e.devType)
  }

  /** The value an argument writes to a field, if it writes one. */
  function Writes(a: Arg, f: Field): Option<Val>
  {
    match a
    case FromMsg(t) =>
      (match f
       case NameF => Some(S(t.ifname))
       case IndexF => Some(I(t.ifindex))
       case IflinkF => Some(I(t.iflinkindex))
       case MtuF => None
       case FlagsF => Some(I(t.flags))
       case NetnsF => Some(I(t.net))
       case IdF => Some(I(t.id))
       case PortF => Some(I(t.portindex))
       case SubportF => Some(I(t.subportindex))
       case DevTypeF => Some(D(t.devtype)))
    case FromInterface(t) =>
      (match f
       case NameF => Some(S(t.name))
       case IndexF => Some(I(t.index))
       case MtuF => Some(I(t.mtu))
       case FlagsF => Some(I(t.flags))
       case _ => None)
    case IndexArg(i) => if f == IndexF then Some(I(i)) else None
    case NameArg(s) => if f == NameF then Some(S(s)) else None
    case HwAddrArg(_) => None
    case FlagsArg(x) => if f == FlagsF then Some(I(x)) else None
    case NetnsArg(n) => if f == NetnsF then Some(I(n)) else None
  }

  /** The value the last argument that writes f gives it, or the default's. */
  function LastWrite(args: seq<Arg>, f: Field): Val
  {
    if args == [] then Get(Default(), f)
    else match Writes(args[|args| - 1], f)
      case Some(v) => v
      case None => LastWrite(args[..|args| - 1], f)
  }

  /** An argument sets the fields it names and leaves the others alone. */
  lemma ApplyArgFields(e: Iface, a: Arg, f: Field)
    ensures Get(ApplyArg(e, a), f) == if Writes(a, f).Some? then Writes(a, f).value else Get(e, f)
  {
  }

  /** Later arguments win: each field of a clone is the one the last argument naming it gave. */
  lemma {:induction false} ClonedLastWins(args: seq<Arg>, f: Field)
    ensures Get(Cloned(args), f) == LastWrite(args, f)
  {
    if args != [] {
      ClonedLastWins(args[..|args| - 1], f);
      ApplyArgFields(Cloned(args[..|args| - 1]), args[|args| - 1], f);
    }
  }

  /** The arguments applied to an entry one after the other, first to last. */
  function ApplyAll(e: Iface, args: seq<Arg>): Iface
    decreases args
  {
    if args == [] then e else ApplyAll(ApplyArg(e, args[0]), args[1..])
  }

  /** Applying one more argument after a list is applying it last. */
  lemma {:induction false} ApplyAllSnoc(e: Iface, args: seq<Arg>, x: Arg)
    ensures ApplyAll(e, args + [x]) == ApplyArg(ApplyAll(e, args), x)
    decreases args
  {
    if args != [] {
      assert (args + [x])[1..] == args[1..] + [x];
      ApplyAllSnoc(ApplyArg(e, args[0]), args[1..], x);
    }
  }

  /**
   * Cloning a + b is applying b, first to last, to the clone of a; in
   * particular a clone is its arguments applied in order to the defaults.
   */
  lemma {:induction false} ClonedAppend(a: seq<Arg>, b: seq<Arg>)
    ensures Cloned(a + b) == ApplyAll(Cloned(a), b)
    ensures Cloned(b) == ApplyAll(Default(), b)
  {
    if b == [] {
      assert a + b == a;
    } else {
      var init, x := b[..|b| - 1], b[|b| - 1];
      assert b == init + [x];
      assert (a + b)[..|a + b| - 1] == a + init;
      ClonedAppend(a, init);
      ApplyAllSnoc(Cloned(a), init, x);
      ApplyAllSnoc(Default(), init, x);
    }
  }

  /** The argument a lookup that misses clones from: the host's interface, or the bare key. */
  function IndexLookupArg(ifindex: int, host: Option<NetInterface>): Arg
  {
    if host.Some? then FromInterface(host.value) else IndexArg(ifindex)
  }

  function NameLookupArg(name: string, host: Option<NetInterface>): Arg
  {
    if host.Some? then FromInterface(host.value) else NameArg(name)
  }

  /** An InterfaceEntry; name and index never change once the entry is cached. */
  class Entry {
    const name: string
    const index: int
    const iflink: int
    const mtu: int
    var flags: nat
    var hwaddr: seq<Byte>
    var netns: nat
    const id: nat
    const portIndex: int
    const subportIndex: int
    const devType: DevType

    function Value(): Iface
      reads this
    {
      Iface(name, index, iflink, mtu, flags, hwaddr, netns, id, portIndex, subportIndex, devType)
    }

    constructor (v: Iface)
      ensures Value() == v
    {
      name, index, iflink, mtu, flags, hwaddr := v.name, v.index, v.iflink, v.mtu, v.flags, v.hwaddr;
      netns, id, portIndex, subportIndex, devType := v.netns, v.id, v.portIndex, v.subportIndex, v.devType;
    }
  }

  /** Ifcache: the two maps, keyed by int32 ifindex and by name. */
  class Ifcache {
    var index: map<int, Entry>
    var name: map<string, Entry>

    /** Every entry is filed under its own (int32) index and its own name. */
    ghost predicate Valid()
      reads this
    {
      (forall k | k in index :: S32(index[k].index) == k) &&
      (forall s | s in name :: name[s].name == s)
    }

    /** The maps after e, holding v, was filed under v's index and name over index0 and name0. */
    ghost predicate Files(e: Entry, v: Iface, index0: map<int, Entry>, name0: map<string, Entry>)
      reads this, e
    {
      e.Value() == v && index == index0[S32(v.index) := e] && name == name0[v.name := e]
    }

    constructor ()
      ensures Valid() && index == map[] && name == map[]
    {
      index, name := map[], map[];
    }

    /** clone: a new entry built from args, filed under its index and its name. */
    method Clone(args: seq<Arg>) returns (e: Entry)
      requires Valid()
      modifies this
      ensures Valid() && fresh(e) && Files(e, Cloned(args), old(index), old(name))
    {
      var v := Default();
      var i := 0;
      while i < |args|
        invariant 0 <= i <= |args| && v == Cloned(args[..i])
      {
        assert args[..i + 1][..i] == args[..i];
        v := ApplyArg(v, args[i]);
        i := i + 1;
      }
      assert args[..i] == args;
      e := new Entry(v);
      index := index[S32(e.index) := e];
      name := name[e.name := e];
    }

    /**
     * Indexed: the cached entry for ifindex, untouched; on a miss a new
     * entry cloned from what the host knows of ifindex, or from ifindex
     * alone.  It never comes back empty-handed.
     */
    method Indexed(ifindex: int, host: Option<NetInterface>) returns (e: Entry)
      requires Valid() && -0x8000_0000 <= ifindex < 0x8000_0000
      modifies this
      ensures Valid()
      ensures ifindex in old(index) ==> e == old(index[ifindex]) && index == old(index) && name == old(name)
      ensures ifindex !in old(index) ==>
        fresh(e) && Files(e, Cloned([IndexLookupArg(ifindex, host)]), old(index), old(name))
      ensures ifindex !in old(index) && host.None? ==> index[ifindex] == e && e.name == "unknown"
    {
      if ifindex in index {
        return index[ifindex];
      }
      e := Clone([IndexLookupArg(ifindex, host)]);
    }

    /** Named: the same, by name. */
    method Named(s: string, host: Option<NetInterface>) returns (e: Entry)
      requires Valid()
      modifies this
      ensures Valid()
      ensures s in old(name) ==> e == old(name[s]) && index == old(index) && name == old(name)
      ensures s !in old(name) ==>
        fresh(e) && Files(e, Cloned([NameLookupArg(s, host)]), old(index), old(name))
      ensures s !in old(name) && host.None? ==> name[s] == e && e.index == 0
    {
      if s in name {
        return name[s];
      }
      e := Clone([NameLookupArg(s, host)]);
    }

    /**
     * del: the entry for ifindex (looked up as Indexed does) loses its
     * index key and the key of its name, and its address is cut to
     * length 0.  A name key taken over by a later entry goes too.
     */
    method Del(ifindex: int, host: Option<NetInterface>)
      requires Valid() && -0x8000_0000 <= ifindex < 0x8000_0000
      modifies this, (if ifindex in index then {index[ifindex]} else {})
      ensures Valid()
      ensures ifindex in old(index) ==> var e := old(index[ifindex]);
        index == old(index) - {ifindex} && name == old(name) - {e.name} &&
        e.hwaddr == [] && e.flags == old(e.flags) && e.netns == old(e.netns)
      ensures ifindex !in old(index) ==> var v := Cloned([IndexLookupArg(ifindex, host)]);
        index.Keys == old(index).Keys + {S32(v.index)} - {ifindex} &&
        (forall k | k in index && k != S32(v.index) :: index[k] == old(index[k])) &&
        (S32(v.index) in index ==> fresh(index[S32(v.index)]) && index[S32(v.index)].hwaddr == []) &&
        name == old(name) - {v.name}
    {
      var e := Indexed(ifindex, host);
      Forget(ifindex, e);
    }

    /** The three writes of del once the entry is found. */
    method Forget(ifindex: int, e: Entry)
      requires Valid()
      modifies this, e
      ensures Valid() && index == old(index) - {ifindex} && name == old(name) - {e.name}
      ensures e.hwaddr == [] && e.flags == old(e.flags) && e.netns == old(e.netns)
    {
      index := index - {ifindex};
      name := name - {e.name};
      e.hwaddr := e.hwaddr[..0];
    }

    /**
     * unreg: the entry for ifindex moves to the host's namespace.  On a
     * hit nothing else changes; a miss first caches a new entry as
     * Indexed does.
     */
    method Unreg(ifindex: int, host: Option<NetInterface>)
      requires Valid() && -0x8000_0000 <= ifindex < 0x8000_0000
      modifies this, (if ifindex in index then {index[ifindex]} else {})
      ensures Valid()
      ensures ifindex in old(index) ==> var e := old(index[ifindex]);
        index == old(index) && name == old(name) &&
        e.netns == DefaultNetns && e.flags == old(e.flags) && e.hwaddr == old(e.hwaddr)
      ensures ifindex !in old(index) ==> var v := Cloned([IndexLookupArg(ifindex, host)]);
        v.name in name && fresh(name[v.name]) &&
        Files(name[v.name], v.(netns := DefaultNetns), old(index), old(name))
    {
      var e := Indexed(ifindex, host);
      e.netns := DefaultNetns;
    }
  }
}

=== FILE: go_ifinfo.dfy ===
/**
 * The ifinfo messages of the sideband client (go/src/xeth/ifinfo.go):
 * the names of their reasons, and how each reason updates the interface
 * cache.
 */
module GoIfinfo {
  import opened Wrappers
  import opened Bytes
  import opened Text
  import opened GoIfcache

  /** XETH_IFINFO_REASON_*, in order from 0. */
  const ReasonNew: nat := 0
  const ReasonDel: nat := 1
  const ReasonUp: nat := 2
  const ReasonDown: nat := 3
  const ReasonDump: nat := 4
  const ReasonReg: nat := 5
  const ReasonUnreg: nat := 6
  const ReasonVlanAdd: nat := 7
  const ReasonVlanDel: nat := 8
  const ReasonVlanDump: nat := 9

  const ReasonNames: seq<string> :=
    ["new", "del", "up", "down", "dump", "reg", "unreg", "vlan-add", "vlan-del", "vlan-dump"]

  /** IfinfoReason.String: the reason's name, or "@" and its number past the last name. */
  function ReasonString(reason: nat): (s: string)
    ensures reason < |ReasonNames| ==> s == ReasonNames[reason]
    ensures reason >= |ReasonNames| ==> s == "@" + Decimal(reason)
  {
    if reason < |ReasonNames| then ReasonNames[reason] else "@" + Decimal(reason)
  }

  /** Different reasons print differently, so a printed reason names its reason. */
  lemma ReasonStringInjective(r1: nat, r2: nat)
    requires ReasonString(r1) == ReasonString(r2)
    ensures r1 == r2
  {
    if r1 < |ReasonNames| && r2 < |ReasonNames| {
      assert forall i, j | 0 <= i < j < |ReasonNames| :: ReasonNames[i] != ReasonNames[j];
    } else if r1 >= |ReasonNames| && r2 >= |ReasonNames| {
      assert Decimal(r1) == ReasonString(r1)[1..] == ReasonString(r2)[1..] == Decimal(r2);
      DecimalInjective(r1, r2);
    } else {
      NameNotNumbered(if r1 < |ReasonNames| then r1 else r2);
    }
  }

  /** No reason's name starts as a number's text does. */
  lemma NameNotNumbered(k: nat)
    requires k < |ReasonNames|
    ensures |ReasonNames[k]| > 0 && ReasonNames[k][0] != '@'
  {
  }

  /** What an ifinfo message leaves in the cache when its interface was not cached. */
  function FirstSeen(info: MsgIfinfo, host: Option<NetInterface>): Iface
  {
    var v := Cloned([IndexLookupArg(info.ifindex, host)]);
    if info.reason == ReasonUp || info.reason == ReasonDown then v.(flags := info.flags)
    else if info.reason == ReasonReg then v.(netns := info.net)
    else v
  }

  /**
   * A message the host cannot look up, for an interface not yet cached,
   * leaves a bare entry named "unknown" rather than the message's own
   * name, address and port numbers.
   */
  lemma FirstSeenIgnoresMessage(info: MsgIfinfo)
    requires info.reason in {ReasonUp, ReasonDown, ReasonDump, ReasonReg}
    requires info.ifname != "unknown"
    ensures FirstSeen(info, None).name == "unknown"
    ensures FirstSeen(info, None).name != Cloned([FromMsg(info)]).name
  {
  }

  /**
   * MsgIfinfo.cache as written.  NEW clones the message over whatever
   * held its index and name; DEL and UNREG are del and unreg; UP and DOWN
   * set the entry's flags, REG its namespace, and DUMP leaves a cached
   * entry alone.  For the last four the entry comes from Indexed, which
   * caches a new one on a miss, so their branch that would clone the
   * message is never taken.  The VLAN reasons change nothing.
   */
  method CacheAsWritten(c: Ifcache, info: MsgIfinfo, host: Option<NetInterface>)
    requires c.Valid() && -0x8000_0000 <= info.ifindex < 0x8000_0000
    modifies c, (if info.ifindex in c.index then {c.index[info.ifindex]} else {})
    ensures c.Valid()
    ensures info.reason == ReasonNew ==> (info.ifname in c.name && fresh(c.name[info.ifname]) &&
      c.Files(c.name[info.ifname], Cloned([FromMsg(info)]), old(c.index), old(c.name)))
    ensures info.reason in {ReasonUp, ReasonDown, ReasonDump, ReasonReg} && info.ifindex in old(c.index) ==>
      var e := old(c.index[info.ifindex]);
      c.index == old(c.index) && c.name == old(c.name) && e.hwaddr == old(e.hwaddr) &&
      e.flags == (if info.reason in {ReasonUp, ReasonDown} then info.flags else old(e.flags)) &&
      e.netns == (if info.reason == ReasonReg then info.net else old(e.netns))
    ensures info.reason in {ReasonUp, ReasonDown, ReasonDump, ReasonReg} && info.ifindex !in old(c.index) ==>
      var v := FirstSeen(info, host);
      v.name in c.name && fresh(c.name[v.name]) && c.Files(c.name[v.name], v, old(c.index), old(c.name))
    ensures info.reason == ReasonDel && info.ifindex in old(c.index) ==>
      var e := old(c.index[info.ifindex]);
      c.index == old(c.index) - {info.ifindex} && c.name == old(c.name) - {e.name} && e.hwaddr == []
    ensures info.reason == ReasonUnreg && info.ifindex in old(c.index) ==>
      var e := old(c.index[info.ifindex]);
      c.index == old(c.index) && c.name == old(c.name) && e.netns == DefaultNetns && e.flags == old(e.flags)
    ensures info.reason == ReasonDel && info.ifindex !in old(c.index) ==>
      var v := Cloned([IndexLookupArg(info.ifindex, host)]);
      c.index.Keys == old(c.index).Keys + {S32(v.index)} - {info.ifindex} &&
      (forall k | k in c.index && k != S32(v.index) :: c.index[k] == old(c.index[k])) &&
      (S32(v.index) in c.index ==> fresh(c.index[S32(v.index)]) && c.index[S32(v.index)].hwaddr == []) &&
      c.name == old(c.name) - {v.name}
    ensures info.reason == ReasonUnreg && info.ifindex !in old(c.index) ==>
      var v := Cloned([IndexLookupArg(info.ifindex, host)]);
      v.name in c.name && fresh(c.name[v.name]) &&
      c.Files(c.name[v.name], v.(netns := DefaultNetns), old(c.index), old(c.name))
    ensures info.reason !in {ReasonNew, ReasonDel, ReasonUp, ReasonDown, ReasonDump, ReasonReg, ReasonUnreg} ==>
      c.index == old(c.index) && c.name == old(c.name) &&
      (info.ifindex in old(c.index) ==> unchanged(old(c.index[info.ifindex])))
  {
    if info.reason == ReasonNew {
      var _ := c.Clone([FromMsg(info)]);
    } else if info.reason == ReasonDel {
      c.Del(info.ifindex, host);
    } else if info.reason == ReasonUp || info.reason == ReasonDown {
      var p := c.Indexed(info.ifindex, host);
      p.flags := info.flags;
    } else if info.reason == ReasonDump {
      var p := c.Indexed(info.ifindex, host);
    } else if info.reason == ReasonReg {
      var p := c.Indexed(info.ifindex, host);
      p.netns := info.net;
    } else if info.reason == ReasonUnreg {
      c.Unreg(info.ifindex, host);
    }
  }

  /**
   * MsgIfinfo.cache as its branches are evidently meant: UP, DOWN, DUMP
   * and REG update an entry that is cached and clone the message when
   * there is none.
   */
  method Cache(c: Ifcache, info: MsgIfinfo, host: Option<NetInterface>)
    requires c.Valid() && -0x8000_0000 <= info.ifindex < 0x8000_0000
    modifies c, (if info.ifindex in c.index then {c.index[info.ifindex]} else {})
    ensures c.Valid()
    ensures (info.reason in {ReasonNew, ReasonUp, ReasonDown, ReasonDump, ReasonReg} &&
      (info.reason == ReasonNew || info.ifindex !in old(c.index))) ==>
      info.ifname in c.name && fresh(c.name[info.ifname]) && info.ifindex in c.index &&
      c.index[info.ifindex] == c.name[info.ifname] &&
      c.Files(c.name[info.ifname], Cloned([FromMsg(info)]), old(c.index), old(c.name))
    ensures info.reason in {ReasonUp, ReasonDown, ReasonDump, ReasonReg} && info.ifindex in old(c.index) ==>
      var e := old(c.index[info.ifindex]);
      c.index == old(c.index) && c.name == old(c.name) && e.hwaddr == old(e.hwaddr) &&
      e.flags == (if info.reason in {ReasonUp, ReasonDown} then info.flags else old(e.flags)) &&
      e.netns == (if info.reason == ReasonReg then info.net else old(e.netns))
    ensures info.reason == ReasonDel && info.ifindex in old(c.index) ==>
      var e := old(c.index[info.ifindex]);
      c.index == old(c.index) - {info.ifindex} && c.name == old(c.name) - {e.name} && e.hwaddr == []
    ensures info.reason == ReasonUnreg && info.ifindex in old(c.index) ==>
      var e := old(c.index[info.ifindex]);
      c.index == old(c.index) && c.name == old(c.name) && e.netns == DefaultNetns && e.flags == old(e.flags)
    ensures info.reason == ReasonDel && info.ifindex !in old(c.index) ==>
      var v := Cloned([IndexLookupArg(info.ifindex, host)]);
      c.index.Keys == old(c.index).Keys + {S32(v.index)} - {info.ifindex} &&
      (forall k | k in c.index && k != S32(v.index) :: c.index[k] == old(c.index[k])) &&
      (S32(v.index) in c.index ==> fresh(c.index[S32(v.index)]) && c.index[S32(v.index)].hwaddr == []) &&
      c.name == old(c.name) - {v.name}
    ensures info.reason == ReasonUnreg && info.ifindex !in old(c.index) ==>
      var v := Cloned([IndexLookupArg(info.ifindex, host)]);
      v.name in c.name && fresh(c.name[v.name]) &&
      c.Files(c.name[v.name], v.(netns := DefaultNetns), old(c.index), old(c.name))
    ensures info.reason !in {ReasonNew, ReasonDel, ReasonUp, ReasonDown, ReasonDump, ReasonReg, ReasonUnreg} ==>
      c.index == old(c.index) && c.name == old(c.name) &&
      (info.ifindex in old(c.index) ==> unchanged(old(c.index[info.ifindex])))
  {
    if info.reason == ReasonNew {
      var _ := c.Clone([FromMsg(info)]);
    } else if info.reason == ReasonDel {
      c.Del(info.ifindex, host);
    } else if info.reason in {ReasonUp, ReasonDown, ReasonDump, ReasonReg} {
      if info.ifindex in c.index {
        var p := c.index[info.ifindex];
        if info.reason == ReasonUp || info.reason == ReasonDown {
          p.flags := info.flags;
        } else if info.reason == ReasonReg {
          p.netns := info.net;
        }
      } else {
        var _ := c.Clone([FromMsg(info)]);
      }
    } else if info.reason == ReasonUnreg {
      c.Unreg(info.ifindex, host);
    }
  }
}

=== FILE: go_pools.dfy ===
/**
 * The buffer pools of the sideband client (go/src/xeth/pools.go): three
 * pools of byte slices, one per size class (set-stat commands, pages and
 * jumbo frames).  PoolGet hands out a buffer of the requested length
 * from the page or the jumbo pool; PoolPut files a buffer by its capacity
 * and panics on a capacity no pool has.
 */
module GoPools {
  import opened Wrappers
  import opened Bytes

  /** SizeofSbHdr + SizeofSbSetStat: a 16-byte header and three u64 fields. */
  const SizeofSbHdr: nat := 0x10
  const SizeofSbSetStat: nat := 0x18
  const SizeofSbHdrSetStat: nat := SizeofSbHdr + SizeofSbSetStat

  /**
   * SizeofJumboFrame, which pools.go takes from the C macro
   * XETH_SIZEOF_JUMBO_FRAME (godefs.go:14); the value 0x2600 is that of
   * the generated SizeofMaxJumboFrame (godefed.go:7), a constant of another
   * name, since the header defining the macro is not part of this model.
   */
  const SizeofJumboFrame: nat := 0x2600

  /** A Go byte slice: its backing array (whose length is the capacity) and its length. */
  datatype Slice = Slice(backing: seq<Byte>, len: nat)
  {
    function Cap(): nat { |backing| }
    predicate Ok() { len <= |backing| }
  }

  datatype Class = SetStatClass | PageClass | JumboClass

  /** The capacity of the buffers of a class. */
  function Size(c: Class, pageSize: nat): nat
  {
    match c
    case SetStatClass => SizeofSbHdrSetStat
    case PageClass => pageSize
    case JumboClass => SizeofJumboFrame
  }

  /** The pool PoolGet draws on for n bytes. */
  function GetClass(n: int, pageSize: nat): (c: Class)
    ensures c == PageClass <==> n < pageSize
    ensures c == JumboClass <==> n >= pageSize
  {
    if n < pageSize then PageClass else JumboClass
  }

  /** The pool PoolPut files a capacity under, in the order of its cases; none means a panic. */
  function PutClass(cap: nat, pageSize: nat): (c: Option<Class>)
    ensures c.Some? <==> cap in {SizeofSbHdrSetStat, pageSize, SizeofJumboFrame}
    ensures c.Some? ==> Size(c.value, pageSize) == cap
  {
    if cap == SizeofSbHdrSetStat then Some(SetStatClass)
    else if cap == pageSize then Some(PageClass)
    else if cap == SizeofJumboFrame then Some(JumboClass)
    else None
  }

  /**
   * A buffer PoolGet handed out goes back to the pool it came from,
   * unless the page size is one of the other two sizes.
   */
  lemma PutReturnsToGetPool(n: int, pageSize: nat)
    requires pageSize != SizeofSbHdrSetStat && pageSize != SizeofJumboFrame
    ensures PutClass(Size(GetClass(n, pageSize), pageSize), pageSize) == Some(GetClass(n, pageSize))
  {
  }

  /** The three pools, each a stack of free buffers. */
  class Pools {
    const pageSize: nat
    var setStat: seq<Slice>
    var page: seq<Slice>
    var jumbo: seq<Slice>

    /**
     * Every pooled buffer has its pool's capacity; page and jumbo buffers
     * are pooled at full length, set-stat buffers at whatever length
     * they were put back with.
     */
    ghost predicate Valid()
      reads this
    {
      pageSize > 0 &&
      (forall b | b in setStat :: b.Ok() && b.Cap() == SizeofSbHdrSetStat) &&
      (forall b | b in page :: b.len == b.Cap() == pageSize) &&
      (forall b | b in jumbo :: b.len == b.Cap() == SizeofJumboFrame)
    }

    function Pool(c: Class): seq<Slice>
      reads this
    {
      match c
      case SetStatClass => setStat
      case PageClass => page
      case JumboClass => jumbo
    }

    /** syscall.Getpagesize, taken as given. */
    constructor (pageSize: nat)
      requires pageSize > 0
      ensures Valid() && this.pageSize == pageSize && setStat == page == jumbo == []
    {
      this.pageSize := pageSize;
      setStat, page, jumbo := [], [], [];
    }

    /**
     * PoolGet: a buffer of length exactly n, from the page pool when n is
     * below the page size and from the jumbo pool otherwise; the last
     * pooled buffer when there is one, a new zeroed one otherwise.
     * Slicing to a negative length or past the capacity panics, after
     * the buffer has left its pool.
     */
    method PoolGet(n: int) returns (buf: Slice, panicked: bool)
      requires Valid()
      modifies this
      ensures Valid()
      ensures panicked <==> n < 0 || n > Size(GetClass(n, pageSize), pageSize)
      ensures !panicked ==> buf.Ok() && buf.len == n && buf.Cap() == Size(GetClass(n, pageSize), pageSize)
      ensures var c := GetClass(n, pageSize); var p := old(Pool(c));
        (p != [] ==> buf.backing == p[|p| - 1].backing && Pool(c) == p[..|p| - 1]) &&
        (p == [] ==> buf.backing == Zeros(Size(c, pageSize)) && Pool(c) == p)
      ensures setStat == old(setStat)
      ensures n < pageSize ==> jumbo == old(jumbo)
      ensures n >= pageSize ==> page == old(page)
    {
      var b: Slice;
      if n < pageSize {
        if page != [] {
          b, page := page[|page| - 1], page[..|page| - 1];
        } else {
          b := Slice(Zeros(pageSize), pageSize);
        }
      } else {
        if jumbo != [] {
          b, jumbo := jumbo[|jumbo| - 1], jumbo[..|jumbo| - 1];
        } else {
          b := Slice(Zeros(SizeofJumboFrame), SizeofJumboFrame);
        }
      }
      if n < 0 || n > b.Cap() {
        return b, true;
      }
      buf, panicked := b.(len := n), false;
    }

    /**
     * PoolPut: the buffer is pushed onto the pool of its capacity, page
     * and jumbo buffers at full length and set-stat buffers as they are.
     * A capacity no pool has panics and files nothing.
     */
    method PoolPut(buf: Slice) returns (panicked: bool)
      requires Valid() && buf.Ok()
      modifies this
      ensures Valid()
      ensures panicked <==> PutClass(buf.Cap(), pageSize).None?
      ensures panicked ==> setStat == old(setStat) && page == old(page) && jumbo == old(jumbo)
      ensures buf.Cap() == SizeofSbHdrSetStat ==>
        setStat == old(setStat) + [buf] && page == old(page) && jumbo == old(jumbo)
      ensures buf.Cap() != SizeofSbHdrSetStat && buf.Cap() == pageSize ==>
        page == old(page) + [buf.(len := buf.Cap())] && setStat == old(setStat) && jumbo == old(jumbo)
      ensures buf.Cap() !in {SizeofSbHdrSetStat, pageSize} && buf.Cap() == SizeofJumboFrame ==>
        jumbo == old(jumbo) + [buf.(len := buf.Cap())] && setStat == old(setStat) && page == old(page)
    {
      panicked := false;
      if buf.Cap() == SizeofSbHdrSetStat {
        setStat := setStat + [buf];
      } else if buf.Cap() == pageSize {
        page := page + [buf.(len := buf.Cap())];
      } else if buf.Cap() == SizeofJumboFrame {
        jumbo := jumbo + [buf.(len := buf.Cap())];
      } else {
        panicked := true;
      }
    }
  }
}

=== FILE: go_xeth.dfy ===
/**
 * The stat-setting side of the sideband client (go/src/xeth/xeth.go): the
 * built-in table of the 24 link statistics, the driver's table built from
 * its list of ethtool stat names, and the set-stat command Set lays out.
 * Set sends the command over the sideband socket; here it returns the
 * command's bytes instead.
 */
module GoXeth {
  import opened Wrappers
  import opened Bytes

  /** The link statistics in indexofStat* order. */
  const NetStatNames: seq<string> := [
    "rx-packets", "tx-packets", "rx-bytes", "tx-bytes", "rx-errors", "tx-errors",
    "rx-dropped", "tx-dropped", "multicast", "collisions", "rx-length-errors",
    "rx-over-errors", "rx-crc-errors", "rx-frame-errors", "rx-fifo-errors",
    "rx-missed-errors", "tx-aborted-errors", "tx-carrier-errors", "tx-fifo-errors",
    "tx-heartbeat-errors", "tx-window-errors", "rx-compressed", "tx-compressed",
    "rx-nohandler"]

  /** The indexofStat map literal. */
  const IndexofStat: map<string, nat> := map[
    "rx-packets" := 0, "tx-packets" := 1, "rx-bytes" := 2, "tx-bytes" := 3,
    "rx-errors" := 4, "tx-errors" := 5, "rx-dropped" := 6, "tx-dropped" := 7,
    "multicast" := 8, "collisions" := 9, "rx-length-errors" := 10,
    "rx-over-errors" := 11, "rx-crc-errors" := 12, "rx-frame-errors" := 13,
    "rx-fifo-errors" := 14, "rx-missed-errors" := 15, "tx-aborted-errors" := 16,
    "tx-carrier-errors" := 17, "tx-fifo-errors" := 18, "tx-heartbeat-errors" := 19,
    "tx-window-errors" := 20, "rx-compressed" := 21, "tx-compressed" := 22,
    "rx-nohandler" := 23]

  /** SbOpSetNetStat and SbOpSetEthtoolStat: the op of a set-stat command. */
  const SbOpSetNetStat: nat := 1
  const SbOpSetEthtoolStat: nat := 2

  /** SbHdr is 16 bytes with the op last; SbSetStat is three little-endian u64s. */
  const SizeofSbHdr: nat := 0x10
  const SizeofSbSetStat: nat := 0x18
  const OpOffset: nat := 15

  const U64Limit: nat := 0x1_0000_0000_0000_0000

  /** The last position of s in stats. */
  function LastIndex(stats: seq<string>, s: string): (i: nat)
    requires s in stats
    ensures i < |stats| && stats[i] == s
    ensures forall j :: i < j < |stats| ==> stats[j] != s
  {
    if stats[|stats| - 1] == s then |stats| - 1 else LastIndex(stats[..|stats| - 1], s)
  }

  /** The map MapIndexofStats builds: each name to the last position it holds. */
  ghost function IndexMap(stats: seq<string>): map<string, nat>
  {
    map s | s in stats :: LastIndex(stats, s)
  }

  /** MapIndexofStats: every name of stats to its position, a later duplicate winning. */
  method MapIndexofStats(stats: seq<string>) returns (m: map<string, nat>)
    ensures m == IndexMap(stats)
  {
    m := map[];
    var i := 0;
    while i < |stats|
      invariant 0 <= i <= |stats| && m == IndexMap(stats[..i])
    {
      ghost var pre := stats[..i];
      assert stats[..i + 1] == pre + [stats[i]];
      IndexMapStep(pre, stats[i]);
      m := m[stats[i] := i];
      i := i + 1;
    }
    assert stats[..i] == stats;
  }

  /** Adding a name at the end maps it to the new position and leaves the others. */
  lemma IndexMapStep(pre: seq<string>, s: string)
    ensures IndexMap(pre + [s]) == IndexMap(pre)[s := |pre|]
  {
    var post := pre + [s];
    forall t | t in post && t != s
      ensures LastIndex(post, t) == LastIndex(pre, t)
    {
      assert post[..|post| - 1] == pre;
    }
  }

  /** With distinct names, each maps to its own position and nothing else is mapped. */
  lemma {:induction false} IndexMapDistinct(stats: seq<string>)
    requires forall i, j :: 0 <= i < j < |stats| ==> stats[i] != stats[j]
    ensures IndexMap(stats).Keys == set s | s in stats
    ensures forall i :: 0 <= i < |stats| ==> IndexMap(stats)[stats[i]] == i
  {
    forall i | 0 <= i < |stats|
      ensures IndexMap(stats)[stats[i]] == i
    {
      var k := LastIndex(stats, stats[i]);
      assert k == i;
    }
  }

  /**
   * The built-in table maps each of the 24 names to its position, so the
   * names are distinct and the table is the one MapIndexofStats builds
   * from them.
   */
  lemma BuiltinTable()
    ensures |NetStatNames| == 24
    ensures forall i :: 0 <= i < |NetStatNames| ==> NetStatNames[i] in IndexofStat && IndexofStat[NetStatNames[i]] == i
    ensures forall i, j :: 0 <= i < j < |NetStatNames| ==> NetStatNames[i] != NetStatNames[j]
    ensures IndexofStat == IndexMap(NetStatNames)
  {
    BuiltinRows0To4();
    BuiltinRows4To8();
    BuiltinRows8To12();
    BuiltinRows12To14();
    BuiltinRows14To16();
    BuiltinRows16To24();
    BuiltinKeys();
    TableIsIndexMap(IndexofStat, NetStatNames);
  }

  /** A table mapping each name to its position, and nothing else, is the one MapIndexofStats builds. */
  lemma TableIsIndexMap(m: map<string, nat>, names: seq<string>)
    requires forall i :: 0 <= i < |names| ==> names[i] in m && m[names[i]] == i
    requires forall s :: s in m ==> s in names
    ensures forall i, j :: 0 <= i < j < |names| ==> names[i] != names[j]
    ensures m == IndexMap(names)
  {
    IndexMapDistinct(names);
    assert m.Keys == IndexMap(names).Keys;
  }

  /** Every key of the built-in table is one of the 24 names. */
  lemma BuiltinKeys()
    ensures forall s :: s in IndexofStat ==> s in NetStatNames
  {
  }

  lemma BuiltinRows0To4()
    ensures forall i :: 0 <= i < 4 ==> NetStatNames[i] in IndexofStat && IndexofStat[NetStatNames[i]] == i
  {
  }

  lemma BuiltinRows4To8()
    ensures forall i :: 4 <= i < 8 ==> NetStatNames[i] in IndexofStat && IndexofStat[NetStatNames[i]] == i
  {
  }

  lemma BuiltinRows8To12()
    ensures forall i :: 8 <= i < 12 ==> NetStatNames[i] in IndexofStat && IndexofStat[NetStatNames[i]] == i
  {
  }

  lemma BuiltinRows12To14()
    ensures forall i :: 12 <= i < 14 ==> NetStatNames[i] in IndexofStat && IndexofStat[NetStatNames[i]] == i
  {
  }

  lemma BuiltinRows14To16()
    ensures forall i :: 14 <= i < 16 ==> NetStatNames[i] in IndexofStat && IndexofStat[NetStatNames[i]] == i
  {
  }

  lemma BuiltinRows16To24()
    ensures forall i :: 16 <= i < 24 ==> NetStatNames[i] in IndexofStat && IndexofStat[NetStatNames[i]] == i
  {
  }

  /** The name with every '_' and every '.' turned into '-'. */
  function Normalized(stat: string): (r: string)
    ensures |r| == |stat|
    ensures forall i :: 0 <= i < |r| ==> r[i] == if stat[i] in "_." then '-' else stat[i]
  {
    if stat == [] then []
    else [if stat[0] in "_." then '-' else stat[0]] + Normalized(stat[1..])
  }

  /** A normalized name has no '_' or '.' left, so normalizing again changes nothing. */
  lemma NormalizedIdempotent(stat: string)
    ensures '_' !in Normalized(stat) && '.' !in Normalized(stat)
    ensures Normalized(Normalized(stat)) == Normalized(stat)
  {
    var r := Normalized(stat);
    assert forall i :: 0 <= i < |r| ==> r[i] != '_' && r[i] != '.';
  }

  /** Which table a normalized name resolves in: op and index, the built-in table first. */
  datatype Resolved = Resolved(op: nat, statindex: nat)

  function Resolve(modstat: string, driver: map<string, nat>): (r: Option<Resolved>)
    ensures modstat in IndexofStat ==> r == Some(Resolved(SbOpSetNetStat, IndexofStat[modstat]))
    ensures modstat !in IndexofStat && modstat in driver ==> r == Some(Resolved(SbOpSetEthtoolStat, driver[modstat]))
    ensures r.None? <==> modstat !in IndexofStat && modstat !in driver
  {
    if modstat in IndexofStat then Some(Resolved(SbOpSetNetStat, IndexofStat[modstat]))
    else if modstat in driver then Some(Resolved(SbOpSetEthtoolStat, driver[modstat]))
    else None
  }

  /** The bytes of a set-stat command: a zero header but for its op, then ifindex, statindex and count. */
  function Command(op: nat, ifindex: nat, statindex: nat, count: nat): seq<Byte>
    requires op < 256
  {
    Zeros(OpOffset) + [op] + LE(ifindex, 8) + LE(statindex, 8) + LE(count, 8)
  }

  /** A command reads back as the op, ifindex, statindex and count it was made from. */
  lemma CommandFields(op: nat, ifindex: nat, statindex: nat, count: nat)
    requires op < 256 && ifindex < U64Limit && statindex < U64Limit && count < U64Limit
    ensures var b := Command(op, ifindex, statindex, count);
      |b| == SizeofSbHdr + SizeofSbSetStat && b[OpOffset] == op &&
      (forall i :: 0 <= i < OpOffset ==> b[i] == 0) &&
      GetLE(b[16..24]) == ifindex && GetLE(b[24..32]) == statindex && GetLE(b[32..40]) == count
  {
    var b := Command(op, ifindex, statindex, count);
    var h, x, y, z := Zeros(OpOffset) + [op], LE(ifindex, 8), LE(statindex, 8), LE(count, 8);
    U64Bytes();
    assert b == h + x + y + z;
    assert b[16..24] == x by {
      assert b == h + x + (y + z);
    }
    assert b[24..32] == y by {
      assert b == (h + x) + y + z;
    }
    assert b[32..40] == z by {
      assert b == (h + x + y) + z && |h + x + y| == 32;
    }
    LERoundTrip(ifindex, 8);
    LERoundTrip(statindex, 8);
    LERoundTrip(count, 8);
  }

  /** A u64 is eight bytes. */
  lemma U64Bytes()
    ensures Pow256(8) == U64Limit
  {
    assert Pow256(4) == 0x1_0000_0000 by {
      assert Pow256(2) == 0x1_0000;
    }
    assert Pow256(8) == Pow256(4) * 0x1_0000_0000 by {
      assert Pow256(8) == 0x1_0000 * Pow256(6);
      assert Pow256(6) == 0x1_0000 * Pow256(4);
    }
  }

  /**
   * Xeth.Set: the name normalized, then looked up in the built-in table
   * (a link statistic) and then in the driver's (an ethtool statistic);
   * an unknown name is an error and nothing is sent.  The command is
   * written field by field into a zeroed buffer.
   */
  method Set(driver: map<string, nat>, ifindex: nat, stat: string, count: nat) returns (r: Result<seq<Byte>>)
    requires ifindex < U64Limit && count < U64Limit
    requires forall s | s in driver :: driver[s] < U64Limit
    ensures r.Err? <==> Resolve(Normalized(stat), driver).None?
    ensures r.Ok? ==> var x := Resolve(Normalized(stat), driver).value;
      r.value == Command(x.op, ifindex, x.statindex, count)
  {
    var modstat := Normalized(stat);
    var statindex: nat;
    var op: nat;
    if modstat in IndexofStat {
      statindex, op := IndexofStat[modstat], SbOpSetNetStat;
    } else if modstat in driver {
      statindex, op := driver[modstat], SbOpSetEthtoolStat;
    } else {
      return Err(0);
    }
    var buf := new Byte[SizeofSbHdr + SizeofSbSetStat](_ => 0);
    buf[OpOffset] := op;
    ghost var hdr := Zeros(OpOffset) + [op];
    assert buf[..] == hdr + Zeros(SizeofSbSetStat);
    PutLE(buf, 16, ifindex);
    PutLE(buf, 24, statindex);
    PutLE(buf, 32, count);
    Fields(hdr, LE(ifindex, 8), LE(statindex, 8), LE(count, 8));
    return Ok(buf[..]);
  }

  /** s with w written over it from position at. */
  function Spliced(s: seq<Byte>, at: nat, w: seq<Byte>): (r: seq<Byte>)
    requires at + |w| <= |s|
    ensures |r| == |s|
  {
    s[..at] + w + s[at + |w|..]
  }

  /** Writing a field over the bytes it replaces, between a prefix and a suffix. */
  lemma SplicedAt(p: seq<Byte>, w0: seq<Byte>, q: seq<Byte>, w: seq<Byte>)
    requires |w0| == |w|
    ensures Spliced(p + w0 + q, |p|, w) == p + w + q
  {
    var s := p + w0 + q;
    assert s[..|p|] == p;
    assert s[|p| + |w|..] == q;
  }

  /** The three set-stat fields written in turn after a 16-byte header give the command. */
  lemma Fields(hdr: seq<Byte>, x: seq<Byte>, y: seq<Byte>, z: seq<Byte>)
    requires |hdr| == SizeofSbHdr && |x| == |y| == |z| == 8
    ensures Spliced(Spliced(Spliced(hdr + Zeros(SizeofSbSetStat), 16, x), 24, y), 32, z) == hdr + x + y + z
  {
    assert hdr + Zeros(SizeofSbSetStat) == hdr + Zeros(8) + Zeros(16);
    SplicedAt(hdr, Zeros(8), Zeros(16), x);
    assert hdr + x + Zeros(16) == (hdr + x) + Zeros(8) + Zeros(8);
    SplicedAt(hdr + x, Zeros(8), Zeros(8), y);
    assert hdr + x + y + Zeros(8) == (hdr + x + y) + Zeros(8) + [];
    SplicedAt(hdr + x + y, Zeros(8), [], z);
    assert (hdr + x + y) + z + [] == hdr + x + y + z;
  }

  /** The eight bytes of a little-endian u64 written at buf[at..at + 8]. */
  method PutLE(buf: array<Byte>, at: nat, x: nat)
    requires at + 8 <= buf.Length && x < U64Limit
    modifies buf
    ensures buf[..] == Spliced(old(buf[..]), at, LE(x, 8))
  {
    ghost var s := buf[..];
    var i := 0;
    var v := x;
    while i < 8
      invariant 0 <= i <= 8 && v == x / Pow256(i)
      invariant forall k :: 0 <= k < buf.Length ==> buf[k] == if at <= k < at + i then LE(x, 8)[k - at] else s[k]
    {
      LEDigit(x, 8, i);
      buf[at + i] := v % 0x100;
      DivStep(x, i);
      v := v / 0x100;
      i := i + 1;
    }
    forall k | 0 <= k < buf.Length
      ensures buf[k] == Spliced(s, at, LE(x, 8))[k]
    {
      SplicedIndex(s, at, LE(x, 8), k);
    }
  }

  lemma SplicedIndex(s: seq<Byte>, at: nat, w: seq<Byte>, k: nat)
    requires at + |w| <= |s| && k < |s|
    ensures Spliced(s, at, w)[k] == if at <= k < at + |w| then w[k - at] else s[k]
  {
  }

  /** Byte i of LE(x, n) is byte 0 of x / 256^i. */
  lemma {:induction false} LEDigit(x: nat, n: nat, i: nat)
    requires i < n
    ensures LE(x, n)[i] == (x / Pow256(i)) % 0x100
    ensures LE(x, n)[..i + 1] == LE(x, n)[..i] + [(x / Pow256(i)) % 0x100]
  {
    if i > 0 {
      LEDigit(x / 0x100, n - 1, i - 1);
      DivStep(x, i - 1);
      assert LE(x, n)[i] == LE(x / 0x100, n - 1)[i - 1];
      Div256(x, i);
    }
  }

  /** x / 256^(i+1) is x / 256^i / 256. */
  lemma DivStep(x: nat, i: nat)
    ensures x / Pow256(i + 1) == x / Pow256(i) / 0x100
  {
    DivDiv(x, Pow256(i), 0x100);
  }

  /** (x / 256) / 256^(i-1) is x / 256^i. */
  lemma Div256(x: nat, i: nat)
    requires i >= 1
    ensures x / 0x100 / Pow256(i - 1) == x / Pow256(i)
  {
    DivDiv(x, 0x100, Pow256(i - 1));
  }

  /** Dividing by a, then by b, is dividing by a * b. */
  lemma DivDiv(x: nat, a: nat, b: nat)
    requires a >= 1 && b >= 1
    ensures x / a / b == x / (a * b)
  {
    var q := x / a / b;
    var r := x / a % b;
    var s := x % a;
    assert x == a * (x / a) + s;
    assert x / a == b * q + r;
    assert x == (a * b) * q + (a * r + s) by {
      assert a * (b * q + r) == (a * b) * q + a * r;
    }
    assert a * r + s < a * b by {
      assert a * r <= a * (b - 1);
    }
    DivModUnique(x, a * b, q, a * r + s);
  }
}

=== FILE: onie_buffer.dfy ===
/**
 * The in-place walks over the 2048-byte cache and writeback buffers that
 * both ONIE drivers share: onie_value / onie_get_tlv, onie_insert_tlv and
 * the rewrite at the heart of onie_set_tlv, each proved against the
 * functions of OnieFormat.
 */
module OnieBuffer {
  import opened Bytes
  import opened Errno
  import opened Wrappers
  import opened OnieFormat

  /** memcpy: src written at byte at of dst, every other byte kept. */
  method Copy(dst: array<Byte>, at: nat, src: seq<Byte>)
    requires at + |src| <= dst.Length
    modifies dst
    ensures dst[..at] == old(dst[..at]) && dst[at..at + |src|] == src
    ensures dst[at + |src|..] == old(dst[at + |src|..])
  {
    forall i | 0 <= i < |src| {
      dst[at + i] := src[i];
    }
  }

  /**
   * memcpy at the write cursor: the buffer up to at holds image, and
   * afterwards up to at + |rec| it holds image + rec.
   */
  method Append(wb: array<Byte>, at: nat, rec: seq<Byte>, ghost image: seq<Byte>)
    requires at + |rec| <= wb.Length && wb[..at] == image
    modifies wb
    ensures wb[..at + |rec|] == image + rec
  {
    Copy(wb, at, rec);
    assert wb[..at + |rec|] == wb[..at] + wb[at..at + |rec|];
  }

  lemma Assoc(a: seq<Byte>, b: seq<Byte>, c: seq<Byte>)
    ensures (a + b) + c == a + (b + c)
  {
  }

  /** The bytes onie_insert_tlv writes for v: one record per chunk of at most 255 bytes. */
  function ChunkBytes(t: Byte, v: seq<Byte>): seq<Byte>
    decreases |v|
  {
    if v == [] then []
    else
      var n := if |v| < MaxValue then |v| else MaxValue;
      [t, n] + v[..n] + ChunkBytes(t, v[n..])
  }

  /** They are the serialised chunks of OnieFormat.Chunks. */
  lemma {:induction false} ChunkBytesSerialized(t: Byte, v: seq<Byte>)
    ensures ChunkBytes(t, v) == Serialize(Chunks(t, v))
    decreases |v|
  {
    if v != [] {
      var n := if |v| < MaxValue then |v| else MaxValue;
      var x: Tlv := Field(t, v[..n]);
      ChunkBytesSerialized(t, v[n..]);
      assert Chunks(t, v) == [x] + Chunks(t, v[n..]);
      SerializeCons(x, Chunks(t, v[n..]));
    }
  }

  /** The first chunk written from offset off of v, then the rest. */
  lemma ChunkStep(t: Byte, v: seq<Byte>, off: nat, n: nat)
    requires off < |v| && n == if |v| - off < MaxValue then |v| - off else MaxValue
    ensures ChunkBytes(t, v[off..]) == [t, n] + v[off..off + n] + ChunkBytes(t, v[off + n..])
  {
    assert v[off..][..n] == v[off..off + n] && v[off..][n..] == v[off + n..];
  }

  /**
   * onie_insert_tlv: writes v as records of type t from byte dst0 on,
   * refusing (false) the first chunk that would pass over.  On success the
   * buffer up to dst holds what it held before dst0, then the chunks.
   */
  method InsertTlv(wb: array<Byte>, dst0: nat, t: Byte, v: seq<Byte>, over: nat, ghost image: seq<Byte>)
    returns (ok: bool, dst: nat)
    requires dst0 <= over <= wb.Length && wb[..dst0] == image
    modifies wb
    ensures ok <==> dst0 + |ChunkBytes(t, v)| <= over
    ensures ok ==> dst == dst0 + |ChunkBytes(t, v)| && wb[..dst] == image + ChunkBytes(t, v)
  {
    var off := 0;
    dst := dst0;
    while off < |v|
      invariant off <= |v| && dst0 <= dst <= over
      invariant wb[..dst] + ChunkBytes(t, v[off..]) == image + ChunkBytes(t, v)
      decreases |v| - off
    {
      var n: Byte := if |v| - off < MaxValue then |v| - off else MaxValue;
      var rec: seq<Byte> := [t, n] + v[off..off + n];
      ChunkStep(t, v, off, n);
      if dst + MinTlv + n > over {
        return false, dst;
      }
      ghost var head := wb[..dst];
      Append(wb, dst, rec, head);
      Shifted(wb[..dst + MinTlv + n], head, rec, ChunkBytes(t, v[off + n..]));
      dst, off := dst + MinTlv + n, off + n;
    }
    assert v[off..] == [];
    ok := true;
  }

  /** Bytes written after head, followed by what remains to be written. */
  lemma Shifted(w: seq<Byte>, head: seq<Byte>, rec: seq<Byte>, rest: seq<Byte>)
    requires w == head + rec
    ensures w + rest == head + (rec + rest)
  {
  }

  /** The copy loop never shrinks the list it has emitted. */
  lemma {:induction false} BodyGrows(a: seq<Tlv>, b: seq<Tlv>, t: Byte, v: seq<Byte>)
    ensures |Serialize(Body(a, t, v))| <= |Serialize(Body(a + b, t, v))|
    decreases |b|
  {
    if b == [] {
      assert a + b == a;
    } else {
      var b', y := b[..|b| - 1], b[|b| - 1];
      assert (a + b)[..|a + b| - 1] == a + b';
      assert (a + b)[|a + b| - 1] == y;
      BodyGrows(a, b', t, v);
      SerializeAppend(Body(a + b', t, v), Emit(y, t, v, Absent(a + b', t)));
    }
  }

  /** A failure while copying or inserting after done means the whole rewrite does not fit. */
  lemma TooLong(done: seq<Tlv>, x: Tlv, rest: seq<Tlv>, t: Byte, v: seq<Byte>, bound: nat)
    requires |Serialize(Body(done + [x], t, v))| > bound
    ensures |Serialize(Replace(done + [x] + rest, t, v))| > bound
  {
    BodyGrows(done + [x], rest, t, v);
    var all := done + [x] + rest;
    SerializeAppend(Body(all, t, v), if Absent(all, t) then Chunks(t, v) else []);
  }

  /** The writeback limit that leaves room for the 6-byte CRC record. */
  const Limit: nat := MaxData - MinTlv - CrcSize

  /** The header onie_reset_header writes: id, version and a zero TLV-area length. */
  const BlankHeader: seq<Byte> := HeaderId + [HeaderVersion, 0, 0]

  /** onie_reset_header. */
  method ResetHeader(wb: array<Byte>)
    requires wb.Length >= HeaderSize
    modifies wb
    ensures wb[..HeaderSize] == BlankHeader && wb[HeaderSize..] == old(wb[HeaderSize..])
  {
    Copy(wb, 0, BlankHeader);
  }

  /** One record visited by the copy loop of onie_set_tlv, and what it adds to the new list. */
  lemma VisitStep(c: seq<Byte>, cp: nat, done: seq<Tlv>, tlvs: seq<Tlv>, t: Byte, v: seq<Byte>)
    returns (x: Tlv, rest: seq<Tlv>)
    requires ParseUntilCrc(c, cp).Some? && tlvs == done + ParseUntilCrc(c, cp).value && c[cp] != TypeCrc
    ensures cp + MinTlv + c[cp + 1] <= |c| && x == Field(c[cp], c[cp + MinTlv..cp + MinTlv + c[cp + 1]])
    ensures TlvBytes(x) == c[cp..cp + MinTlv + c[cp + 1]]
    ensures ParseUntilCrc(c, cp + MinTlv + c[cp + 1]) == Some(rest) && tlvs == (done + [x]) + rest
    ensures Serialize(Body(done + [x], t, v)) == Serialize(Body(done, t, v)) +
      if x.t != t then TlvBytes(x) else Serialize(Chunks(t, if Absent(done, t) then v else []))
    ensures Absent(done + [x], t) <==> Absent(done, t) && x.t != t
  {
    x, rest := ParseStep(c, cp);
    assert done + ([x] + rest) == (done + [x]) + rest;
    RecordBytes(c, cp, x);
    BodySnoc(done, x, t, v);
  }

  /** A record read at p is the bytes it was read from. */
  lemma RecordBytes(c: seq<Byte>, p: nat, x: Tlv)
    requires p + MinTlv <= |c| && p + MinTlv + c[p + 1] <= |c| && x == Field(c[p], c[p + MinTlv..p + MinTlv + c[p + 1]])
    ensures TlvBytes(x) == c[p..p + MinTlv + c[p + 1]]
  {
  }

  /** What the copy loop adds to the new list for one more visited record. */
  lemma BodySnoc(done: seq<Tlv>, x: Tlv, t: Byte, v: seq<Byte>)
    ensures Serialize(Body(done + [x], t, v)) == Serialize(Body(done, t, v)) +
      if x.t != t then TlvBytes(x) else Serialize(Chunks(t, if Absent(done, t) then v else []))
    ensures Absent(done + [x], t) <==> Absent(done, t) && x.t != t
  {
    assert (done + [x])[..|done + [x]| - 1] == done && (done + [x])[|done|] == x;
    AbsentSnoc(done, x, t);
    SerializeAppend(Body(done, t, v), Emit(x, t, v, Absent(done, t)));
    if x.t != t {
      assert Serialize([x]) == TlvBytes(x);
    }
  }

  /** memcpy of a record of another type to the write cursor; -EINVAL when it would pass Limit. */
  method CopyTlv(cache: array<Byte>, wb: array<Byte>, cp: nat, wp: nat, ghost image: seq<Byte>) returns (err: int, wp': nat)
    requires cache.Length == MaxData && wb.Length == MaxData && cache != wb
    requires cp + MinTlv <= MaxData && cp + MinTlv + cache[cp + 1] <= MaxData
    requires wp <= Limit && wb[..wp] == image
    modifies wb
    ensures err == 0 ==> wp' <= Limit && wb[..wp'] == image + cache[cp..cp + MinTlv + cache[cp + 1]]
    ensures err != 0 ==> err == -EINVAL && wp + MinTlv + cache[cp + 1] > Limit
  {
    var n := MinTlv + cache[cp + 1];
    if wp + n > Limit {
      return -EINVAL, wp;
    }
    Append(wb, wp, cache[cp..cp + n], image);
    return 0, wp + n;
  }

  /** insert_tlv of what is left of v with Limit as its bound. */
  method InsertRest(wb: array<Byte>, t: Byte, wp: nat, l: seq<Byte>, ghost image: seq<Byte>) returns (err: int, wp': nat)
    requires wb.Length == MaxData && wp <= Limit && wb[..wp] == image
    modifies wb
    ensures err == 0 ==> wp' <= Limit && wb[..wp'] == image + Serialize(Chunks(t, l))
    ensures err != 0 ==> err == -EINVAL && wp + |Serialize(Chunks(t, l))| > Limit
  {
    ChunkBytesSerialized(t, l);
    var ok, dst := InsertTlv(wb, wp, t, l, Limit, image);
    if !ok {
      return -EINVAL, wp;
    }
    return 0, dst;
  }

  /**
   * The copy loop of onie_set_tlv after onie_reset_header: records of
   * other types copied, the first record of type t replaced by v's chunks,
   * later ones dropped; every write is checked against Limit.  On success
   * the buffer up to wp holds the blank header and the new list so far,
   * and l is what is still to append.
   */
  method CopyRecords(cache: array<Byte>, wb: array<Byte>, t: Byte, v: seq<Byte>) returns (err: int, wp: nat, l: seq<Byte>)
    requires cache.Length == MaxData && wb.Length == MaxData && cache != wb
    requires Walkable(cache[..]) && wb[..HeaderSize] == BlankHeader
    modifies wb
    ensures var tlvs := CacheTlvs(cache[..]);
      if err == 0 then
        wp <= Limit && wb[..wp] == BlankHeader + Serialize(Body(tlvs, t, v)) &&
        l == (if Absent(tlvs, t) then v else [])
      else err == -EINVAL && HeaderSize + |Serialize(Replace(tlvs, t, v))| > Limit
  {
    ghost var c := cache[..];
    ghost var tlvs := CacheTlvs(c);
    wp, l := HeaderSize, v;
    ghost var done: seq<Tlv> := [];
    if (cache[9] as int) * 0x100 + cache[10] == 0 {
      assert TlvAreaSize(c) == 0;
      return 0, wp, l;
    }
    var cp := HeaderSize;
    while cache[cp] != TypeCrc
      invariant HeaderSize <= cp < MaxData
      invariant ParseUntilCrc(c, cp).Some? && tlvs == done + ParseUntilCrc(c, cp).value
      invariant wp <= Limit && wb[..wp] == BlankHeader + Serialize(Body(done, t, v))
      invariant l == if Absent(done, t) then v else []
      decreases MaxData - cp
    {
      err, wp, l, done, cp := Visit(cache, wb, t, v, cp, wp, l, c, tlvs, done);
      if err != 0 {
        return;
      }
    }
    assert done == tlvs;
    err := 0;
  }

  /**
   * One turn of the copy loop at the record at cp: copied when of another
   * type, replaced by what is left of v when of type t.
   */
  method Visit(cache: array<Byte>, wb: array<Byte>, t: Byte, v: seq<Byte>, cp: nat, wp: nat, l: seq<Byte>,
               ghost c: seq<Byte>, ghost tlvs: seq<Tlv>, ghost done: seq<Tlv>)
    returns (err: int, wp': nat, l': seq<Byte>, ghost done': seq<Tlv>, cp': nat)
    requires cache.Length == MaxData && wb.Length == MaxData && cache != wb && c == cache[..]
    requires cp < MaxData && cache[cp] != TypeCrc
    requires ParseUntilCrc(c, cp).Some? && tlvs == done + ParseUntilCrc(c, cp).value
    requires wp <= Limit && wb[..wp] == BlankHeader + Serialize(Body(done, t, v))
    requires l == if Absent(done, t) then v else []
    modifies wb
    ensures err == 0 ==>
      (cp < cp' && ParseUntilCrc(c, cp').Some? && tlvs == done' + ParseUntilCrc(c, cp').value &&
       wp' <= Limit && wb[..wp'] == BlankHeader + Serialize(Body(done', t, v)) &&
       l' == if Absent(done', t) then v else [])
    ensures err != 0 ==> err == -EINVAL && HeaderSize + |Serialize(Replace(tlvs, t, v))| > Limit
  {
    ghost var x, rest := VisitStep(c, cp, done, tlvs, t, v);
    ghost var image := BlankHeader + Serialize(Body(done, t, v));
    l', done', cp' := l, done + [x], cp + MinTlv + cache[cp + 1];
    assert ParseUntilCrc(c, cp') == Some(rest) && tlvs == done' + rest;
    if cache[cp] != t {
      err, wp' := CopyTlv(cache, wb, cp, wp, image);
      if err != 0 {
        TooLong(done, x, rest, t, v, Limit - HeaderSize);
        return;
      }
      Extended(wb[..wp'], BlankHeader, done, x, t, v, TlvBytes(x));
    } else {
      err, wp' := InsertRest(wb, t, wp, l, image);
      l' := [];
      if err != 0 {
        TooLong(done, x, rest, t, v, Limit - HeaderSize);
        return;
      }
      Extended(wb[..wp'], BlankHeader, done, x, t, v, Serialize(Chunks(t, l)));
    }
  }

  /** The written bytes after one more visited record, given what that record adds. */
  lemma Extended(w: seq<Byte>, h: seq<Byte>, done: seq<Tlv>, x: Tlv, t: Byte, v: seq<Byte>, added: seq<Byte>)
    requires w == (h + Serialize(Body(done, t, v))) + added
    requires Serialize(Body(done + [x], t, v)) == Serialize(Body(done, t, v)) + added
    ensures w == h + Serialize(Body(done + [x], t, v))
  {
    Assoc(h, Serialize(Body(done, t, v)), added);
  }

  /** The header length written over the blank header turns the records and CRC record into ImagePrefix. */
  lemma Relabel(w0: seq<Byte>, w: seq<Byte>, out: seq<Tlv>)
    requires HeaderSize + |Serialize(out)| + MinTlv + CrcSize <= MaxData
    requires |w0| == |w| && HeaderSize + |Serialize(out)| + MinTlv <= |w0|
    requires w0[..HeaderSize + |Serialize(out)| + MinTlv] == BlankHeader + Serialize(out) + CrcTlvHeader
    requires w[..9] == w0[..9] && w[9..HeaderSize] == BE16(|Serialize(out)| + MinTlv + CrcSize)
    requires w[HeaderSize..] == w0[HeaderSize..]
    ensures w[..HeaderSize + |Serialize(out)| + MinTlv] == ImagePrefix(out)
  {
    var e := HeaderSize + |Serialize(out)| + MinTlv;
    var s := BlankHeader + Serialize(out) + CrcTlvHeader;
    assert w[..e] == w[..9] + w[9..HeaderSize] + w[HeaderSize..][..e - HeaderSize];
    assert w0[..9] == s[..9] == HeaderId + [HeaderVersion];
    assert w0[HeaderSize..][..e - HeaderSize] == s[HeaderSize..] == Serialize(out) + CrcTlvHeader;
  }

  /**
   * The end of onie_set_tlv: onie_reset_crc after the records, the new
   * header length, and the CRC of everything before it (onie_append_crc).
   */
  method Seal(wb: array<Byte>, wp: nat, ghost out: seq<Tlv>) returns (tl: nat)
    requires wb.Length == MaxData && wp == HeaderSize + |Serialize(out)| <= Limit
    requires wb[..wp] == BlankHeader + Serialize(out)
    modifies wb
    ensures tl == |Build(out)| && wb[..tl] == Build(out)
  {
    tl := Label(wb, wp, out);
    Append(wb, tl - CrcSize, BE32(Crc(wb[..tl - CrcSize])), ImagePrefix(out));
  }

  /** onie_reset_crc after the records and the new header length: the image up to its CRC. */
  method Label(wb: array<Byte>, wp: nat, ghost out: seq<Tlv>) returns (tl: nat)
    requires wb.Length == MaxData && wp == HeaderSize + |Serialize(out)| <= Limit
    requires wb[..wp] == BlankHeader + Serialize(out)
    modifies wb
    ensures tl == wp + MinTlv + CrcSize && wb[..tl - CrcSize] == ImagePrefix(out)
  {
    Append(wb, wp, CrcTlvHeader + Zeros(CrcSize), BlankHeader + Serialize(out));
    assert wb[..wp + MinTlv] == BlankHeader + Serialize(out) + CrcTlvHeader by {
      assert wb[..wp + MinTlv] == wb[..wp + MinTlv + CrcSize][..wp + MinTlv];
    }
    var hl := wp - HeaderSize + MinTlv + CrcSize;
    ghost var w0 := wb[..];
    Copy(wb, 9, BE16(hl));
    Relabel(w0, wb[..], out);
    tl := HeaderSize + hl;
  }

  /**
   * onie_set_tlv up to its CRC record: a fresh header, the copy loop, and
   * v appended when the cache had no record of type t.  On success the
   * buffer up to wp holds the blank header and the new list.
   */
  method Assemble(cache: array<Byte>, wb: array<Byte>, t: Byte, v: seq<Byte>) returns (err: int, wp: nat)
    requires cache.Length == MaxData && wb.Length == MaxData && cache != wb
    requires Walkable(cache[..])
    modifies wb
    ensures var out := Replace(CacheTlvs(cache[..]), t, v);
      if err == 0 then wp <= Limit && wb[..wp] == BlankHeader + Serialize(out)
      else err == -EINVAL && HeaderSize + |Serialize(out)| > Limit
  {
    ghost var tlvs := CacheTlvs(cache[..]);
    ResetHeader(wb);
    var l;
    err, wp, l := CopyRecords(cache, wb, t, v);
    if err != 0 {
      return;
    }
    ghost var body := Serialize(Body(tlvs, t, v));
    SerializeAppend(Body(tlvs, t, v), if Absent(tlvs, t) then Chunks(t, v) else []);
    assert Serialize(Replace(tlvs, t, v)) == body + Serialize(Chunks(t, l)) by {
      if !Absent(tlvs, t) { assert Chunks(t, []) == []; }
    }
    if l != [] {
      err, wp := InsertRest(wb, t, wp, l, BlankHeader + body);
      Assoc(BlankHeader, body, Serialize(Chunks(t, l)));
    } else {
      assert Chunks(t, l) == [];
    }
  }

  /**
   * The rewrite of onie_set_tlv into the writeback buffer: the new list,
   * then the CRC record, header length and CRC.  Every write is kept below
   * Limit, so the image always fits: -EINVAL when it would not.
   */
  method Rewrite(cache: array<Byte>, wb: array<Byte>, t: Byte, v: seq<Byte>) returns (err: int, tl: nat)
    requires cache.Length == MaxData && wb.Length == MaxData && cache != wb
    requires Walkable(cache[..])
    modifies wb
    ensures var r := SetTlvImage(cache[..], t, v);
      if r.Ok? then err == 0 && tl == |r.value| && wb[..tl] == r.value else err == -r.errno
  {
    ghost var out := Replace(CacheTlvs(cache[..]), t, v);
    var wp;
    err, wp := Assemble(cache, wb, t, v);
    if err != 0 {
      return err, 0;
    }
    tl := Seal(wb, wp, out);
  }

  /**
   * The whole of onie_set_tlv's buffer work: the rewrite into the
   * writeback buffer and, on success, its copy over the start of the cache.
   */
  method Commit(cache: array<Byte>, wb: array<Byte>, t: Byte, v: seq<Byte>) returns (err: int, tl: nat)
    requires cache.Length == MaxData && wb.Length == MaxData && cache != wb
    requires Walkable(cache[..])
    modifies cache, wb
    ensures var r := SetTlvImage(old(cache[..]), t, v);
      if r.Ok? then
        err == 0 && tl == |r.value| && cache[..] == r.value + old(cache[..])[tl..] && wb[..tl] == r.value
      else err == -r.errno && unchanged(cache)
  {
    ghost var c := cache[..];
    err, tl := Rewrite(cache, wb, t, v);
    if err != 0 {
      return;
    }
    var img := wb[..tl];
    Copy(cache, 0, img);
    Joined(cache[..], tl);
  }

  lemma Joined(s: seq<Byte>, k: nat)
    requires k <= |s|
    ensures s == s[..k] + s[k..]
  {
  }

  /** One record of the walk: where the next begins, and what a match does to the running result. */
  lemma WalkStep(c: seq<Byte>, p: nat, end: nat, t: Byte, sz: nat, acc: Lookup)
    requires p < end && ValueFrom(c, p, end, t, sz, acc).Some?
    ensures p + MinTlv <= |c| && p + MinTlv + c[p + 1] <= |c|
    ensures var next := p + MinTlv + c[p + 1];
      if c[p] != t then ValueFrom(c, next, end, t, sz, acc) == ValueFrom(c, p, end, t, sz, acc)
      else
        var acc' := Take(Field(t, c[p + MinTlv..next]), sz, acc);
        |acc'.got| <= |ValueFrom(c, p, end, t, sz, acc).value.got| &&
        ValueFrom(c, p, end, t, sz, acc) == if Stops(t, acc') then Some(acc') else ValueFrom(c, next, end, t, sz, acc')
  {
  }

  /**
   * A record of the wanted type at byte p: its bytes copied to dst at w
   * (the running count n), -EINVAL when they would pass sz, the count reset
   * by an empty record.
   */
  method TakeInto(cache: array<Byte>, p: nat, t: Byte, sz: nat, dst: array<Byte>, n: int, w: nat) returns (n': int, w': nat)
    requires cache != dst && p + MinTlv <= cache.Length && p + MinTlv + cache[p + 1] <= cache.Length
    requires w <= dst.Length
    requires |Take(Field(t, cache[p + MinTlv..p + MinTlv + cache[p + 1]]), sz, Lookup(n, dst[..w])).got| <= dst.Length
    modifies dst
    ensures w' <= dst.Length
    ensures Lookup(n', dst[..w']) == Take(Field(t, cache[p + MinTlv..p + MinTlv + cache[p + 1]]), sz, Lookup(n, old(dst[..w])))
  {
    n', w' := n, w;
    if n' == -ENOMSG {
      n' := 0;
    }
    var l := cache[p + 1];
    if l > 0 {
      if sz < n' + l {
        return -EINVAL, w;
      }
      Append(dst, w, cache[p + MinTlv..p + MinTlv + l], dst[..w]);
      n', w' := n' + l, w + l;
    } else {
      n' := 0;
    }
  }

  /**
   * onie_value / onie_get_tlv over the cache array: the walk of Value,
   * copying each matching record's bytes to dst.  dst must hold every byte
   * the walk copies (see Left out in the README for vendor_extension).
   */
  method ReadValue(cache: array<Byte>, t: Byte, sz: nat, dst: array<Byte>) returns (n: int)
    requires cache.Length == MaxData && cache != dst
    requires Value(cache[..], t, sz).Some? && |Value(cache[..], t, sz).value.got| <= dst.Length
    modifies dst
    ensures n == Value(cache[..], t, sz).value.n
    ensures dst[..|Value(cache[..], t, sz).value.got|] == Value(cache[..], t, sz).value.got
  {
    ghost var c := cache[..];
    n := -ENOMSG;
    var hl := (cache[9] as int) * 0x100 + cache[10];
    assert hl == TlvAreaSize(c);
    if hl == 0 {
      return;
    }
    var end := HeaderSize + hl;
    var p := HeaderSize;
    var w: nat := 0;
    while p < end
      invariant w <= dst.Length
      invariant ValueFrom(c, p, end, t, sz, Lookup(n, dst[..w])) == Value(c, t, sz)
      decreases end - p
    {
      WalkStep(c, p, end, t, sz, Lookup(n, dst[..w]));
      var next := p + MinTlv + cache[p + 1];
      if cache[p] == t {
        n, w := TakeInto(cache, p, t, sz, dst, n, w);
        if n == -EINVAL || t != TypeVendorExtension {
          return;
        }
      }
      p := next;
    }
  }
}

=== FILE: onie_eeprom.dfy ===
/**
 * The ONIE EEPROM object of drivers/misc/eeprom/onie.c: a 2048-byte cache
 * of a validated image, the image buffer it was read from (reused as the
 * writeback buffer) and an optional writer that stores a rewritten image
 * back to the device.
 */
module OnieEeprom {
  import opened Bytes
  import opened Errno
  import opened Wrappers
  import opened OnieFormat
  import opened OnieBuffer
  import opened OnieStore

  /**
   * onie_validate(data, sz).  With sz = 0 the whole image is checked
   * (id, version, size and CRC) and its size returned; with sz > 0 only
   * the header of a partly read image is checked and the number of bytes
   * still to read is returned.  Fewer than 17 bytes is -EBADR.
   */
  function Validate(data: seq<Byte>, sz: nat): (r: int)
    requires if sz == 0 then |data| == MaxData else sz <= |data|
    ensures 0 < sz < MinData ==> r == -EBADR
    ensures sz == 0 ==> r == ValidateImage(data)
    ensures sz >= MinData ==> (r >= 0 <==> GoodHeader(data))
    ensures sz >= MinData && r >= 0 ==> r + sz == FullSize(data) || (r == 0 && FullSize(data) <= sz)
    ensures sz >= MinData && r < 0 ==> r == -EIDRM || r == -EINVAL || r == -EFBIG
  {
    if 0 < sz < MinData then -EBADR
    else if data[..8] != HeaderId then -EIDRM
    else if data[8] != HeaderVersion then -EINVAL
    else if FullSize(data) > MaxData then -EFBIG
    else if sz > 0 then (if sz < FullSize(data) then FullSize(data) - sz else 0)
    else if GetBE32(data, FullSize(data) - CrcSize) == Crc(data[..FullSize(data) - CrcSize]) then FullSize(data)
    else -EBADF
  }

  /**
   * What onie_set_tlv returns, corrected: -EPERM without a writer, -EINVAL
   * when the rewritten image would not fit the 2048-byte buffers, else the
   * writer's result.
   */
  function SetTlvOutcome(c: seq<Byte>, t: Byte, v: seq<Byte>, hasWriter: bool, writerResult: int): (r: int)
    requires Walkable(c)
    ensures !hasWriter ==> r == -EPERM
    ensures hasWriter ==> r == if SetTlvImage(c, t, v).Ok? then writerResult else -EINVAL
  {
    if !hasWriter then -EPERM
    else match SetTlvImage(c, t, v)
      case Ok(_) => writerResult
      case Err(e) => -e
  }

  /**
   * onie_set_tlv as this driver writes it: only insert_tlv's bound is
   * checked, so an image of any length is copied over the cache and handed
   * to the writer, whose result is returned.  It differs from the corrected
   * outcome only where that image passes the 2048-byte buffers.
   */
  function SetTlvOutcomeAsWritten(c: seq<Byte>, t: Byte, v: seq<Byte>, hasWriter: bool, writerResult: int): (r: int)
    requires Walkable(c)
    ensures !hasWriter ==> r == -EPERM
    ensures hasWriter && SetTlvImageAsWritten(c, t, v).Err? ==>
      r == -EINVAL && SetTlvOutcome(c, t, v, hasWriter, writerResult) == -EINVAL
    ensures r != SetTlvOutcome(c, t, v, hasWriter, writerResult) ==>
      hasWriter && SetTlvImageAsWritten(c, t, v).Ok? && |SetTlvImageAsWritten(c, t, v).value| > MaxData
  {
    if !hasWriter then -EPERM
    else match SetTlvImageAsWritten(c, t, v)
      case Ok(_) => writerResult
      case Err(e) => -e
  }

  /**
   * A 2021-byte product_name set on an empty cache: as written the
   * 2054-byte image is copied over the 2048-byte cache and the writer's
   * result is returned; the corrected set_tlv refuses it with -EINVAL.
   */
  lemma SetTlvOverruns(writerResult: int)
    ensures Walkable(Zeros(MaxData))
    ensures var c, v := Zeros(MaxData), Zeros(2021);
      var img := SetTlvImageAsWritten(c, TypeProductName, v);
      img.Ok? && |img.value| == 2054 &&
      SetTlvOutcomeAsWritten(c, TypeProductName, v, true, writerResult) == writerResult &&
      SetTlvOutcome(c, TypeProductName, v, true, writerResult) == -EINVAL
  {
    CrcRecordOverflow();
  }

  class Eeprom {
    var cache: array<Byte>
    /** priv->writeback.data: the image buffer given to onie_create. */
    var data: array<Byte>
    var hasWriter: bool
    /** The images handed to the writer, oldest first. */
    var writes: seq<seq<Byte>>

    ghost predicate Valid()
      reads this
    {
      cache.Length == MaxData && data.Length == MaxData && cache != data
    }

    /** onie_create: the zeroed cache takes a copy of the image when it validates. */
    constructor Create(image: array<Byte>, hasWriter: bool)
      requires image.Length == MaxData
      ensures Valid() && data == image && this.hasWriter == hasWriter && writes == [] && fresh(cache)
      ensures var fs := ValidateImage(image[..]);
        cache[..] == if fs > 0 then image[..fs] + Zeros(MaxData - fs) else Zeros(MaxData)
    {
      var fs := Validate(image[..], 0);
      var init := if fs > 0 then image[..fs] + Zeros(MaxData - fs) else Zeros(MaxData);
      var c := new Byte[MaxData](i requires 0 <= i < MaxData => init[i]);
      assert c[..] == init;
      cache, data, this.hasWriter, writes := c, image, hasWriter, [];
    }

    /** onie_value: the lookup of Value, with the bytes it copies out written to dst. */
    method ValueOf(t: Byte, sz: nat, dst: array<Byte>) returns (n: int)
      requires Valid() && dst != cache
      requires Value(cache[..], t, sz).Some? && |Value(cache[..], t, sz).value.got| <= dst.Length
      modifies dst
      ensures n == Value(cache[..], t, sz).value.n
      ensures dst[..|Value(cache[..], t, sz).value.got|] == Value(cache[..], t, sz).value.got
    {
      n := ReadValue(cache, t, sz, dst);
    }

    /**
     * onie_set_tlv: -EPERM without a writer, else the rewrite into the
     * writeback buffer; on success the cache takes the new image and the
     * writer is handed it.
     */
    method SetTlv(t: Byte, v: seq<Byte>, writerResult: int) returns (err: int)
      requires Valid() && Walkable(cache[..])
      modifies this, cache, data
      ensures Valid() && cache == old(cache) && data == old(data) && hasWriter == old(hasWriter)
      ensures err == SetTlvOutcome(old(cache[..]), t, v, hasWriter, writerResult)
      ensures !hasWriter ==> unchanged(cache, data) && writes == old(writes)
      ensures hasWriter ==> var r := SetTlvImage(old(cache[..]), t, v);
        if r.Ok? then
          cache[..] == r.value + old(cache[..])[|r.value|..] && data[..|r.value|] == r.value && writes == old(writes) + [r.value]
        else unchanged(cache) && writes == old(writes)
    {
      if !hasWriter {
        return -EPERM;
      }
      var e, tl := Commit(cache, data, t, v);
      if e != 0 {
        return e;
      }
      writes := writes + [data[..tl]];
      err := writerResult;
    }

    /**
     * onie_store: the argument checks of StoreValue, then onie_set_tlv;
     * the number of bytes written on success, else the first error.
     */
    method Store(t: Byte, buf: seq<Byte>, scan: Scan, num: Result<nat>, writerResult: int) returns (r: int)
      requires Valid() && Walkable(cache[..]) && |scan.words| == MacSize
      modifies this, cache, data
      ensures Valid() && cache == old(cache) && data == old(data) && hasWriter == old(hasWriter)
      ensures var s := StoreValue(t, buf, scan, num);
        if s.Err? then r == -s.errno && unchanged(cache, data) && writes == old(writes)
        else
          var e := SetTlvOutcome(old(cache[..]), t, s.value, hasWriter, writerResult);
          r == (if e < 0 then e else |buf|) &&
          (e >= 0 ==> var img := SetTlvImage(old(cache[..]), t, s.value).value;
            cache[..] == img + old(cache[..])[|img|..] && writes == old(writes) + [img])
    {
      match StoreValue(t, buf, scan, num)
      case Err(e) =>
        r := -e;
      case Ok(v) =>
        var err := SetTlv(t, v, writerResult);
        r := if err < 0 then err else |buf|;
    }
  }
}

=== FILE: onie_format.dfy ===
/**
 * The ONIE TlvInfo EEPROM format (ONIE Design Specification, Hardware
 * Requirements, "Board EEPROM Information Format") as both ONIE drivers
 * read and write it: an 11-byte header ("TlvInfo\0", version 1, big-endian
 * length of the TLV area), type-length-value records of at most 255 value
 * bytes, and a closing CRC TLV holding the IEEE 802.3 clause 3.2.9 CRC-32
 * of everything before its value.
 *
 * The images live in 2048-byte buffers (the cache and the writeback data).
 */
module OnieFormat {
  import opened Bytes
  import opened Errno
  import opened Wrappers

  const MaxData: nat := 2048
  const HeaderSize: nat := 11
  const MinTlv: nat := 2
  const CrcSize: nat := 4
  const MinData: nat := 17
  const MaxValue: nat := 255
  const HeaderVersion: Byte := 1
  const MacSize: nat := 6

  const TypeProductName: Byte := 0x21
  const TypePartNumber: Byte := 0x22
  const TypeMacBase: Byte := 0x24
  const TypeDeviceVersion: Byte := 0x26
  const TypeNumMacs: Byte := 0x2a
  const TypeVendorExtension: Byte := 0xfd
  const TypeCrc: Byte := 0xfe

  /** The type and length bytes of the CRC record. */
  const CrcTlvHeader: seq<Byte> := [TypeCrc, CrcSize as Byte]

  /** "TlvInfo" with its terminating NUL. */
  const HeaderId: seq<Byte> := [0x54, 0x6c, 0x76, 0x49, 0x6e, 0x66, 0x6f, 0x00]

  /* ---------------------------------------------------------------- CRC */

  /** k rounds of the bit-reflected CRC-32 shift register, polynomial 0xEDB88320. */
  function Shift(c: bv32, k: nat): bv32
    decreases k
  {
    if k == 0 then c
    else Shift(if c & 1 == 1 then (c >> 1) ^ 0xEDB8_8320 else c >> 1, k - 1)
  }

  /** crc32_le(seed, data). */
  function Crc32Le(seed: bv32, data: seq<Byte>): bv32
    decreases |data|
  {
    if data == [] then seed else Crc32Le(Shift(seed ^ (data[0] as bv32), 8), data[1..])
  }

  /** onie_crc: crc32_le(~0, data) ^ ~0, as an unsigned 32-bit number. */
  function Crc(data: seq<Byte>): (r: nat)
    ensures r < U32Limit
  {
    (Crc32Le(0xFFFF_FFFF, data) ^ 0xFFFF_FFFF) as nat
  }

  /* ------------------------------------------------------------- header */

  /** The TLV-area length the header announces. */
  function TlvAreaSize(data: seq<Byte>): nat
    requires |data| >= HeaderSize
  { GetBE16(data, 9) }

  /** sizeof(header) + header length: the whole image the header announces. */
  function FullSize(data: seq<Byte>): (r: nat)
    requires |data| >= HeaderSize
    ensures HeaderSize <= r
  { HeaderSize + TlvAreaSize(data) }

  predicate GoodHeader(data: seq<Byte>)
    requires |data| >= HeaderSize
  { data[..8] == HeaderId && data[8] == HeaderVersion && FullSize(data) <= MaxData }

  predicate GoodCrc(data: seq<Byte>)
    requires |data| == MaxData && GoodHeader(data)
  { GetBE32(data, FullSize(data) - CrcSize) == Crc(data[..FullSize(data) - CrcSize]) }

  /**
   * The check of a whole 2048-byte image (onie_cache_validate, and
   * onie_validate with sz = 0): the full size when the id, the version,
   * the size bound and the trailing CRC hold, else the first failing
   * check's error.
   */
  function ValidateImage(data: seq<Byte>): (r: int)
    requires |data| == MaxData
    ensures r >= 0 <==> GoodHeader(data) && GoodCrc(data)
    ensures r >= 0 ==> r == FullSize(data) && HeaderSize <= r <= MaxData
    ensures r < 0 ==> r in {-EIDRM, -EINVAL, -EFBIG, -EBADF}
    ensures r == -EIDRM <==> data[..8] != HeaderId
  {
    if data[..8] != HeaderId then -EIDRM
    else if data[8] != HeaderVersion then -EINVAL
    else if FullSize(data) > MaxData then -EFBIG
    else if GetBE32(data, FullSize(data) - CrcSize) == Crc(data[..FullSize(data) - CrcSize]) then
      FullSize(data)
    else -EBADF
  }

  /* ---------------------------------------------------------- TLV lists */

  datatype Field = Field(t: Byte, v: seq<Byte>)

  /** A TLV: its one-byte length field bounds its value to 255 bytes. */
  type Tlv = f: Field | |f.v| <= 255 witness Field(0, [])

  function TlvBytes(x: Tlv): (r: seq<Byte>)
    ensures |r| == MinTlv + |x.v| && r[0] == x.t && r[1] == |x.v| && r[2..] == x.v
  { [x.t, |x.v|] + x.v }

  /** The bytes of a run of TLVs, back to back. */
  function Serialize(tlvs: seq<Tlv>): (r: seq<Byte>)
    ensures |r| >= MinTlv * |tlvs|
  { if tlvs == [] then [] else TlvBytes(tlvs[0]) + Serialize(tlvs[1..]) }

  lemma {:induction false} SerializeAppend(a: seq<Tlv>, b: seq<Tlv>)
    ensures Serialize(a + b) == Serialize(a) + Serialize(b)
  {
    if a == [] {
      assert a + b == b;
    } else {
      assert (a + b)[1..] == a[1..] + b;
      SerializeAppend(a[1..], b);
    }
  }

  /**
   * The records of an image from byte p up to (not including) the first
   * record of type crc, as the until_onie_type_crc walk visits them; None
   * when the walk would leave the buffer.
   */
  function ParseUntilCrc(c: seq<Byte>, p: nat): (r: Option<seq<Tlv>>)
    decreases |c| - p
  {
    if p >= |c| then None
    else if c[p] == TypeCrc then Some([])
    else if p + MinTlv > |c| || p + MinTlv + c[p + 1] > |c| then None
    else
      match ParseUntilCrc(c, p + MinTlv + c[p + 1])
      case None => None
      case Some(rest) =>
        var x: Tlv := Field(c[p], c[p + MinTlv..p + MinTlv + c[p + 1]]);
        Some([x] + rest)
  }

  predicate Absent(tlvs: seq<Tlv>, t: Byte)
  { forall i :: 0 <= i < |tlvs| ==> tlvs[i].t != t }

  /** The records of type t, in order. */
  function OfType(tlvs: seq<Tlv>, t: Byte): (r: seq<Tlv>)
    ensures forall i :: 0 <= i < |r| ==> r[i].t == t
  {
    if tlvs == [] then []
    else (if tlvs[0].t == t then [tlvs[0]] else []) + OfType(tlvs[1..], t)
  }

  lemma {:induction false} OfTypeAppend(a: seq<Tlv>, b: seq<Tlv>, t: Byte)
    ensures OfType(a + b, t) == OfType(a, t) + OfType(b, t)
  {
    if a == [] {
      assert a + b == b;
    } else {
      assert (a + b)[1..] == a[1..] + b;
      OfTypeAppend(a[1..], b, t);
    }
  }

  lemma {:induction false} OfTypeAbsent(tlvs: seq<Tlv>, t: Byte)
    ensures OfType(tlvs, t) == [] <==> Absent(tlvs, t)
  {
    if tlvs != [] {
      OfTypeAbsent(tlvs[1..], t);
      assert Absent(tlvs, t) <==> tlvs[0].t != t && Absent(tlvs[1..], t) by {
        if Absent(tlvs[1..], t) && tlvs[0].t != t {
          forall i | 0 <= i < |tlvs| ensures tlvs[i].t != t {
            if i > 0 { assert tlvs[i] == tlvs[1..][i - 1]; }
          }
        }
      }
    }
  }

  /** onie_insert_tlv's split of a value into records of at most 255 bytes. */
  function Chunks(t: Byte, v: seq<Byte>): seq<Tlv>
    decreases |v|
  {
    if v == [] then []
    else
      var n := if |v| < MaxValue then |v| else MaxValue;
      var x: Tlv := Field(t, v[..n]);
      [x] + Chunks(t, v[n..])
  }

  /** The chunks' values, concatenated, give back the value; each record adds two bytes. */
  lemma {:induction false} ChunksContent(t: Byte, v: seq<Byte>)
    ensures Concat(Chunks(t, v)) == v
    ensures |Serialize(Chunks(t, v))| == |v| + MinTlv * ((|v| + MaxValue - 1) / MaxValue)
    ensures v != [] ==> Chunks(t, v)[0].v == v[..if |v| < MaxValue then |v| else MaxValue]
    decreases |v|
  {
    if v != [] {
      var n := if |v| < MaxValue then |v| else MaxValue;
      var x: Tlv := Field(t, v[..n]);
      ChunksContent(t, v[n..]);
      assert Chunks(t, v) == [x] + Chunks(t, v[n..]);
      assert ([x] + Chunks(t, v[n..]))[1..] == Chunks(t, v[n..]);
      assert Concat(Chunks(t, v)) == v[..n] + Concat(Chunks(t, v[n..]));
      assert v[..n] + v[n..] == v;
      assert |Serialize(Chunks(t, v))| == MinTlv + n + |Serialize(Chunks(t, v[n..]))|;
      ChunkCount(|v|, n);
    }
  }

  /** The record count of a value of k bytes, one chunk at a time. */
  lemma ChunkCount(k: nat, n: nat)
    requires k > 0 && n == if k < MaxValue then k else MaxValue
    ensures (k + MaxValue - 1) / MaxValue == 1 + (k - n + MaxValue - 1) / MaxValue
  {
    if k >= MaxValue {
      assert k + MaxValue - 1 == (k - n + MaxValue - 1) + MaxValue;
    }
  }

  /** The values of a run of records, concatenated. */
  function Concat(tlvs: seq<Tlv>): seq<Byte>
  { if tlvs == [] then [] else tlvs[0].v + Concat(tlvs[1..]) }

  lemma {:induction false} OfTypeChunks(t: Byte, u: Byte, v: seq<Byte>)
    ensures OfType(Chunks(t, v), u) == if u == t then Chunks(t, v) else []
    decreases |v|
  {
    if v != [] {
      var n := if |v| < MaxValue then |v| else MaxValue;
      OfTypeChunks(t, u, v[n..]);
      assert ([Field(t, v[..n])] + Chunks(t, v[n..]))[1..] == Chunks(t, v[n..]);
    }
  }

  /* ------------------------------------------------ the set_tlv rewrite */

  /** What the copy loop emits for one cached record: itself, the new value's chunks once, or nothing. */
  function Emit(x: Tlv, t: Byte, v: seq<Byte>, first: bool): seq<Tlv>
  {
    if x.t != t then [x] else if first then Chunks(t, v) else []
  }

  /** The records the copy loop has emitted after visiting tlvs. */
  function Body(tlvs: seq<Tlv>, t: Byte, v: seq<Byte>): seq<Tlv>
    decreases |tlvs|
  {
    if tlvs == [] then []
    else
      var init := tlvs[..|tlvs| - 1];
      Body(init, t, v) + Emit(tlvs[|tlvs| - 1], t, v, Absent(init, t))
  }

  /** The new TLV list: other records kept in order, the first record of type t replaced, later ones dropped, or the value appended. */
  function Replace(tlvs: seq<Tlv>, t: Byte, v: seq<Byte>): (r: seq<Tlv>)
    ensures Absent(tlvs, t) ==> r == tlvs + Chunks(t, v)
  {
    if Absent(tlvs, t) then
      BodyAbsent(tlvs, t, v);
      Body(tlvs, t, v) + Chunks(t, v)
    else Body(tlvs, t, v)
  }

  /** Without a record of type t the copy loop copies every record. */
  lemma {:induction false} BodyAbsent(tlvs: seq<Tlv>, t: Byte, v: seq<Byte>)
    requires Absent(tlvs, t)
    ensures Body(tlvs, t, v) == tlvs
    decreases |tlvs|
  {
    if tlvs != [] {
      var init, x := tlvs[..|tlvs| - 1], tlvs[|tlvs| - 1];
      assert tlvs == init + [x];
      AbsentSnoc(init, x, t);
      BodyAbsent(init, t, v);
    }
  }

  lemma AbsentSnoc(init: seq<Tlv>, x: Tlv, t: Byte)
    ensures Absent(init + [x], t) <==> Absent(init, t) && x.t != t
  {
    if Absent(init, t) && x.t != t {
      forall i | 0 <= i < |init| + 1 ensures (init + [x])[i].t != t {
        if i < |init| { assert (init + [x])[i] == init[i]; }
      }
    }
    if Absent(init + [x], t) {
      assert (init + [x])[|init|] == x;
      forall i | 0 <= i < |init| ensures init[i].t != t {
        assert (init + [x])[i] == init[i];
      }
    }
  }

  lemma {:induction false} BodyOfType(tlvs: seq<Tlv>, t: Byte, v: seq<Byte>, u: Byte)
    ensures OfType(Body(tlvs, t, v), u) ==
      if u != t then OfType(tlvs, u) else if Absent(tlvs, t) then [] else Chunks(t, v)
    decreases |tlvs|
  {
    if tlvs != [] {
      var init, x := tlvs[..|tlvs| - 1], tlvs[|tlvs| - 1];
      assert tlvs == init + [x];
      var first := Absent(init, t);
      var e := Emit(x, t, v, first);
      assert Body(tlvs, t, v) == Body(init, t, v) + e;
      BodyOfType(init, t, v, u);
      OfTypeAppend(Body(init, t, v), e, u);
      EmitOfType(x, t, v, first, u);
      if u != t {
        OfTypeAppend(init, [x], u);
      } else {
        AbsentSnoc(init, x, t);
      }
    }
  }

  /** The records of type u one visited record emits. */
  lemma EmitOfType(x: Tlv, t: Byte, v: seq<Byte>, first: bool, u: Byte)
    ensures OfType(Emit(x, t, v, first), u) ==
      if u != t then OfType([x], u) else if x.t == t && first then Chunks(t, v) else []
  {
    OfTypeChunks(t, u, v);
    assert OfType([x], u) == if x.t == u then [x] else [];
  }

  /** After the rewrite, the records of type t are exactly the new value's chunks; every other type keeps its records. */
  lemma ReplaceOfType(tlvs: seq<Tlv>, t: Byte, v: seq<Byte>, u: Byte)
    ensures OfType(Replace(tlvs, t, v), u) == if u == t then Chunks(t, v) else OfType(tlvs, u)
  {
    BodyOfType(tlvs, t, v, u);
    OfTypeAppend(Body(tlvs, t, v), if Absent(tlvs, t) then Chunks(t, v) else [], u);
    OfTypeChunks(t, u, v);
  }

  /** The image written after the records: header with the new length, records, CRC TLV and CRC. */
  function ImagePrefix(tlvs: seq<Tlv>): (r: seq<Byte>)
    requires HeaderSize + |Serialize(tlvs)| + MinTlv + CrcSize <= MaxData
    ensures |r| == HeaderSize + |Serialize(tlvs)| + MinTlv
  {
    HeaderId + [HeaderVersion] + BE16(|Serialize(tlvs)| + MinTlv + CrcSize) + Serialize(tlvs) + CrcTlvHeader
  }

  function Build(tlvs: seq<Tlv>): (r: seq<Byte>)
    requires HeaderSize + |Serialize(tlvs)| + MinTlv + CrcSize <= MaxData
    ensures |r| == HeaderSize + |Serialize(tlvs)| + MinTlv + CrcSize <= MaxData
  {
    var p := ImagePrefix(tlvs);
    p + BE32(Crc(p))
  }

  /** A built image's header: id, version and the announced TLV-area length. */
  lemma BuiltHeader(tlvs: seq<Tlv>, rest: seq<Byte>)
    requires HeaderSize + |Serialize(tlvs)| + MinTlv + CrcSize <= MaxData
    requires |Build(tlvs)| + |rest| == MaxData
    ensures var d := Build(tlvs) + rest;
      d[..8] == HeaderId && d[8] == HeaderVersion &&
      TlvAreaSize(d) == |Serialize(tlvs)| + MinTlv + CrcSize && FullSize(d) == |Build(tlvs)|
  {
    var d := Build(tlvs) + rest;
    var s := |Serialize(tlvs)| + MinTlv + CrcSize;
    BuiltLayout(tlvs, rest);
    BE16RoundTrip(s, d, 9);
  }

  /** A built image, followed by whatever the buffer held beyond it, validates with its own size. */
  lemma BuildValidates(tlvs: seq<Tlv>, rest: seq<Byte>)
    requires HeaderSize + |Serialize(tlvs)| + MinTlv + CrcSize <= MaxData
    requires |Build(tlvs)| + |rest| == MaxData
    ensures ValidateImage(Build(tlvs) + rest) == |Build(tlvs)|
  {
    var p := ImagePrefix(tlvs);
    var d := Build(tlvs) + rest;
    BuiltHeader(tlvs, rest);
    BuiltLayout(tlvs, rest);
    BE32RoundTrip(Crc(p), d, |p|);
  }

  /** Where each part of a built image sits in the buffer. */
  lemma BuiltLayout(tlvs: seq<Tlv>, rest: seq<Byte>)
    requires HeaderSize + |Serialize(tlvs)| + MinTlv + CrcSize <= MaxData
    requires |Build(tlvs)| + |rest| == MaxData
    ensures var d := Build(tlvs) + rest; var e := HeaderSize + |Serialize(tlvs)|;
      var w := BE32(Crc(ImagePrefix(tlvs)));
      d[..8] == HeaderId && d[8] == HeaderVersion && d[9..11] == BE16(|Serialize(tlvs)| + MinTlv + CrcSize) &&
      d[HeaderSize..e] == Serialize(tlvs) && d[e] == TypeCrc && d[e + 1] == CrcSize &&
      d[..e + MinTlv] == ImagePrefix(tlvs) && d[e + MinTlv..e + MinTlv + CrcSize] == w &&
      d[HeaderSize..e + MinTlv + CrcSize] == Serialize(tlvs) + CrcTlvHeader + w
  {
    var n, w := BE16(|Serialize(tlvs)| + MinTlv + CrcSize), BE32(Crc(ImagePrefix(tlvs)));
    BuiltParts(tlvs, rest);
    ImageLayout(Build(tlvs) + rest, HeaderId, HeaderVersion, n, Serialize(tlvs), CrcTlvHeader, w, rest);
    assert CrcTlvHeader[0] == TypeCrc && CrcTlvHeader[1] == CrcSize;
  }

  /** A built image followed by rest, as the concatenation of its parts. */
  lemma BuiltParts(tlvs: seq<Tlv>, rest: seq<Byte>)
    requires HeaderSize + |Serialize(tlvs)| + MinTlv + CrcSize <= MaxData
    ensures var n, w := BE16(|Serialize(tlvs)| + MinTlv + CrcSize), BE32(Crc(ImagePrefix(tlvs)));
      ImagePrefix(tlvs) == HeaderId + [HeaderVersion] + n + Serialize(tlvs) + CrcTlvHeader &&
      Build(tlvs) + rest == HeaderId + [HeaderVersion] + n + Serialize(tlvs) + CrcTlvHeader + w + rest
  {
  }

  /** The parts of id + [v] + n + s + c + w + rest, each at its offset. */
  lemma ImageLayout(d: seq<Byte>, id: seq<Byte>, v: Byte, n: seq<Byte>, s: seq<Byte>, c: seq<Byte>, w: seq<Byte>, rest: seq<Byte>)
    requires |id| == 8 && |n| == 2 && |c| == MinTlv && |w| == CrcSize
    requires d == id + [v] + n + s + c + w + rest
    ensures var e := HeaderSize + |s|;
      d[..8] == id && d[8] == v && d[9..11] == n &&
      d[HeaderSize..e] == s && d[e] == c[0] && d[e + 1] == c[1] &&
      d[..e + MinTlv] == id + [v] + n + s + c && d[e + MinTlv..e + MinTlv + CrcSize] == w &&
      d[HeaderSize..e + MinTlv + CrcSize] == s + c + w
  {
    var h := id + [v] + n;
    var p := h + s + c;
    var e := HeaderSize + |s|;
    assert d[..|p|] == p;
    assert p[..8] == id by { assert p == id + ([v] + n + s + c); }
    assert d[..8] == id by { assert d[..8] == d[..|p|][..8]; }
    assert d[9..11] == n by { assert d[9..11] == h[9..11]; assert h == (id + [v]) + n; }
    assert d[HeaderSize..e] == s by { assert d[HeaderSize..e] == p[HeaderSize..e]; MiddleSlice(h, s, c); }
    assert d[e + MinTlv..e + MinTlv + CrcSize] == w by { MiddleSlice(p, w, rest); }
    assert d[HeaderSize..e + MinTlv + CrcSize] == s + c + w by {
      assert d == h + (s + c + w) + rest;
      MiddleSlice(h, s + c + w, rest);
    }
  }

  /** The records in the cache: none when its header length is 0, else those before its CRC record. */
  predicate Walkable(c: seq<Byte>)
  { |c| == MaxData && (TlvAreaSize(c) == 0 || ParseUntilCrc(c, HeaderSize).Some?) }

  function CacheTlvs(c: seq<Byte>): seq<Tlv>
    requires Walkable(c)
  { if TlvAreaSize(c) == 0 then [] else ParseUntilCrc(c, HeaderSize).value }

  /**
   * onie_set_tlv's new image for a cache c, type t and value v, with every
   * write kept inside the 2048-byte buffer (the CRC record included):
   * -EINVAL when the rewritten image would not fit.
   */
  function SetTlvImage(c: seq<Byte>, t: Byte, v: seq<Byte>): (r: Result<seq<Byte>>)
    requires Walkable(c)
    ensures r.Err? ==> r.errno == EINVAL
    ensures r.Ok? ==> MinData <= |r.value| <= MaxData
  {
    var out := Replace(CacheTlvs(c), t, v);
    if HeaderSize + |Serialize(out)| + MinTlv + CrcSize > MaxData then Err(EINVAL)
    else Ok(Build(out))
  }

  /** The rewritten image fits the buffer and validates, whatever the rest of the cache holds. */
  lemma SetTlvImageValidates(c: seq<Byte>, t: Byte, v: seq<Byte>)
    requires Walkable(c) && SetTlvImage(c, t, v).Ok?
    ensures |SetTlvImage(c, t, v).value| <= MaxData
    ensures var img := SetTlvImage(c, t, v).value; ValidateImage(img + c[|img|..]) == |img|
  {
    var out := Replace(CacheTlvs(c), t, v);
    BuildValidates(out, c[|Build(out)|..]);
  }

  /* ------------------------------------------- set_tlv as the C writes it */

  /** The records before the first record of type t: those copied before the insertion. */
  function Before(tlvs: seq<Tlv>, t: Byte): seq<Tlv>
  {
    if tlvs == [] || tlvs[0].t == t then [] else [tlvs[0]] + Before(tlvs[1..], t)
  }

  /** One more record: it is copied only while no record of t has been met. */
  lemma {:induction false} BeforeSnoc(init: seq<Tlv>, x: Tlv, t: Byte)
    ensures Before(init + [x], t) ==
      if !Absent(init, t) then Before(init, t) else if x.t == t then init else init + [x]
    decreases |init|
  {
    if init != [] {
      assert (init + [x])[1..] == init[1..] + [x];
      assert Absent(init, t) <==> init[0].t != t && Absent(init[1..], t) by {
        if init[0].t != t && Absent(init[1..], t) {
          forall i | 0 <= i < |init| ensures init[i].t != t {
            if i > 0 { assert init[i] == init[1..][i - 1]; }
          }
        }
      }
      BeforeSnoc(init[1..], x, t);
      if init[0].t != t {
        assert [init[0]] + init[1..] == init;
        assert [init[0]] + (init[1..] + [x]) == init + [x];
      }
    }
  }

  /** When t is present, the copy loop's output starts with the copied records and the chunks. */
  lemma {:induction false} BodyBefore(tlvs: seq<Tlv>, t: Byte, v: seq<Byte>)
    requires !Absent(tlvs, t)
    ensures var p := Before(tlvs, t) + Chunks(t, v);
      |p| <= |Body(tlvs, t, v)| && Body(tlvs, t, v)[..|p|] == p
    decreases |tlvs|
  {
    var init, x := tlvs[..|tlvs| - 1], tlvs[|tlvs| - 1];
    assert tlvs == init + [x];
    BeforeSnoc(init, x, t);
    AbsentSnoc(init, x, t);
    if Absent(init, t) {
      BodyAbsent(init, t, v);
    } else {
      BodyBefore(init, t, v);
      var p := Before(tlvs, t) + Chunks(t, v);
      assert Body(tlvs, t, v)[..|p|] == Body(init, t, v)[..|p|];
    }
  }

  /** The new record list holds at least the records insert_tlv's bound is checked against. */
  lemma ReplaceCovers(tlvs: seq<Tlv>, t: Byte, v: seq<Byte>)
    ensures |Serialize(Before(tlvs, t))| + |Serialize(Chunks(t, v))| <= |Serialize(Replace(tlvs, t, v))|
  {
    if Absent(tlvs, t) {
      BeforeAbsent(tlvs, t);
      SerializeAppend(tlvs, Chunks(t, v));
    } else {
      BodyCovers(tlvs, t, v);
    }
  }

  lemma BodyCovers(tlvs: seq<Tlv>, t: Byte, v: seq<Byte>)
    requires !Absent(tlvs, t)
    ensures |Serialize(Before(tlvs, t))| + |Serialize(Chunks(t, v))| <= |Serialize(Body(tlvs, t, v))|
  {
    BodyBefore(tlvs, t, v);
    var b, p := Body(tlvs, t, v), Before(tlvs, t) + Chunks(t, v);
    assert b == p + b[|p|..];
    SerializeAppend(p, b[|p|..]);
    SerializeAppend(Before(tlvs, t), Chunks(t, v));
  }

  lemma {:induction false} BeforeAbsent(tlvs: seq<Tlv>, t: Byte)
    requires Absent(tlvs, t)
    ensures Before(tlvs, t) == tlvs
    decreases |tlvs|
  {
    if tlvs != [] {
      assert Absent(tlvs[1..], t) by {
        forall i | 0 <= i < |tlvs| - 1 ensures tlvs[1..][i].t != t { assert tlvs[1..][i] == tlvs[i + 1]; }
      }
      BeforeAbsent(tlvs[1..], t);
      assert [tlvs[0]] + tlvs[1..] == tlvs;
    }
  }

  /**
   * onie_set_tlv as written: insert_tlv's bound (the end of the 2048-byte
   * writeback) is checked only for the inserted chunks; the copied records
   * and the 6-byte CRC record are written without a check, and the header
   * length is truncated to 16 bits.
   */
  function SetTlvImageAsWritten(c: seq<Byte>, t: Byte, v: seq<Byte>): (r: Result<seq<Byte>>)
    requires Walkable(c)
    ensures r.Err? ==> r.errno == EINVAL && v != [] && SetTlvImage(c, t, v).Err?
    ensures r.Ok? ==> (|r.value| <= MaxData <==> SetTlvImage(c, t, v).Ok?)
  {
    var tlvs := CacheTlvs(c);
    var insertEnd := HeaderSize + |Serialize(Before(tlvs, t))| + |Serialize(Chunks(t, v))|;
    if v != [] && insertEnd > MaxData then
      ReplaceCovers(tlvs, t, v);
      Err(EINVAL)
    else
      var out := Replace(tlvs, t, v);
      var p := HeaderId + [HeaderVersion] + BE16(U16(|Serialize(out)| + MinTlv + CrcSize))
        + Serialize(out) + CrcTlvHeader;
      Ok(p + BE32(Crc(p)))
  }

  /**
   * A 2021-byte value set on an empty cache passes insert_tlv's check with
   * its chunks ending exactly at byte 2048; the CRC record then lands past
   * the buffer, a 2054-byte image whose header announces more than 2048
   * bytes.  The bounded rewrite rejects the same request.
   */
  lemma CrcRecordOverflow()
    ensures Walkable(Zeros(MaxData))
    ensures var r := SetTlvImageAsWritten(Zeros(MaxData), TypeProductName, Zeros(2021));
      r.Ok? && |r.value| == 2054 && |r.value| > MaxData
    ensures SetTlvImage(Zeros(MaxData), TypeProductName, Zeros(2021)) == Err(EINVAL)
  {
    var c, v := Zeros(MaxData), Zeros(2021);
    assert TlvAreaSize(c) == 0;
    assert CacheTlvs(c) == [];
    ChunksContent(TypeProductName, v);
    assert Body([], TypeProductName, v) == [];
    assert Replace([], TypeProductName, v) == Chunks(TypeProductName, v);
    assert Before([], TypeProductName) == [];
  }

  /* ---------------------------------------------------- reading a value */

  /** onie_value's running result: the value it would return and the bytes it has copied out. */
  datatype Lookup = Lookup(n: int, got: seq<Byte>)

  const NotFound: Lookup := Lookup(-ENOMSG, [])

  /** One record of the wanted type: its bytes are appended, -EINVAL if they pass sz; an empty record resets the count. */
  function Take(x: Tlv, sz: nat, acc: Lookup): Lookup
  {
    var n0 := if acc.n == -ENOMSG then 0 else acc.n;
    if |x.v| > 0 then
      if sz < n0 + |x.v| then Lookup(-EINVAL, acc.got) else Lookup(n0 + |x.v|, acc.got + x.v)
    else Lookup(0, acc.got)
  }

  /** The walk stops after a failure, and after the first match of any type but vendor_extension. */
  predicate Stops(t: Byte, acc: Lookup)
  { acc.n == -EINVAL || t != TypeVendorExtension }

  /**
   * The walk of onie_value / onie_get_tlv over the raw cache from byte p to
   * end; None when it would read past the buffer.
   */
  function ValueFrom(c: seq<Byte>, p: nat, end: nat, t: Byte, sz: nat, acc: Lookup): (r: Option<Lookup>)
    ensures r.Some? ==> |acc.got| <= |r.value.got|
    decreases end - p
  {
    if p >= end then Some(acc)
    else if p + MinTlv > |c| || p + MinTlv + c[p + 1] > |c| then None
    else
      var next := p + MinTlv + c[p + 1];
      if c[p] != t then ValueFrom(c, next, end, t, sz, acc)
      else
        var x: Tlv := Field(t, c[p + MinTlv..next]);
        var acc' := Take(x, sz, acc);
        if Stops(t, acc') then Some(acc') else ValueFrom(c, next, end, t, sz, acc')
  }

  /** The lookup of type t with a destination of sz bytes in a 2048-byte cache. */
  function Value(c: seq<Byte>, t: Byte, sz: nat): Option<Lookup>
    requires |c| == MaxData
  {
    if TlvAreaSize(c) == 0 then Some(NotFound)
    else ValueFrom(c, HeaderSize, FullSize(c), t, sz, NotFound)
  }

  /** The count a lookup returns never exceeds the bytes it copied out. */
  predicate Counted(acc: Lookup)
  { acc.n < 0 || acc.n <= |acc.got| }

  lemma {:induction false} ValueFromCounted(c: seq<Byte>, p: nat, end: nat, t: Byte, sz: nat, acc: Lookup)
    requires Counted(acc) && ValueFrom(c, p, end, t, sz, acc).Some?
    ensures Counted(ValueFrom(c, p, end, t, sz, acc).value)
    decreases end - p
  {
    if p < end {
      var next := p + MinTlv + c[p + 1];
      if c[p] != t {
        ValueFromCounted(c, next, end, t, sz, acc);
      } else {
        var acc' := Take(Field(t, c[p + MinTlv..next]), sz, acc);
        if !Stops(t, acc') {
          ValueFromCounted(c, next, end, t, sz, acc');
        }
      }
    }
  }

  /** A value of n >= 0 bytes has its first n bytes among those copied out. */
  lemma ValueCounted(c: seq<Byte>, t: Byte, sz: nat)
    requires |c| == MaxData && Value(c, t, sz).Some?
    ensures Counted(Value(c, t, sz).value)
  {
    if TlvAreaSize(c) != 0 {
      ValueFromCounted(c, HeaderSize, FullSize(c), t, sz, NotFound);
    }
  }

  /** The same lookup over a list of records. */
  function ListValue(tlvs: seq<Tlv>, t: Byte, sz: nat, acc: Lookup): Lookup
  {
    if tlvs == [] then acc
    else if tlvs[0].t != t then ListValue(tlvs[1..], t, sz, acc)
    else
      var acc' := Take(tlvs[0], sz, acc);
      if Stops(t, acc') then acc' else ListValue(tlvs[1..], t, sz, acc')
  }

  /** Walking the bytes of serialized records is walking the records. */
  lemma {:induction false} WalkSerialized(c: seq<Byte>, p: nat, tlvs: seq<Tlv>, t: Byte, sz: nat, acc: Lookup)
    requires p + |Serialize(tlvs)| <= |c| && c[p..p + |Serialize(tlvs)|] == Serialize(tlvs)
    ensures ValueFrom(c, p, p + |Serialize(tlvs)|, t, sz, acc) == Some(ListValue(tlvs, t, sz, acc))
    decreases |tlvs|
  {
    if tlvs != [] {
      var x := tlvs[0];
      var next := SerializedHead(c, p, tlvs);
      var e := p + |Serialize(tlvs)|;
      var acc' := if x.t == t then Take(x, sz, acc) else acc;
      assert ValueFrom(c, p, e, t, sz, acc) ==
        if x.t == t && Stops(t, acc') then Some(acc') else ValueFrom(c, next, e, t, sz, acc');
      assert ListValue(tlvs, t, sz, acc) ==
        if x.t == t && Stops(t, acc') then acc' else ListValue(tlvs[1..], t, sz, acc');
      WalkSerialized(c, next, tlvs[1..], t, sz, acc');
    }
  }

  /** The first of serialized records at p, and where the rest begin. */
  lemma SerializedHead(c: seq<Byte>, p: nat, tlvs: seq<Tlv>) returns (next: nat)
    requires tlvs != [] && p + |Serialize(tlvs)| <= |c| && c[p..p + |Serialize(tlvs)|] == Serialize(tlvs)
    ensures next == p + MinTlv + |tlvs[0].v| && RecordAt(c, p, tlvs[0])
    ensures next + |Serialize(tlvs[1..])| == p + |Serialize(tlvs)|
    ensures c[next..next + |Serialize(tlvs[1..])|] == Serialize(tlvs[1..])
  {
    var x, e := tlvs[0], p + |Serialize(tlvs)|;
    next := p + MinTlv + |x.v|;
    assert Serialize(tlvs) == TlvBytes(x) + Serialize(tlvs[1..]);
    assert c[p..next] == TlvBytes(x) by { assert c[p..next] == c[p..e][..next - p]; }
    assert c[p] == x.t && c[p + 1] == |x.v|;
    assert c[p + MinTlv..next] == x.v by { assert c[p + MinTlv..next] == TlvBytes(x)[2..]; }
    assert c[next..e] == Serialize(tlvs[1..]) by { assert c[next..e] == c[p..e][next - p..]; }
  }

  /** Only the records of the wanted type matter to a lookup. */
  lemma {:induction false} ListValueOfType(tlvs: seq<Tlv>, t: Byte, sz: nat, acc: Lookup)
    ensures ListValue(tlvs, t, sz, acc) == ListValue(OfType(tlvs, t), t, sz, acc)
  {
    if tlvs != [] {
      var r := OfType(tlvs[1..], t);
      forall acc' | true ensures ListValue(tlvs[1..], t, sz, acc') == ListValue(r, t, sz, acc') {
        ListValueOfType(tlvs[1..], t, sz, acc');
      }
      if tlvs[0].t == t {
        assert OfType(tlvs, t) == [tlvs[0]] + r;
        assert ([tlvs[0]] + r)[1..] == r;
      } else {
        assert OfType(tlvs, t) == r;
      }
    }
  }

  /** A lookup over a matching first record takes it, then stops or goes on. */
  lemma ListValueMatch(x: Tlv, rest: seq<Tlv>, sz: nat, acc: Lookup)
    ensures var acc' := Take(x, sz, acc);
      ListValue([x] + rest, x.t, sz, acc) == if Stops(x.t, acc') then acc' else ListValue(rest, x.t, sz, acc')
  {
    assert ([x] + rest)[0] == x && ([x] + rest)[1..] == rest;
  }

  /** Once a lookup has found a value it never reads as missing again. */
  lemma {:induction false} ListValueFound(tlvs: seq<Tlv>, t: Byte, sz: nat, acc: Lookup)
    requires acc.n >= 0
    ensures ListValue(tlvs, t, sz, acc).n != -ENOMSG
    decreases |tlvs|
  {
    if tlvs != [] {
      if tlvs[0].t != t {
        ListValueFound(tlvs[1..], t, sz, acc);
      } else {
        var acc' := Take(tlvs[0], sz, acc);
        if !Stops(t, acc') {
          ListValueFound(tlvs[1..], t, sz, acc');
        }
      }
    }
  }

  /** A lookup reads as missing (-ENOMSG) exactly when no record has its type. */
  lemma ListValueMissing(tlvs: seq<Tlv>, t: Byte, sz: nat)
    ensures ListValue(tlvs, t, sz, NotFound).n == -ENOMSG <==> Absent(tlvs, t)
  {
    ListValueOfType(tlvs, t, sz, NotFound);
    OfTypeAbsent(tlvs, t);
    var r := OfType(tlvs, t);
    if r != [] {
      assert [r[0]] + r[1..] == r;
      ListValueMatch(r[0], r[1..], sz, NotFound);
      var acc' := Take(r[0], sz, NotFound);
      if !Stops(t, acc') {
        ListValueFound(r[1..], t, sz, acc');
      }
    }
  }

  /** Reading vendor_extension chunks concatenates them, or fails with -EINVAL past sz. */
  lemma {:induction false} ChunksValueConcatenated(w: seq<Byte>, sz: nat, acc: Lookup)
    requires acc == NotFound || (acc.n == |acc.got| && acc.n >= 0)
    requires w != []
    ensures var r := ListValue(Chunks(TypeVendorExtension, w), TypeVendorExtension, sz, acc);
      r.n == (if sz < |acc.got| + |w| then -EINVAL else |acc.got| + |w|) &&
      (sz >= |acc.got| + |w| ==> r.got == acc.got + w)
    decreases |w|
  {
    var t := TypeVendorExtension;
    var n := if |w| < MaxValue then |w| else MaxValue;
    var x: Tlv := Field(t, w[..n]);
    var rest := Chunks(t, w[n..]);
    assert Chunks(t, w) == [x] + rest;
    ListValueMatch(x, rest, sz, acc);
    var acc' := Take(x, sz, acc);
    assert |acc.got| == (if acc.n == -ENOMSG then 0 else acc.n);
    if acc'.n != -EINVAL {
      assert acc' == Lookup(|acc.got| + n, acc.got + w[..n]);
      if w[n..] == [] {
        assert w[..n] == w;
        assert rest == [];
      } else {
        ChunksValueConcatenated(w[n..], sz, acc');
        assert acc.got + w[..n] + w[n..] == acc.got + w by { assert w[..n] + w[n..] == w; }
      }
    }
  }

  /** A lookup of an ordinary type stops at its first chunk. */
  lemma ChunksValueFirst(t: Byte, w: seq<Byte>, sz: nat)
    requires w != [] && t != TypeVendorExtension
    ensures var first := w[..if |w| < MaxValue then |w| else MaxValue];
      ListValue(Chunks(t, w), t, sz, NotFound) ==
        if sz < |first| then Lookup(-EINVAL, []) else Lookup(|first|, first)
  {
    var n := if |w| < MaxValue then |w| else MaxValue;
    var x: Tlv := Field(t, w[..n]);
    assert Chunks(t, w) == [x] + Chunks(t, w[n..]);
    ListValueMatch(x, Chunks(t, w[n..]), sz, NotFound);
  }

  /** The value a lookup finds right after set_tlv stored v under type t. */
  function Expected(t: Byte, v: seq<Byte>, sz: nat): (r: int)
    ensures r >= 0 ==> 0 < r <= |v| && r <= sz && (t == TypeVendorExtension ==> r == |v|)
    ensures r < 0 ==> r == -ENOMSG || r == -EINVAL
  {
    if v == [] then -ENOMSG
    else if t == TypeVendorExtension then (if sz < |v| then -EINVAL else |v|)
    else
      var first := if |v| < MaxValue then |v| else MaxValue;
      if sz < first then -EINVAL else first
  }

  /** One step of the walk: a record that is not the CRC record, then the rest. */
  lemma ParseStep(c: seq<Byte>, p: nat) returns (x: Tlv, rest: seq<Tlv>)
    requires ParseUntilCrc(c, p).Some? && c[p] != TypeCrc
    ensures p + MinTlv + c[p + 1] <= |c| && x == Field(c[p], c[p + MinTlv..p + MinTlv + c[p + 1]])
    ensures ParseUntilCrc(c, p + MinTlv + c[p + 1]) == Some(rest)
    ensures ParseUntilCrc(c, p).value == [x] + rest
  {
    x := Field(c[p], c[p + MinTlv..p + MinTlv + c[p + 1]]);
    rest := ParseUntilCrc(c, p + MinTlv + c[p + 1]).value;
  }

  lemma AbsentCons(x: Tlv, rest: seq<Tlv>, t: Byte)
    requires x.t != t && Absent(rest, t)
    ensures Absent([x] + rest, t)
  {
    forall i | 0 <= i < |rest| + 1 ensures ([x] + rest)[i].t != t {
      if i > 0 { assert ([x] + rest)[i] == rest[i - 1]; }
    }
  }

  lemma SerializeCons(x: Tlv, rest: seq<Tlv>)
    ensures Serialize([x] + rest) == TlvBytes(x) + Serialize(rest)
  {
    assert ([x] + rest)[0] == x && ([x] + rest)[1..] == rest;
  }

  /** The bytes of c from p are those of tlvs, none of them a CRC record, followed by a CRC record's type. */
  predicate Framed(c: seq<Byte>, p: nat, tlvs: seq<Tlv>)
  {
    p + |Serialize(tlvs)| < |c| && c[p..p + |Serialize(tlvs)|] == Serialize(tlvs) &&
    c[p + |Serialize(tlvs)|] == TypeCrc && Absent(tlvs, TypeCrc)
  }

  /** The bytes at p hold the record x. */
  predicate RecordAt(c: seq<Byte>, p: nat, x: Tlv)
  {
    p + MinTlv + |x.v| <= |c| && c[p] == x.t && c[p + 1] == |x.v| && c[p + MinTlv..p + MinTlv + |x.v|] == x.v
  }

  /** A framed run starting with x is x's bytes followed by the framed rest. */
  lemma FramedCons(c: seq<Byte>, p: nat, x: Tlv, rest: seq<Tlv>)
    requires RecordAt(c, p, x) && x.t != TypeCrc
    ensures Framed(c, p, [x] + rest) <==> Framed(c, p + MinTlv + |x.v|, rest)
  {
    var next := p + MinTlv + |x.v|;
    var n := |Serialize(rest)|;
    SerializeCons(x, rest);
    assert c[p..next] == TlvBytes(x);
    if Framed(c, next, rest) {
      AbsentCons(x, rest, TypeCrc);
      assert c[p..next + n] == c[p..next] + c[next..next + n];
    }
    if Framed(c, p, [x] + rest) {
      assert c[next..next + n] == c[p..next + n][next - p..];
      forall i | 0 <= i < |rest| ensures rest[i].t != TypeCrc {
        assert rest[i] == ([x] + rest)[i + 1];
      }
    }
  }

  /** The first record of a framed run sits at its start. */
  lemma FramedHead(c: seq<Byte>, p: nat, tlvs: seq<Tlv>)
    requires Framed(c, p, tlvs) && tlvs != []
    ensures RecordAt(c, p, tlvs[0]) && tlvs[0].t != TypeCrc && tlvs == [tlvs[0]] + tlvs[1..]
  {
    var x := tlvs[0];
    var next := p + MinTlv + |x.v|;
    assert Serialize(tlvs) == TlvBytes(x) + Serialize(tlvs[1..]);
    assert c[p..next] == TlvBytes(x) by {
      assert c[p..next] == c[p..p + |Serialize(tlvs)|][..next - p];
    }
    assert c[p + MinTlv..next] == TlvBytes(x)[MinTlv..];
  }

  /** The walk's records are the bytes it walked, up to a CRC record, and none of them is one. */
  lemma {:induction false} ParseSound(c: seq<Byte>, p: nat)
    requires ParseUntilCrc(c, p).Some?
    ensures Framed(c, p, ParseUntilCrc(c, p).value)
    decreases |c| - p
  {
    if c[p] != TypeCrc {
      var x, rest := ParseStep(c, p);
      ParseSound(c, p + MinTlv + c[p + 1]);
      FramedCons(c, p, x, rest);
    } else {
      assert ParseUntilCrc(c, p).value == [];
      assert c[p..p] == [];
    }
  }

  /** Conversely, the walk over framed bytes finds exactly their records. */
  lemma {:induction false} ParseSerialized(c: seq<Byte>, p: nat, tlvs: seq<Tlv>)
    requires Framed(c, p, tlvs)
    ensures ParseUntilCrc(c, p) == Some(tlvs)
    decreases |tlvs|
  {
    if tlvs != [] {
      var x := tlvs[0];
      FramedHead(c, p, tlvs);
      FramedCons(c, p, x, tlvs[1..]);
      ParseSerialized(c, p + MinTlv + |x.v|, tlvs[1..]);
    }
  }

  /**
   * A cache image the rewrite reproduces faithfully: either an empty TLV
   * area, or records up to a 4-byte CRC record that ends the area the
   * header announces.
   */
  predicate WellFormed(c: seq<Byte>)
  {
    |c| == MaxData &&
    (TlvAreaSize(c) == 0 ||
     (ParseUntilCrc(c, HeaderSize).Some? &&
      var e := HeaderSize + |Serialize(ParseUntilCrc(c, HeaderSize).value)|;
      e + MinTlv + CrcSize <= MaxData && c[e + 1] == CrcSize && FullSize(c) == e + MinTlv + CrcSize))
  }

  /** The records of a well-formed image, the CRC record included. */
  lemma WellFormedRecords(c: seq<Byte>) returns (all: seq<Tlv>)
    requires WellFormed(c) && TlvAreaSize(c) != 0
    ensures all == CacheTlvs(c) + [Field(TypeCrc, c[FullSize(c) - CrcSize..FullSize(c)])]
    ensures c[HeaderSize..FullSize(c)] == Serialize(all)
  {
    var tlvs := CacheTlvs(c);
    ParseSound(c, HeaderSize);
    var e := HeaderSize + |Serialize(tlvs)|;
    all := RecordsThenCrc(c, tlvs, e, FullSize(c));
  }

  /** Records framed at the header, then a CRC record: together they are the TLV area. */
  lemma RecordsThenCrc(c: seq<Byte>, tlvs: seq<Tlv>, e: nat, f: nat) returns (all: seq<Tlv>)
    requires e == HeaderSize + |Serialize(tlvs)| && f == e + MinTlv + CrcSize && f <= |c|
    requires c[HeaderSize..e] == Serialize(tlvs) && c[e] == TypeCrc && c[e + 1] == CrcSize
    ensures all == tlvs + [Field(TypeCrc, c[f - CrcSize..f])]
    ensures c[HeaderSize..f] == Serialize(all)
  {
    var crc: Tlv := Field(TypeCrc, c[e + MinTlv..f]);
    all := tlvs + [crc];
    SerializeAppend(tlvs, [crc]);
    assert Serialize([crc]) == TlvBytes(crc);
    assert c[e..f] == TlvBytes(crc) by {
      assert c[e..f] == [c[e], c[e + 1]] + c[e + MinTlv..f];
    }
    assert c[HeaderSize..f] == c[HeaderSize..e] + c[e..f];
  }

  /** The records of a built image, the CRC record included, sit right after its header. */
  lemma BuiltRecords(out: seq<Tlv>, rest: seq<Byte>) returns (all: seq<Tlv>)
    requires HeaderSize + |Serialize(out)| + MinTlv + CrcSize <= MaxData
    requires |Build(out)| + |rest| == MaxData
    ensures var d := Build(out) + rest;
      TlvAreaSize(d) == |Serialize(out)| + MinTlv + CrcSize &&
      all == out + [Field(TypeCrc, BE32(Crc(ImagePrefix(out))))] &&
      d[HeaderSize..FullSize(d)] == Serialize(all)
  {
    var d := Build(out) + rest;
    BuiltHeader(out, rest);
    BuiltLayout(out, rest);
    var w := BE32(Crc(ImagePrefix(out)));
    var crc: Tlv := Field(TypeCrc, w);
    all := out + [crc];
    CrcRecord(out, w);
  }

  /** The records followed by a CRC record holding w serialize as the records, the CRC record's type and length, and w. */
  lemma CrcRecord(out: seq<Tlv>, w: seq<Byte>)
    requires |w| == CrcSize
    ensures Serialize(out + [Field(TypeCrc, w)]) == Serialize(out) + CrcTlvHeader + w
  {
    var crc: Tlv := Field(TypeCrc, w);
    SerializeAppend(out, [crc]);
    assert Serialize([crc]) == TlvBytes(crc) == CrcTlvHeader + w;
  }

  /**
   * Reading type t back after set_tlv stored v: ordinary types give the
   * first 255-byte chunk, vendor_extension gives the whole value, an empty
   * value reads as missing, and a destination that is too small gives -EINVAL.
   */
  lemma SetThenValue(c: seq<Byte>, t: Byte, v: seq<Byte>, sz: nat)
    requires Walkable(c) && SetTlvImage(c, t, v).Ok? && t != TypeCrc
    ensures var img := SetTlvImage(c, t, v).value;
      var r := Value(img + c[|img|..], t, sz);
      r.Some? && r.value.n == Expected(t, v, sz) &&
      (r.value.n >= 0 ==> r.value.got == if t == TypeVendorExtension then v else v[..r.value.n])
  {
    var out := Replace(CacheTlvs(c), t, v);
    BuiltValue(out, c[|Build(out)|..], t, sz);
    ReplaceOfType(CacheTlvs(c), t, v, t);
    ChunksValue(t, v, sz);
  }

  /** A lookup over the chunks of v: what Expected says, with the bytes it copied. */
  lemma ChunksValue(t: Byte, v: seq<Byte>, sz: nat)
    ensures var r := ListValue(Chunks(t, v), t, sz, NotFound);
      r.n == Expected(t, v, sz) &&
      (r.n >= 0 ==> r.got == if t == TypeVendorExtension then v else v[..r.n])
  {
    if v != [] {
      ChunksContent(t, v);
      if t == TypeVendorExtension {
        ChunksValueConcatenated(v, sz, NotFound);
      } else {
        ChunksValueFirst(t, v, sz);
      }
    }
  }

  /** A lookup in a built image sees only the records of the list it was built from. */
  lemma BuiltValue(out: seq<Tlv>, rest: seq<Byte>, u: Byte, sz: nat)
    requires HeaderSize + |Serialize(out)| + MinTlv + CrcSize <= MaxData
    requires |Build(out)| + |rest| == MaxData && u != TypeCrc
    ensures Value(Build(out) + rest, u, sz) == Some(ListValue(OfType(out, u), u, sz, NotFound))
  {
    var d := Build(out) + rest;
    var all := BuiltRecords(out, rest);
    WalkSerialized(d, HeaderSize, all, u, sz, NotFound);
    ListValueOfType(all, u, sz, NotFound);
    OfTypeAppend(out, [Field(TypeCrc, BE32(Crc(ImagePrefix(out))))], u);
    assert OfType(all, u) == OfType(out, u);
    ListValueOfType(out, u, sz, NotFound);
  }

  /** A lookup in a well-formed cache sees only the records before its CRC record. */
  lemma WellFormedValue(c: seq<Byte>, u: Byte, sz: nat)
    requires WellFormed(c) && u != TypeCrc
    ensures Value(c, u, sz) == Some(ListValue(OfType(CacheTlvs(c), u), u, sz, NotFound))
  {
    if TlvAreaSize(c) != 0 {
      var tlvs := CacheTlvs(c);
      var all := WellFormedRecords(c);
      var end := HeaderSize + |Serialize(all)|;
      assert FullSize(c) == end;
      assert Value(c, u, sz) == ValueFrom(c, HeaderSize, end, u, sz, NotFound);
      WalkSerialized(c, HeaderSize, all, u, sz, NotFound);
      ListValueOfType(all, u, sz, NotFound);
      OfTypeAppend(tlvs, [Field(TypeCrc, c[FullSize(c) - CrcSize..FullSize(c)])], u);
      assert OfType(all, u) == OfType(tlvs, u);
    }
  }

  /** In a well-formed cache a type reads as missing exactly when none of its records is there (always, for an empty TLV area). */
  lemma WellFormedMissing(c: seq<Byte>, u: Byte, sz: nat)
    requires WellFormed(c) && u != TypeCrc
    ensures Value(c, u, sz).Some?
    ensures Value(c, u, sz).value.n == -ENOMSG <==> Absent(CacheTlvs(c), u)
    ensures TlvAreaSize(c) == 0 ==> Value(c, u, sz) == Some(NotFound)
  {
    WellFormedValue(c, u, sz);
    ListValueOfType(CacheTlvs(c), u, sz, NotFound);
    ListValueMissing(CacheTlvs(c), u, sz);
  }

  /** set_tlv leaves the value of every other type of a well-formed cache as it was. */
  lemma SetKeepsOtherValues(c: seq<Byte>, t: Byte, v: seq<Byte>, u: Byte, sz: nat)
    requires WellFormed(c) && SetTlvImage(c, t, v).Ok? && u != t && u != TypeCrc
    ensures var img := SetTlvImage(c, t, v).value;
      Value(img + c[|img|..], u, sz) == Value(c, u, sz)
  {
    var out := Replace(CacheTlvs(c), t, v);
    BuiltValue(out, c[|Build(out)|..], u, sz);
    ReplaceOfType(CacheTlvs(c), t, v, u);
    WellFormedValue(c, u, sz);
  }

  /** No record of set_tlv's new list has the crc type. */
  lemma ReplaceNoCrc(c: seq<Byte>, t: Byte, v: seq<Byte>)
    requires Walkable(c) && t != TypeCrc
    ensures Absent(Replace(CacheTlvs(c), t, v), TypeCrc)
  {
    var tlvs := CacheTlvs(c);
    if TlvAreaSize(c) != 0 { ParseSound(c, HeaderSize); }
    OfTypeAbsent(tlvs, TypeCrc);
    ReplaceOfType(tlvs, t, v, TypeCrc);
    OfTypeAbsent(Replace(tlvs, t, v), TypeCrc);
  }

  lemma MiddleSlice(a: seq<Byte>, b: seq<Byte>, c: seq<Byte>)
    ensures (a + b + c)[|a|..|a| + |b|] == b
  {
    assert (a + b + c)[|a|..|a| + |b|] == (a + b)[|a|..];
  }

  /** A built image of records other than the CRC record is well formed and holds exactly those records, whatever follows it. */
  lemma BuiltWellFormed(out: seq<Tlv>, rest: seq<Byte>)
    requires HeaderSize + |Serialize(out)| + MinTlv + CrcSize <= MaxData
    requires |Build(out)| + |rest| == MaxData && Absent(out, TypeCrc)
    ensures WellFormed(Build(out) + rest) && CacheTlvs(Build(out) + rest) == out
  {
    var d := Build(out) + rest;
    BuiltHeader(out, rest);
    BuiltLayout(out, rest);
    ParseSerialized(d, HeaderSize, out);
  }

  /** A buffer that starts with a built image validates with the image's size, is well formed and holds exactly its records. */
  lemma BuiltImage(d: seq<Byte>, out: seq<Tlv>)
    requires |d| == MaxData && HeaderSize + |Serialize(out)| + MinTlv + CrcSize <= MaxData
    requires d[..|Build(out)|] == Build(out) && Absent(out, TypeCrc)
    ensures ValidateImage(d) == |Build(out)| && WellFormed(d) && CacheTlvs(d) == out
  {
    var rest := d[|Build(out)|..];
    assert d == Build(out) + rest;
    BuildValidates(out, rest);
    BuiltWellFormed(out, rest);
  }

  /** set_tlv's image is again well formed, so set_tlv may be applied to it again. */
  lemma SetTlvWellFormed(c: seq<Byte>, t: Byte, v: seq<Byte>)
    requires Walkable(c) && SetTlvImage(c, t, v).Ok? && t != TypeCrc
    ensures var img := SetTlvImage(c, t, v).value; WellFormed(img + c[|img|..])
  {
    var out := Replace(CacheTlvs(c), t, v);
    ReplaceNoCrc(c, t, v);
    BuiltWellFormed(out, c[|Build(out)|..]);
  }
}

=== FILE: onie_nvmem.dfy ===
/**
 * The ONIE NVMEM driver of drivers/nvmem/onie.c: a 2048-byte cache of the
 * image read from the "onie-data" cell and a writeback buffer in which
 * onie_set_tlv assembles a new image before copying it into the cache.
 * Unlike the EEPROM driver it has no writer: the cache is written back to
 * the cell only by a write to the crc attribute.
 */
module OnieNvmem {
  import opened Bytes
  import opened Errno
  import opened Wrappers
  import opened OnieFormat
  import opened OnieBuffer
  import opened OnieStore

  /** The destination size every show handler passes to onie_get_tlv. */
  const PageSize: nat := 4096

  /* ------------------------------------------- cache_init as it is written */

  /**
   * onie_cache_init as written: a header, the CRC record at byte 11 and the
   * CRC of the 13 bytes before it at bytes 13..17; but the header length
   * written is 17, the size of the whole image, where the TLV area (the
   * CRC record, 6 bytes) is meant.  Every other byte keeps what c held.
   */
  function CacheInitAsWritten(c: seq<Byte>): (r: seq<Byte>)
    requires |c| == MaxData
    ensures |r| == MaxData && r[MinData..] == c[MinData..]
  {
    var w := HeaderId + [HeaderVersion] + BE16(HeaderSize + MinTlv + CrcSize) + CrcTlvHeader + c[13..];
    w[..13] + BE32(Crc(w[..13])) + c[MinData..]
  }

  /**
   * The image onie_cache_init leaves announces 28 bytes, so validating it
   * compares bytes 24..28, which cache_init never wrote, with the CRC of
   * bytes 0..24, seven of which it never wrote either.
   */
  lemma CacheInitAnnouncesStaleBytes(c: seq<Byte>)
    requires |c| == MaxData
    ensures var r := CacheInitAsWritten(c);
      FullSize(r) == HeaderSize + MinData &&
      (ValidateImage(r) >= 0 <==> GetBE32(c, 24) == Crc(r[..24])) &&
      (ValidateImage(r) < 0 ==> ValidateImage(r) == -EBADF)
  {
    var r := CacheInitAsWritten(c);
    assert r[..8] == HeaderId;
    assert r[8] == HeaderVersion;
    assert r[9..HeaderSize] == BE16(MinData);
    BE16RoundTrip(MinData, r, 9);
    assert FullSize(r) == 28;
    assert r[24] == c[24] && r[25] == c[25] && r[26] == c[26] && r[27] == c[27];
    assert GetBE32(r, 24) == GetBE32(c, 24);
  }

  /** cache_init's image up to byte k >= 17 depends only on the cache up to byte k. */
  lemma CacheInitSamePrefix(c: seq<Byte>, c': seq<Byte>, k: nat)
    requires |c| == |c'| == MaxData && MinData <= k <= MaxData && c[..k] == c'[..k]
    ensures CacheInitAsWritten(c)[..k] == CacheInitAsWritten(c')[..k]
  {
    var w := HeaderId + [HeaderVersion] + BE16(HeaderSize + MinTlv + CrcSize) + CrcTlvHeader;
    assert (w + c[13..])[..13] == w == (w + c'[13..])[..13];
    assert c[MinData..][..k - MinData] == c'[MinData..][..k - MinData] by {
      assert c[MinData..][..k - MinData] == c[..k][MinData..];
      assert c'[MinData..][..k - MinData] == c'[..k][MinData..];
    }
  }

  /**
   * Of any cache and the same cache with byte 24 changed, at least one
   * fails validation with -EBADF after cache_init: its image depends on
   * bytes it did not write.
   */
  lemma CacheInitCanFail(c: seq<Byte>)
    requires |c| == MaxData
    ensures var c' := c[24 := if c[24] == 0 then 1 else 0];
      ValidateImage(CacheInitAsWritten(c)) == -EBADF || ValidateImage(CacheInitAsWritten(c')) == -EBADF
  {
    var c' := c[24 := if c[24] == 0 then 1 else 0];
    var r0, r1 := CacheInitAsWritten(c), CacheInitAsWritten(c');
    CacheInitAnnouncesStaleBytes(c);
    CacheInitAnnouncesStaleBytes(c');
    assert c[..24] == c'[..24];
    CacheInitSamePrefix(c, c', 24);
    assert GetBE32(c, 24) != GetBE32(c', 24);
  }

  /** show_default's result: a value of one NUL byte is an empty string. */
  function ShowResult(n: int, got: seq<Byte>): (r: int)
    ensures r == 0 <==> n == 0 || (n == 1 && |got| >= 1 && got[0] == 0)
    ensures r != n ==> n == 1 && r == 0
  {
    if n == 1 && |got| >= 1 && got[0] == 0 then 0 else n
  }

  /* --------------------------------------- a cache the store handler leaves */

  /**
   * A 2047-byte write to the cache attribute: a header announcing 2037
   * bytes of records, then 0xFF bytes, so that every record is of type
   * 0xFF and length 255 and none is the CRC record.
   */
  function RunawayBuf(): (b: seq<Byte>)
    ensures |b| == MaxData - 1
  {
    HeaderId + [HeaderVersion, 0x07, 0xF5] + seq(MaxData - 1 - HeaderSize, _ => 0xFF)
  }

  /** From the k-th 257-byte record on, neither walk finds a CRC record inside the buffer. */
  lemma {:induction false} RunawayFrom(c: seq<Byte>, k: nat, t: Byte, sz: nat, acc: Lookup)
    requires |c| == MaxData && k <= 7 && t != 0xFF
    requires forall i | HeaderSize <= i < MaxData - 1 :: c[i] == 0xFF
    ensures ParseUntilCrc(c, HeaderSize + 257 * k) == None
    ensures ValueFrom(c, HeaderSize + 257 * k, MaxData, t, sz, acc) == None
    decreases 7 - k
  {
    var p := HeaderSize + 257 * k;
    assert c[p] == 0xFF && c[p + 1] == 0xFF;
    if k < 7 {
      assert p + MinTlv + c[p + 1] == HeaderSize + 257 * (k + 1);
      RunawayFrom(c, k + 1, t, sz, acc);
    }
  }

  /**
   * onie_store_cache takes RunawayBuf whatever the cache held, and leaves
   * a cache whose records run past its 2048 bytes without a CRC record:
   * set_tlv's walk, which stops only at a CRC record, and get_tlv's walk
   * to the announced end both read past the buffer.
   */
  lemma StoreCacheRunaway(c0: seq<Byte>, t: Byte, sz: nat)
    requires |c0| == MaxData && t != 0xFF
    ensures var c := RunawayBuf() + c0[MaxData - 1..];
      |RunawayBuf()| < MaxData && |c| == MaxData && FullSize(c) == MaxData &&
      !Walkable(c) && !WellFormed(c) && Value(c, t, sz).None?
  {
    var c := RunawayBuf() + c0[MaxData - 1..];
    assert c[9] == 0x07 && c[10] == 0xF5;
    assert TlvAreaSize(c) == 2037;
    assert forall i | HeaderSize <= i < MaxData - 1 :: c[i] == 0xFF;
    RunawayFrom(c, 0, t, sz, NotFound);
  }

  /** A well-formed cache is one every handler can walk: set_tlv's and get_tlv's walks stay inside it. */
  lemma WellFormedWalkable(c: seq<Byte>, u: Byte, sz: nat)
    requires WellFormed(c)
    ensures Walkable(c)
    ensures u != TypeCrc ==> Value(c, u, sz).Some?
  {
    if u != TypeCrc {
      WellFormedMissing(c, u, sz);
    }
  }

  class Nvmem {
    var cache: array<Byte>
    var writeback: array<Byte>

    ghost predicate Valid()
      reads this
    {
      cache.Length == MaxData && writeback.Length == MaxData && cache != writeback
    }

    /**
     * onie_probe: both buffers zeroed.  Its devm_kzalloc failure
     * (-ENOMEM) and its onie_cell_validate call, which reads the cell
     * into the cache, are not part of this constructor; the cell read is
     * the cellStatus parameter of the operations that use it.
     */
    constructor Probe()
      ensures Valid() && fresh(cache) && fresh(writeback)
      ensures cache[..] == Zeros(MaxData) && writeback[..] == Zeros(MaxData)
    {
      var c := new Byte[MaxData](_ => 0);
      var w := new Byte[MaxData](_ => 0);
      assert c[..] == Zeros(MaxData);
      assert w[..] == Zeros(MaxData);
      cache, writeback := c, w;
    }

    /**
     * onie_cache_init with the TLV-area length it means: a header, the CRC
     * record and its CRC, 17 bytes that validate as a 17-byte image of no
     * records, whatever the rest of the cache holds.
     */
    method CacheInit()
      requires Valid()
      modifies cache
      ensures ValidateImage(cache[..]) == MinData
      ensures WellFormed(cache[..]) && CacheTlvs(cache[..]) == []
    {
      ghost var none: seq<Tlv> := [];
      ResetHeader(cache);
      assert cache[..HeaderSize] == BlankHeader + Serialize(none);
      var tl := Seal(cache, HeaderSize, none);
      BuiltImage(cache[..], none);
    }

    /**
     * onie_get_tlv: the cell check's error when it failed, else the lookup
     * of Value with the bytes it copies written to v.
     */
    method GetTlv(cellStatus: int, t: Byte, l: nat, v: array<Byte>) returns (n: int)
      requires Valid() && v != cache
      requires cellStatus >= 0 ==> Value(cache[..], t, l).Some? && |Value(cache[..], t, l).value.got| <= v.Length
      modifies v
      ensures cellStatus < 0 ==> n == cellStatus && unchanged(v)
      ensures cellStatus >= 0 ==> var r := Value(cache[..], t, l).value;
        n == r.n && v[..|r.got|] == r.got
    {
      if cellStatus < 0 {
        return cellStatus;
      }
      n := ReadValue(cache, t, l, v);
    }

    /**
     * onie_set_tlv: the rewrite into the writeback buffer, copied into the
     * cache on success; 0, or -EINVAL when the new image would not fit.
     */
    method SetTlv(t: Byte, v: seq<Byte>) returns (err: int)
      requires Valid() && Walkable(cache[..])
      modifies cache, writeback
      ensures var r := SetTlvImage(old(cache[..]), t, v);
        if r.Ok? then
          err == 0 && cache[..] == r.value + old(cache[..])[|r.value|..] && writeback[..|r.value|] == r.value
        else err == -EINVAL && unchanged(cache)
    {
      var tl;
      err, tl := Commit(cache, writeback, t, v);
    }

    /** onie_show_default: the lookup into a page, with a lone NUL byte shown as empty. */
    method ShowDefault(cellStatus: int, t: Byte, buf: array<Byte>) returns (n: int)
      requires Valid() && buf != cache && buf.Length >= PageSize
      requires cellStatus >= 0 ==> Value(cache[..], t, PageSize).Some? && |Value(cache[..], t, PageSize).value.got| <= buf.Length
      modifies buf
      ensures cellStatus < 0 ==> n == cellStatus
      ensures cellStatus >= 0 ==> var r := Value(cache[..], t, PageSize).value;
        n == ShowResult(r.n, r.got) && buf[..|r.got|] == r.got
    {
      n := GetTlv(cellStatus, t, PageSize, buf);
      if cellStatus >= 0 {
        ValueCounted(cache[..], t, PageSize);
      }
      if n == 1 && buf[0] == 0 {
        n := 0;
      }
    }

    /**
     * The store handlers but crc's: the argument checks of StoreValue, then
     * onie_set_tlv; the bytes written on success, else the error.
     */
    method Store(t: Byte, buf: seq<Byte>, scan: Scan, num: Result<nat>) returns (r: int)
      requires Valid() && Walkable(cache[..]) && |scan.words| == MacSize && t != TypeCrc
      modifies cache, writeback
      ensures var s := StoreValue(t, buf, scan, num);
        if s.Err? then r == -s.errno && unchanged(cache)
        else match SetTlvImage(old(cache[..]), t, s.value)
          case Ok(img) => r == |buf| && cache[..] == img + old(cache[..])[|img|..]
          case Err(e) => r == -EINVAL && unchanged(cache)
    {
      match StoreValue(t, buf, scan, num)
      case Err(e) =>
        r := -e;
      case Ok(v) =>
        var err := SetTlv(t, v);
        r := if err != 0 then err else |buf|;
    }

    /** onie_store_cache: -ERANGE for 2048 bytes or more, else buf copied over the start of the cache. */
    method StoreCache(buf: seq<Byte>) returns (r: int)
      requires Valid()
      modifies cache
      ensures |buf| >= MaxData ==> r == -ERANGE && unchanged(cache)
      ensures |buf| < MaxData ==> r == |buf| && cache[..] == buf + old(cache[..])[|buf|..]
    {
      if |buf| >= MaxData {
        return -ERANGE;
      }
      Copy(cache, 0, buf);
      assert cache[..] == cache[..|buf|] + cache[|buf|..];
      r := |buf|;
    }

    /**
     * onie_store_cache with the check it evidently needs: a write that
     * would leave a cache the handlers cannot walk to its CRC record is
     * refused with -EINVAL, so a well-formed cache stays well-formed.
     */
    method StoreCacheChecked(buf: seq<Byte>) returns (r: int)
      requires Valid()
      modifies cache
      ensures |buf| >= MaxData ==> r == -ERANGE && unchanged(cache)
      ensures |buf| < MaxData && !WellFormed(buf + old(cache[..])[|buf|..]) ==> r == -EINVAL && unchanged(cache)
      ensures |buf| < MaxData && WellFormed(buf + old(cache[..])[|buf|..]) ==>
        r == |buf| && cache[..] == buf + old(cache[..])[|buf|..]
      ensures WellFormed(old(cache[..])) ==> WellFormed(cache[..])
    {
      if |buf| >= MaxData {
        return -ERANGE;
      }
      if !WellFormed(buf + cache[|buf|..]) {
        return -EINVAL;
      }
      r := StoreCache(buf);
    }
  }
}

=== FILE: onie_store.dfy ===
/**
 * The argument checks of the ONIE sysfs store handlers, shared by both
 * drivers: what a write to an attribute file asks onie_set_tlv to store,
 * or the error it returns first.  sscanf and kstrtouint are library
 * parsers; their outcomes are parameters.
 */
module OnieStore {
  import opened Bytes
  import opened Errno
  import opened Wrappers
  import opened OnieFormat

  /** What sscanf("%x:%x:%x:%x:%x:%x%*c") returned: its count (or error) and the six words of uv[]. */
  datatype Scan = Scan(count: int, words: seq<nat>)

  /** A trailing newline is not part of a string value. */
  function TrimNewline(buf: seq<Byte>): (r: seq<Byte>)
    ensures r + (if |r| < |buf| then ['\n' as Byte] else []) == buf
    ensures |buf| - 1 <= |r| <= |buf|
  {
    if |buf| > 0 && buf[|buf| - 1] == '\n' as Byte then buf[..|buf| - 1] else buf
  }

  /**
   * The value a write of buf to attribute t stores: six bytes from the
   * scanned MAC words (each truncated to 8 bits), a big-endian u16
   * num_macs, a one-byte device_version, -EPERM for the read-only crc, and
   * the text itself less one trailing newline for every other type.
   */
  function StoreValue(t: Byte, buf: seq<Byte>, scan: Scan, num: Result<nat>): (r: Result<seq<Byte>>)
    requires |scan.words| == MacSize
    ensures t == TypeMacBase ==> (r.Err? <==> scan.count < 0 || scan.count != MacSize)
    ensures t == TypeMacBase && scan.count >= 0 && r.Err? ==> r.errno == EINVAL
    ensures t == TypeNumMacs ==> (r.Err? <==> num.Err? || num.value > 0xffff)
    ensures t == TypeDeviceVersion ==> (r.Err? <==> num.Err? || num.value > 0xff)
    ensures t in {TypeNumMacs, TypeDeviceVersion} && num.Ok? && r.Err? ==> r.errno == ERANGE
    ensures t == TypeCrc ==> r == Err(EPERM)
    ensures t !in {TypeMacBase, TypeNumMacs, TypeDeviceVersion, TypeCrc} ==> r.Ok?
  {
    if t == TypeMacBase then
      if scan.count < 0 then Err(-scan.count)
      else if scan.count != MacSize then Err(EINVAL)
      else Ok(seq(MacSize, i requires 0 <= i < MacSize => scan.words[i] % 0x100))
    else if t == TypeNumMacs then
      if num.Err? then Err(num.errno)
      else if num.value >= U16Limit then Err(ERANGE)
      else Ok(BE16(num.value))
    else if t == TypeDeviceVersion then
      if num.Err? then Err(num.errno)
      else if num.value > 0xff then Err(ERANGE)
      else Ok([num.value])
    else if t == TypeCrc then Err(EPERM)
    else Ok(TrimNewline(buf))
  }

  /** What is stored is what was written: the MAC octets, the number read back from its two bytes, the text. */
  lemma StoreValueStored(t: Byte, buf: seq<Byte>, scan: Scan, num: Result<nat>)
    requires |scan.words| == MacSize
    ensures var r := StoreValue(t, buf, scan, num);
      r.Ok? ==>
        (t == TypeMacBase ==> |r.value| == MacSize && forall i :: 0 <= i < MacSize ==> r.value[i] == scan.words[i] % 0x100) &&
        (t == TypeNumMacs ==> num.Ok? && |r.value| == 2 && GetBE16(r.value, 0) == num.value) &&
        (t == TypeDeviceVersion ==> num.Ok? && r.value == [num.value]) &&
        (t !in {TypeMacBase, TypeNumMacs, TypeDeviceVersion} ==> TrimNewline(buf) == r.value && t != TypeCrc)
  {
    var r := StoreValue(t, buf, scan, num);
    if r.Ok? && t == TypeNumMacs {
      BE16RoundTrip(num.value, r.value, 0);
    }
  }
}

=== FILE: platina.dfy ===
/**
 * The platina-mk1 vendor hooks of drivers/platform/onie/platina.c: the
 * interface names, MAC addresses and xids of the mux, its ports and
 * their subports, and the probe's match of the ONIE part number.  A port
 * is numbered from 0 and a subport from 0; -1 stands for "none" (a
 * negative port is the mux itself, a negative subport an unsplit port).
 */
module Platina {
  import opened Errno
  import opened Wrappers
  import opened Bytes
  import opened Text
  import XethParse
  import XethKstrs
  import XethMux

  /** IFNAMSIZ: a name holds at most 15 characters before its NUL. */
  const IfNamSiz: nat := 16

  const MuxIfname: string := "platina-mk1"

  /** The ports of a platina-mk1 and the most subports a port splits into. */
  const NPorts: nat := 32
  const MaxSubports: nat := 4

  /** onie_max_tlv: the largest TLV value, and the probe's buffer. */
  const OnieMaxTlv: nat := 255

  /** The part numbers platina_probe recognises, all handled by the mk1 probe. */
  const PartNumbers: seq<string> := ["BT77O759.00", "PS-3001-32C", "PSW-3001-32C"]

  /** enum platina_base: port and subport numbers in names start at 1 on boards of device version > 0. */
  function NameBase(deviceVersion: int): nat
  { if deviceVersion > 0 then 1 else 0 }

  /** scnprintf into an IFNAMSIZ buffer: the text cut to IfNamSiz - 1 characters. */
  function Bounded(s: string): (r: string)
    ensures |r| <= |s| && |r| <= IfNamSiz - 1 && r == s[..|r|]
    ensures |s| < IfNamSiz ==> r == s
  { if |s| < IfNamSiz then s else s[..IfNamSiz - 1] }

  /** platina_ifname: the mux's name, "xeth<base+port>" or "xeth<base+port>-<base+subport>". */
  function Ifname(base: nat, port: int, subport: int): (name: string)
    ensures port < 0 ==> name == MuxIfname
    ensures port >= 0 ==> name == Bounded(XethParse.PortName(base, port, if subport < 0 then -1 else subport, XethParse.Plain))
  {
    if port < 0 then MuxIfname
    else if subport < 0 then Bounded("xeth" + Decimal(base + port))
    else Bounded("xeth" + Decimal(base + port) + "-" + Decimal(base + subport))
  }

  /**
   * The names of ports and subports are short enough never to be cut,
   * and the interface-name parser reads back the port and subport they
   * were made from.
   */
  lemma IfnameParses(base: nat, port: nat, subport: int, lim: XethParse.Limits)
    requires lim.base == base && base + port < 1000 && -1 <= subport && base + subport < 1000
    requires port < lim.ports && subport < lim.subports
    ensures |Ifname(base, port, subport)| < IfNamSiz
    ensures XethParse.Parse(Ifname(base, port, subport), lim) ==
      Some(XethParse.PortRef(port, subport, XethParse.Plain, lim))
  {
    XethKstrs.DecimalLength(base + port, 3);
    var name := XethParse.PortName(base, port, subport, XethParse.Plain);
    if subport >= 0 {
      XethKstrs.DecimalLength(base + subport, 3);
      assert |XethParse.SubportText(base, subport)| <= 4;
    }
    assert |name| <= 4 + 3 + 4;
    XethParse.PortNameParses(port, subport, XethParse.Plain, lim);
  }

  /** The mux's name is not one the parser takes for a port. */
  lemma MuxIfnameNotParsed(lim: XethParse.Limits)
    ensures XethParse.Parse(Ifname(0, -1, -1), lim).None?
  {
    assert !XethParse.HasPrefix(MuxIfname, "xeth") by {
      assert MuxIfname[0] == 'p';
    }
  }

  /* ------------------------------------------------------------ addresses */

  /** net_device addr_assign_type: the mux takes over the address of a host link. */
  datatype AddrAssign = Perm | Stolen

  /** An interface address: the 48 low bits u64_to_ether_addr writes, and how it was assigned. */
  datatype HwAddr = HwAddr(mac: nat, assign: AddrAssign)

  const MacLimit: nat := 0x1_0000_0000_0000

  /**
   * The offsets from the board's first MAC that platina_mk1_hw_addr adds,
   * as written: 2 for the mux (the first host link's address), 4 + port
   * for a port and 4 + port + 4 * subport for a subport.  The first four
   * addresses are the BMC's, the management port's and the two host links'.
   */
  function MacOffsetAsWritten(port: int, subport: int): (r: int)
    ensures port < 0 ==> r == 2
    ensures port >= 0 && subport <= 0 ==> r == 4 + port
    ensures port >= 0 && subport >= 0 ==> r >= 4 + port
  {
    if port < 0 then 2
    else if subport < 0 then 4 + port
    else 4 + port + subport * 4
  }

  /** The offsets with the subport stride the xids use: one block of NPorts per subport. */
  function MacOffset(port: int, subport: int): (r: int)
    ensures port < 0 ==> r == 2
    ensures 0 <= port < NPorts && subport >= 0 ==> r >= 4 && (r - 4) % NPorts == port && (r - 4) / NPorts == subport
    ensures 0 <= port < NPorts && subport < 0 ==> r == 4 + port
  {
    if port < 0 then 2
    else if subport < 0 then 4 + port
    else 4 + port + subport * NPorts
  }

  /** The address of a device: mac_base plus its offset in u64, cut to 48 bits. */
  function Address(macBase: nat, offset: int): (r: nat)
    requires macBase < MacLimit
    ensures r < MacLimit
  { (macBase + offset) % 0x1_0000_0000_0000_0000 % MacLimit }

  /** platina_mk1_hw_addr as written. */
  function HwAddrAsWritten(macBase: nat, port: int, subport: int): (a: HwAddr)
    requires macBase < MacLimit
    ensures a.assign == Stolen <==> port < 0
    ensures a.mac == Address(macBase, MacOffsetAsWritten(port, subport))
  {
    HwAddr(Address(macBase, MacOffsetAsWritten(port, subport)), if port < 0 then Stolen else Perm)
  }

  /** platina_mk1_hw_addr with the corrected subport stride. */
  function HwAddress(macBase: nat, port: int, subport: int): (a: HwAddr)
    requires macBase < MacLimit
    ensures a.assign == Stolen <==> port < 0
    ensures a.mac == Address(macBase, MacOffset(port, subport))
  {
    HwAddr(Address(macBase, MacOffset(port, subport)), if port < 0 then Stolen else Perm)
  }

  /** Subport 1 of port 0 gets the address of subport 0 of port 4. */
  lemma SubportMacsCollide(macBase: nat)
    requires macBase < MacLimit
    ensures HwAddrAsWritten(macBase, 0, 1) == HwAddrAsWritten(macBase, 4, 0)
  {
  }

  /** Two offsets below 2^48 give two addresses. */
  lemma AddressInjective(macBase: nat, o1: nat, o2: nat)
    requires macBase < MacLimit && o1 < MacLimit && o2 < MacLimit
    requires Address(macBase, o1) == Address(macBase, o2)
    ensures o1 == o2
  {
    var x1, x2 := macBase + o1, macBase + o2;
    assert x1 < 0x1_0000_0000_0000_0000 && x2 < 0x1_0000_0000_0000_0000;
    assert x1 % MacLimit == x2 % MacLimit;
    DivModUnique(x1, MacLimit, x1 / MacLimit, x1 % MacLimit);
    DivModUnique(x2, MacLimit, x2 / MacLimit, x2 % MacLimit);
    var q1, q2 := x1 / MacLimit, x2 / MacLimit;
    assert x1 - x2 == (q1 - q2) * MacLimit;
    var d: int := q1 - q2;
    if d >= 1 {
      MulAtLeast(d, MacLimit);
    } else if d <= -1 {
      MulAtLeast(-d, MacLimit);
    }
  }

  /**
   * With the corrected stride, the subports of the 32 ports split into up
   * to 4 have distinct addresses, none of them one of the first four.
   */
  lemma SubportMacsDistinct(macBase: nat, p1: nat, s1: nat, p2: nat, s2: nat)
    requires macBase < MacLimit && p1 < NPorts && p2 < NPorts && s1 < MaxSubports && s2 < MaxSubports
    ensures HwAddress(macBase, p1, s1).mac !in {Address(macBase, 0), Address(macBase, 1), Address(macBase, 2), Address(macBase, 3)}
    ensures HwAddress(macBase, p1, s1) == HwAddress(macBase, p2, s2) ==> p1 == p2 && s1 == s2
  {
    var o1, o2 := MacOffset(p1, s1), MacOffset(p2, s2);
    assert 4 <= o1 < MacLimit && 4 <= o2 < MacLimit;
    forall k | 0 <= k < 4
      ensures Address(macBase, o1) != Address(macBase, k)
    {
      if Address(macBase, o1) == Address(macBase, k) {
        AddressInjective(macBase, o1, k);
      }
    }
    if HwAddress(macBase, p1, s1) == HwAddress(macBase, p2, s2) {
      AddressInjective(macBase, o1, o2);
      DivModUnique(o1 - 4, NPorts, s1, p1);
      DivModUnique(o2 - 4, NPorts, s2, p2);
    }
  }

  /* ------------------------------------------------------------------ xids */

  /** platina_mk1_xid, a u32: 3000 for the mux, 3999 - port, or 3999 - port - nPorts * subport. */
  function Xid(nPorts: nat, port: int, subport: int): (xid: nat)
    ensures xid < U32Limit
    ensures port < 0 ==> xid == 3000
    ensures 0 <= port <= 3999 && subport < 0 ==> xid == 3999 - port
    ensures 0 <= port && 0 <= subport && port + nPorts * subport <= 3999 ==> xid == 3999 - port - nPorts * subport
  {
    if port < 0 then 3000
    else if subport < 0 then U32(3999 - port)
    else U32(3999 - port - nPorts * subport)
  }

  /**
   * The xids of the platina-mk1's ports and subports are distinct, fit the
   * 12 bits a VLAN encapsulation carries, are never 0 and never the mux's.
   */
  lemma XidsDistinct(p1: nat, s1: nat, p2: nat, s2: nat)
    requires p1 < NPorts && p2 < NPorts && s1 < MaxSubports && s2 < MaxSubports
    ensures 0 < Xid(NPorts, p1, s1) < Pow2(XethMux.MuxBits(XethMux.VlanEncap))
    ensures Xid(NPorts, p1, s1) != Xid(NPorts, -1, -1)
    ensures Xid(NPorts, p1, s1) == Xid(NPorts, p2, s2) ==> p1 == p2 && s1 == s2
  {
    assert Pow2(12) == 4096;
    assert NPorts * s1 <= 96 && NPorts * s2 <= 96;
    if Xid(NPorts, p1, s1) == Xid(NPorts, p2, s2) {
      DivModUnique(p1 + NPorts * s1, NPorts, s1, p1);
      DivModUnique(p2 + NPorts * s2, NPorts, s2, p2);
    }
  }

  /** An unsplit port and its subport 0 share the xid; they never exist together. */
  lemma PortIsSubportZero(p: nat)
    requires p < NPorts
    ensures Xid(NPorts, p, -1) == Xid(NPorts, p, 0) && MacOffset(p, -1) == MacOffset(p, 0)
  {
  }

  /* ----------------------------------------------------------------- probe */

  /** A C string: the characters before the first NUL. */
  function CString(s: seq<char>): (r: string)
    ensures |r| <= |s| && r == s[..|r|] && '\0' !in r
    ensures |r| < |s| ==> s[|r|] == '\0'
  {
    if s == [] then []
    else if s[0] == '\0' then []
    else [s[0]] + CString(s[1..])
  }

  /** The part number the probe compares: at most OnieMaxTlv - 1 characters of what onie_get_tlv copied. */
  function PartNumber(n: nat, buf: seq<char>): (r: string)
    requires n <= OnieMaxTlv == |buf|
    ensures |r| < OnieMaxTlv
  {
    CString(buf[..if n == OnieMaxTlv then OnieMaxTlv - 1 else n])
  }

  datatype Probed = Mk1Probe | Refused(err: int)

  /**
   * platina_probe: n is what onie_get_tlv returned for the part-number
   * TLV and buf the buffer it copied into.  An error is passed on; a part
   * number among the three goes to the mk1 probe; any other is -ENXIO.
   */
  function Probe(n: int, buf: seq<char>): (r: Probed)
    requires n <= OnieMaxTlv == |buf|
    ensures n < 0 ==> r == Refused(n)
    ensures n >= 0 ==> (r == Mk1Probe <==> PartNumber(n, buf) in PartNumbers)
    ensures n >= 0 && r != Mk1Probe ==> r == Refused(-ENXIO)
  {
    if n < 0 then Refused(n)
    else if PartNumber(n, buf) == PartNumbers[0] then Mk1Probe
    else if PartNumber(n, buf) == PartNumbers[1] then Mk1Probe
    else if PartNumber(n, buf) == PartNumbers[2] then Mk1Probe
    else Refused(-ENXIO)
  }

  /** A stored part number of the known ones is recognised, whatever follows its NUL. */
  lemma ProbeAccepts(k: nat, buf: seq<char>)
    requires k < |PartNumbers| && |buf| == OnieMaxTlv
    requires buf[..|PartNumbers[k]|] == PartNumbers[k]
    ensures Probe(|PartNumbers[k]|, buf) == Mk1Probe
    ensures |PartNumbers[k]| < OnieMaxTlv && buf[|PartNumbers[k]|] == '\0' ==> Probe(OnieMaxTlv, buf) == Mk1Probe
  {
    var p := PartNumbers[k];
    assert '\0' !in p;
    CStringOf(p, buf[..|p|]);
    if buf[|p|] == '\0' {
      CStringOf(p, buf[..OnieMaxTlv - 1]);
    }
  }

  /** A full-length value is read as its first OnieMaxTlv - 1 characters. */
  lemma ProbeTruncates(buf: seq<char>)
    requires |buf| == OnieMaxTlv
    ensures Probe(OnieMaxTlv, buf) == Probe(OnieMaxTlv - 1, buf)
  {
  }

  /** The C string of s is p when s starts with p and then a NUL or nothing. */
  lemma {:induction false} CStringOf(p: string, s: seq<char>)
    requires '\0' !in p && |p| <= |s| && s[..|p|] == p && (|p| < |s| ==> s[|p|] == '\0')
    ensures CString(s) == p
  {
    if p != [] {
      assert s[0] == p[0];
      assert s[1..][..|p| - 1] == p[1..];
      CStringOf(p[1..], s[1..]);
    }
  }
}

=== FILE: text.dfy ===
/**
 * Decimal and hexadecimal text as printed by printf-style "%d", "%0*d",
 * "%x" and read back by the kernel's sscanf "%hu%n".
 */
module Text {
  import opened Wrappers

  predicate IsDigit(c: char) { '0' <= c <= '9' }

  predicate AllDigits(s: string) { forall i :: 0 <= i < |s| ==> IsDigit(s[i]) }

  /** isspace() of the kernel's ctype table: HT, LF, VT, FF, CR, space and NBSP. */
  predicate IsSpace(c: char) { var k := c as int; k == 32 || 9 <= k <= 13 || k == 160 }

  function DigitChar(d: nat): (c: char)
    requires d < 10
    ensures IsDigit(c)
  { (48 + d) as char }

  function DigitOf(c: char): (d: nat)
    requires IsDigit(c)
    ensures d < 10
  { (c as int) - 48 }

  /** "%u": the shortest decimal text of n. */
  function Decimal(n: nat): (r: string)
    ensures 1 <= |r| && AllDigits(r)
  { if n < 10 then [DigitChar(n)] else Decimal(n / 10) + [DigitChar(n % 10)] }

  /** The number a run of decimal digits denotes. */
  function Value(s: string): nat
    requires AllDigits(s)
  { if s == [] then 0 else Value(s[..|s| - 1]) * 10 + DigitOf(s[|s| - 1]) }

  lemma {:induction false} DecimalRoundTrip(n: nat)
    ensures Value(Decimal(n)) == n
  {
    if n >= 10 {
      var s := Decimal(n);
      assert s[..|s| - 1] == Decimal(n / 10);
      DecimalRoundTrip(n / 10);
    }
  }

  lemma DecimalInjective(m: nat, n: nat)
    requires Decimal(m) == Decimal(n)
    ensures m == n
  {
    DecimalRoundTrip(m);
    DecimalRoundTrip(n);
  }

  /** "%d". */
  function Signed(i: int): (r: string)
    ensures |r| >= 1
  { if i < 0 then "-" + Decimal(-i) else Decimal(i) }

  function Repeat(c: char, n: nat): (r: string)
    ensures |r| == n && forall i :: 0 <= i < n ==> r[i] == c
  { seq(n, _ => c) }

  /** "%0*d" with width w and a non-negative argument: zeros fill the text up to w characters. */
  function ZeroPadded(n: nat, w: nat): (r: string)
    ensures AllDigits(r)
  {
    var d := Decimal(n);
    if |d| < w then Repeat('0', w - |d|) + d else d
  }

  lemma {:induction false} ZeroPaddedValue(n: nat, w: nat)
    ensures Value(ZeroPadded(n, w)) == n
    ensures |Decimal(n)| <= w ==> |ZeroPadded(n, w)| == w
  {
    var d := Decimal(n);
    DecimalRoundTrip(n);
    if |d| < w {
      LeadingZeros(w - |d|, d);
    }
  }

  lemma {:induction false} LeadingZeros(k: nat, d: string)
    requires AllDigits(d)
    ensures AllDigits(Repeat('0', k) + d) && Value(Repeat('0', k) + d) == Value(d)
  {
    if d == [] {
      ZerosValue(k);
      assert Repeat('0', k) + d == Repeat('0', k);
    } else {
      var s := Repeat('0', k) + d;
      assert s[..|s| - 1] == Repeat('0', k) + d[..|d| - 1];
      LeadingZeros(k, d[..|d| - 1]);
    }
  }

  lemma {:induction false} ZerosValue(k: nat)
    ensures Value(Repeat('0', k)) == 0
  {
    if k > 0 {
      assert Repeat('0', k)[..k - 1] == Repeat('0', k - 1);
      ZerosValue(k - 1);
    }
  }

  predicate IsHexDigit(c: char) { '0' <= c <= '9' || 'a' <= c <= 'f' }

  function HexChar(d: nat): (c: char)
    requires d < 16
    ensures IsHexDigit(c)
  { if d < 10 then (48 + d) as char else (87 + d) as char }

  function HexDigitOf(c: char): (d: nat)
    requires IsHexDigit(c)
    ensures d < 16
  { if '0' <= c <= '9' then (c as int) - 48 else (c as int) - 87 }

  /** "%x": the shortest lower-case hexadecimal text of n. */
  function Hex(n: nat): (r: string)
    ensures 1 <= |r| && forall i :: 0 <= i < |r| ==> IsHexDigit(r[i])
  { if n < 16 then [HexChar(n)] else Hex(n / 16) + [HexChar(n % 16)] }

  function HexValue(s: string): nat
    requires forall i :: 0 <= i < |s| ==> IsHexDigit(s[i])
  { if s == [] then 0 else HexValue(s[..|s| - 1]) * 16 + HexDigitOf(s[|s| - 1]) }

  lemma {:induction false} HexRoundTrip(n: nat)
    ensures HexValue(Hex(n)) == n
  {
    if n >= 16 {
      var s := Hex(n);
      assert s[..|s| - 1] == Hex(n / 16);
      HexRoundTrip(n / 16);
    }
  }

  /** Index of the first character at or after p that is not white space. */
  function SkipSpaces(s: string, p: nat): (q: nat)
    requires p <= |s|
    ensures p <= q <= |s| && (q < |s| ==> !IsSpace(s[q]))
    ensures forall i :: p <= i < q ==> IsSpace(s[i])
    decreases |s| - p
  { if p < |s| && IsSpace(s[p]) then SkipSpaces(s, p + 1) else p }

  /** Index of the first character at or after p that is not a digit. */
  function DigitsEnd(s: string, p: nat): (q: nat)
    requires p <= |s|
    ensures p <= q <= |s| && (q < |s| ==> !IsDigit(s[q]))
    ensures forall i :: p <= i < q ==> IsDigit(s[i])
    decreases |s| - p
  { if p < |s| && IsDigit(s[p]) then DigitsEnd(s, p + 1) else p }

  /** A conversion's value and the index just after the text it consumed ("%n"). */
  datatype Scan = Scan(value: nat, next: nat)

  /**
   * sscanf(s + p, "%hu%n"): skip white space, require a digit, read the
   * whole digit run, keep the value modulo 2^16.  None when nothing converts.
   * The end of s plays the part of the terminating NUL.
   */
  function ScanU16(s: string, p: nat): (r: Option<Scan>)
    requires p <= |s|
    ensures r.Some? <==> SkipSpaces(s, p) < |s| && IsDigit(s[SkipSpaces(s, p)])
    ensures r.Some? ==> p < r.value.next <= |s| && r.value.value < 0x1_0000
    ensures r.Some? ==> r.value.next == |s| || !IsDigit(s[r.value.next])
  {
    var q := SkipSpaces(s, p);
    if q == |s| || !IsDigit(s[q]) then None
    else
      var e := DigitsEnd(s, q);
      Some(Scan(Value(s[q..e]) % 0x1_0000, e))
  }

  /** The digit run of a + d + b starting after a is d, when b does not start with a digit. */
  lemma DigitsEndOfRun(a: string, d: string, b: string)
    requires AllDigits(d) && (b == [] || !IsDigit(b[0]))
    ensures DigitsEnd(a + d + b, |a|) == |a| + |d|
  {
    var s, q := a + d + b, |a| + |d|;
    forall i | |a| <= i < q ensures IsDigit(s[i]) { assert s[i] == d[i - |a|]; }
    assert q < |s| ==> s[q] == b[0];
    DigitsEndAt(s, |a|, q);
  }

  /** The digit run starting at p ends where the first non-digit (or the end) is. */
  lemma DigitsEndAt(s: string, p: nat, q: nat)
    requires p <= q <= |s| && (forall i :: p <= i < q ==> IsDigit(s[i])) && (q == |s| || !IsDigit(s[q]))
    ensures DigitsEnd(s, p) == q
  {
  }

  lemma MiddleOf(a: string, d: string, b: string)
    ensures (a + d + b)[|a|..|a| + |d|] == d
  {
    assert (a + d + b)[|a|..|a| + |d|] == (a + d)[|a|..];
  }

  /** A scan after a, of a + d + b with d starting with a digit, skips no space. */
  lemma NoSpaceBefore(a: string, d: string, b: string)
    requires |d| >= 1 && IsDigit(d[0])
    ensures SkipSpaces(a + d + b, |a|) == |a| && IsDigit((a + d + b)[|a|])
  {
    assert (a + d + b)[|a|] == d[0];
  }

  lemma ScanAt(s: string, p: nat, d: string)
    requires p < |s| && SkipSpaces(s, p) == p && IsDigit(s[p]) && p + |d| <= |s| && DigitsEnd(s, p) == p + |d|
    requires AllDigits(d) && s[p..p + |d|] == d
    ensures ScanU16(s, p) == Some(Scan(Value(d) % 0x1_0000, p + |d|))
  {
  }

  /** A run of digits followed by a non-digit scans to its value, modulo 2^16, and the cursor after it. */
  lemma ScanDigits(a: string, d: string, b: string)
    requires |d| >= 1 && AllDigits(d) && (b == [] || !IsDigit(b[0]))
    ensures ScanU16(a + d + b, |a|) == Some(Scan(Value(d) % 0x1_0000, |a| + |d|))
  {
    NoSpaceBefore(a, d, b);
    DigitsEndOfRun(a, d, b);
    MiddleOf(a, d, b);
    ScanAt(a + d + b, |a|, d);
  }

  /** A number below 2^16 is its own value modulo 2^16. */
  lemma ModSmall(n: nat)
    requires n < 0x1_0000
    ensures n % 0x1_0000 == n
  {
  }

  /** Reading back what "%u" printed gives the number, modulo 2^16, and stops right after it. */
  lemma ScanDecimal(a: string, n: nat, b: string)
    requires b == [] || !IsDigit(b[0])
    ensures ScanU16(a + Decimal(n) + b, |a|) == Some(Scan(n % 0x1_0000, |a| + |Decimal(n)|))
  {
    ScanDigits(a, Decimal(n), b);
    DecimalRoundTrip(n);
  }
}

=== FILE: uio_pci_dma.dfy ===
/**
 * The interrupt-disable register table of drivers/uio-pci-dma/pci.c.
 * User space names, through the disable_interrupt_regs attribute, up to
 * eight (offset, value) pairs that the interrupt handler writes to the
 * device's registers.  Writing an offset already in the table replaces
 * its value; a new offset is appended; once eight entries exist every
 * write is refused.  Reading the attribute lists the pairs in the order
 * they were first written, one "offset value" line each, in hexadecimal.
 */
module UioPciDma {
  import opened Errno
  import opened Wrappers
  import opened Bytes
  import opened Text

  const MaxDisableRegs: nat := 8

  /** uio_pci_dma_interrupt_disable_regs_t */
  datatype Reg = Reg(offset: nat, value: nat)

  predicate DistinctOffsets(e: seq<Reg>)
  {
    forall i, j :: 0 <= i < j < |e| ==> e[i].offset != e[j].offset
  }

  /** The position of the first entry for offset, |e| when there is none. */
  function IndexOf(e: seq<Reg>, offset: nat): (i: nat)
    ensures i <= |e|
    ensures i < |e| ==> e[i].offset == offset
    ensures forall k :: 0 <= k < i ==> e[k].offset != offset
  {
    if e == [] then 0
    else if e[0].offset == offset then 0
    else 1 + IndexOf(e[1..], offset)
  }

  /** The value the table holds for offset, as a register map. */
  function Lookup(e: seq<Reg>, offset: nat): (r: Option<nat>)
    ensures r.None? <==> forall k :: 0 <= k < |e| ==> e[k].offset != offset
    ensures r.Some? ==> Reg(offset, r.value) in e
  {
    var i := IndexOf(e, offset);
    if i < |e| then Some(e[i].value) else None
  }

  /** The table after an accepted write: the entry for offset replaced, or a new one appended. */
  function Stored(e: seq<Reg>, offset: nat, value: nat): (r: seq<Reg>)
    ensures Reg(offset, value) in r && |e| <= |r| <= |e| + 1
    ensures forall k :: 0 <= k < |e| ==> r[k].offset == e[k].offset
  {
    var i := IndexOf(e, offset);
    if i < |e| then
      assert e[i := Reg(offset, value)][i] == Reg(offset, value);
      e[i := Reg(offset, value)]
    else
      assert (e + [Reg(offset, value)])[|e|] == Reg(offset, value);
      e + [Reg(offset, value)]
  }

  /**
   * A write keeps the offsets distinct, grows the table by one exactly
   * when the offset is new, keeps every earlier entry in its place, makes
   * offset map to value and leaves every other offset's value alone.
   */
  lemma StoredMap(e: seq<Reg>, offset: nat, value: nat)
    requires DistinctOffsets(e)
    ensures var s := Stored(e, offset, value);
      DistinctOffsets(s) &&
      |s| == |e| + (if Lookup(e, offset).None? then 1 else 0) &&
      (forall k :: 0 <= k < |e| ==> s[k].offset == e[k].offset) &&
      Lookup(s, offset) == Some(value) &&
      forall o :: o != offset ==> Lookup(s, o) == Lookup(e, o)
  {
    var s := Stored(e, offset, value);
    var i := IndexOf(e, offset);
    IndexOfFirst(s, offset, i);
    forall o | o != offset
      ensures Lookup(s, o) == Lookup(e, o)
    {
      var j := IndexOf(e, o);
      IndexOfFirst(s, o, if j < |e| then j else |s|);
    }
  }

  /** IndexOf is the first position holding offset. */
  lemma {:induction false} IndexOfFirst(s: seq<Reg>, offset: nat, j: nat)
    requires j <= |s| && (j < |s| ==> s[j].offset == offset)
    requires forall k :: 0 <= k < j ==> s[k].offset != offset
    ensures IndexOf(s, offset) == j
  {
    if s != [] && j > 0 {
      IndexOfFirst(s[1..], offset, j - 1);
    }
  }

  /** One line of the listing: "%x %x\n". */
  function Line(r: Reg): (l: string)
    ensures |l| == |Hex(r.offset)| + |Hex(r.value)| + 2 >= 4
    ensures l[|Hex(r.offset)|] == ' ' && l[|l| - 1] == '\n'
  {
    Hex(r.offset) + " " + Hex(r.value) + "\n"
  }

  /** The text show_disable_regs prints for the entries. */
  function Listing(e: seq<Reg>): (l: string)
    ensures |l| >= 4 * |e|
    ensures e != [] ==> Listing(e[..|e| - 1]) <= l
  {
    if e == [] then ""
    else
      var l0, line := Listing(e[..|e| - 1]), Line(e[|e| - 1]);
      assert l0 <= l0 + line;
      l0 + line
  }

  /** The listing of any leading part of the entries starts the listing of all of them. */
  lemma {:induction false} ListingPrefix(e: seq<Reg>, k: nat)
    requires k <= |e|
    ensures Listing(e[..k]) <= Listing(e)
    decreases |e|
  {
    if k < |e| {
      var init := e[..|e| - 1];
      assert init[..k] == e[..k];
      ListingPrefix(init, k);
    } else {
      assert e[..k] == e;
    }
  }

  /** A new offset's line is added at the end of the listing; the earlier lines stay as they were. */
  lemma ListingAppends(e: seq<Reg>, offset: nat, value: nat)
    requires Lookup(e, offset).None?
    ensures Listing(Stored(e, offset, value)) == Listing(e) + Line(Reg(offset, value))
  {
    assert (e + [Reg(offset, value)])[..|e|] == e;
  }

  /** A line reads back as its two numbers. */
  lemma LineReadsBack(r: Reg)
    ensures var l := Line(r); var a := |Hex(r.offset)|;
      l[..a] == Hex(r.offset) && l[a] == ' ' && l[a + 1..|l| - 1] == Hex(r.value) && l[|l| - 1] == '\n' &&
      HexValue(l[..a]) == r.offset && HexValue(l[a + 1..|l| - 1]) == r.value
  {
    var l := Line(r);
    var a := |Hex(r.offset)|;
    assert l[..a] == Hex(r.offset);
    assert l[a + 1..|l| - 1] == Hex(r.value);
    HexRoundTrip(r.offset);
    HexRoundTrip(r.value);
  }

  /** The device's table: disable_regs[] and n_regs of struct uio_pci_generic_dev. */
  class DisableRegs {
    const regs: array<Reg>
    var n: nat

    ghost predicate Valid()
      reads this, regs
    {
      regs.Length == MaxDisableRegs && n <= MaxDisableRegs && DistinctOffsets(regs[..n])
    }

    /** The entries in use, in the order they were added. */
    function Entries(): (e: seq<Reg>)
      reads this, regs
      requires Valid()
      ensures |e| <= MaxDisableRegs && DistinctOffsets(e)
    {
      regs[..n]
    }

    /** The zero-filled table of a probed device. */
    constructor ()
      ensures Valid() && Entries() == [] && fresh(regs)
    {
      regs := new Reg[MaxDisableRegs](_ => Reg(0, 0));
      n := 0;
    }

    /**
     * store_disable_regs, given the two words sscanf read from the write
     * and the write's length: -EINVAL on a full table, otherwise the
     * table with the pair stored and the whole write consumed.
     */
    method Store(offset: nat, value: nat, count: nat) returns (r: int)
      requires Valid() && offset < U32Limit && value < U32Limit
      modifies this, regs
      ensures Valid()
      ensures old(n) >= MaxDisableRegs ==> r == -EINVAL && n == old(n) && regs[..] == old(regs[..])
      ensures old(n) < MaxDisableRegs ==> r == count && Entries() == Stored(old(Entries()), offset, value)
    {
      if n >= MaxDisableRegs {
        return -EINVAL;
      }
      ghost var e := regs[..n];
      var i := 0;
      while i < n
        invariant 0 <= i <= n && regs[..n] == e
        invariant forall k :: 0 <= k < i ==> e[k].offset != offset
      {
        if regs[i].offset == offset {
          break;
        }
        i := i + 1;
      }
      IndexOfFirst(e, offset, i);
      StoredMap(e, offset, value);
      if i < n {
        regs[i] := Reg(offset, value);
        assert regs[..n] == e[i := Reg(offset, value)];
      } else {
        regs[n] := Reg(offset, value);
        n := n + 1;
        assert regs[..n] == e + [Reg(offset, value)];
      }
      return count;
    }

    /** show_disable_regs: one line per entry, in table order. */
    method Show() returns (text: string)
      requires Valid()
      ensures text == Listing(Entries())
    {
      text := "";
      var i := 0;
      while i < n
        invariant 0 <= i <= n && text == Listing(regs[..i])
      {
        assert regs[..i + 1][..i] == regs[..i];
        text := text + Line(regs[i]);
        i := i + 1;
      }
    }
  }
}

=== FILE: wrappers.dfy ===
/** Optional values and errno-carrying results. */
module Wrappers {
  datatype Option<T> = None | Some(value: T)

  /** A kernel-style outcome: a value, or a positive errno that the C code returns negated. */
  datatype Result<T> = Ok(value: T) | Err(errno: int)
}

=== FILE: xeth_kstrs.dfy ===
/**
 * The sysfs string table of drivers/net/ethernet/xeth/xeth_kstrs.c: n
 * attribute files named by their zero-padded index, each holding an
 * optional string (NULL until written), in a table with one extra slot
 * that stays NULL.  Allocation failures and the kobject registration
 * result are parameters.
 */
module XethKstrs {
  import opened Errno
  import opened Wrappers
  import opened Text

  const MaxStrings: nat := 4096

  function Pow10(k: nat): (r: nat)
    ensures r >= 1
  { if k == 0 then 1 else 10 * Pow10(k - 1) }

  /** A number below 10^k has at most k digits; one at least 10^k more than k. */
  lemma {:induction false} DecimalLength(i: nat, k: nat)
    requires k >= 1
    ensures i < Pow10(k) <==> |Decimal(i)| <= k
  {
    if k > 1 && i >= 10 {
      DecimalLength(i / 10, k - 1);
    }
  }

  /** The width of the attribute names: the number of digits of n, for n up to 9999. */
  function Width(n: nat): (w: nat)
    ensures 1 <= w <= 4
  {
    1 + (if n >= 10 then 1 else 0) + (if n >= 100 then 1 else 0) + (if n >= 1000 then 1 else 0)
  }

  lemma WidthIsDigits(n: nat)
    requires n < 10000
    ensures Width(n) == |Decimal(n)|
  {
    var w := Width(n);
    DecimalLength(n, w);
    if w > 1 {
      DecimalLength(n, w - 1);
    }
  }

  /** Attribute i's name: i in decimal, zero-padded to Width(n). */
  function AttrName(i: nat, n: nat): string
  { ZeroPadded(i, Width(n)) }

  /** Every index below n has a name of exactly Width(n) digits that reads back as the index. */
  lemma AttrNameRoundTrip(i: nat, n: nat)
    requires i < n <= MaxStrings
    ensures |AttrName(i, n)| == Width(n) && AllDigits(AttrName(i, n)) && Value(AttrName(i, n)) == i
  {
    var w := Width(n);
    assert i < Pow10(w) by {
      assert Pow10(1) == 10 && Pow10(2) == 100 && Pow10(3) == 1000 && Pow10(4) == 10000;
    }
    DecimalLength(i, w);
    ZeroPaddedValue(i, w);
  }

  /** Distinct indices have distinct names. */
  lemma AttrNamesDistinct(i: nat, j: nat, n: nat)
    requires i < n && j < n && n <= MaxStrings && i != j
    ensures AttrName(i, n) != AttrName(j, n)
  {
    AttrNameRoundTrip(i, n);
    AttrNameRoundTrip(j, n);
  }

  /** What a store of buf leaves in the entry: nothing for an empty write, else the text less one trailing newline. */
  function Stored(buf: string): (r: Option<string>)
    ensures r.None? <==> buf == [] || buf == "\n"
    ensures r.Some? ==> r.value + (if |r.value| < |buf| then "\n" else "") == buf
  {
    var sz := if |buf| > 0 && buf[|buf| - 1] == '\n' then |buf| - 1 else |buf|;
    if sz > 0 then Some(buf[..sz]) else None
  }

  /** strlcpy into a buffer of size bytes: the text kept (at most size - 1 characters) and the length it returns. */
  function Strlcpy(s: string, size: nat): (r: (string, nat))
    ensures r.1 == |s| && |r.0| <= |s| && r.0 == s[..|r.0|]
    ensures size > 0 ==> |r.0| == if |s| < size then |s| else size - 1
  {
    (s[..if size == 0 then 0 else if |s| < size then |s| else size - 1], |s|)
  }

  /** The entries before the first NULL one, among the first n. */
  ghost function Prefix(str: seq<Option<string>>, n: nat): (k: nat)
    requires n <= |str|
    ensures k <= n && (forall j :: 0 <= j < k ==> str[j].Some?) && (k < n ==> str[k].None?)
  {
    if n == 0 then 0
    else var k := Prefix(str, n - 1); if k == n - 1 && str[n - 1].Some? then n else k
  }

  class Kstrs {
    var n: nat
    /** kstr[i].name, the attribute file names. */
    var names: array<string>
    /** str[]: n entries and a NULL terminator. */
    var str: array<Option<string>>

    ghost predicate Valid()
      reads this
    {
      names.Length == n && str.Length == n + 1 && n <= MaxStrings
    }

    constructor ()
      ensures Valid() && n == 0
    {
      n := 0;
      names := new string[0];
      str := new Option<string>[1](_ => None);
    }

    /**
     * xeth_kstrs_init: -EINVAL above 4096 entries and -ENOMEM when an
     * allocation fails; otherwise n NULL entries named by their padded
     * index, and the kobject's result.  On -ENOMEM the C releases the
     * tables and leaves NULL pointers, where the model keeps the old
     * tables: on a table never initialised, the only one the driver calls
     * this on, the two do not differ.
     */
    method Init(count: nat, allocOk: bool, added: int) returns (err: int)
      modifies this
      ensures count > MaxStrings ==> err == -EINVAL && n == old(n) && names == old(names) && str == old(str)
      ensures count <= MaxStrings && !allocOk ==> err == -ENOMEM && n == old(n) && names == old(names) && str == old(str)
      ensures count <= MaxStrings && allocOk ==> err == added && Valid() && n == count && fresh(names) && fresh(str)
      ensures count <= MaxStrings && allocOk ==>
        (forall i :: 0 <= i < n ==> names[i] == AttrName(i, n)) && forall i :: 0 <= i <= n ==> str[i].None?
    {
      if count > MaxStrings {
        return -EINVAL;
      }
      if !allocOk {
        return -ENOMEM;
      }
      var kstr := new string[count];
      var w := Width(count);
      var i := 0;
      while i < count
        invariant 0 <= i <= count
        invariant forall j :: 0 <= j < i ==> kstr[j] == ZeroPadded(j, w)
      {
        kstr[i] := ZeroPadded(i, w);
        i := i + 1;
      }
      names, n := kstr, count;
      str := new Option<string>[count + 1](_ => None);
      err := added;
    }

    /**
     * xeth_kstrs_store: the old string is dropped; an empty write (or a
     * lone newline) leaves the entry NULL, any other the text less its
     * trailing newline; the length written, or -ENOMEM when the copy
     * cannot be allocated, which leaves the entry NULL.
     */
    method Store(index: nat, buf: string, allocOk: bool) returns (ret: int)
      requires Valid() && index < n
      modifies str
      ensures var s := Stored(buf);
        ret == (if s.Some? && !allocOk then -ENOMEM else |buf|) &&
        str[..] == old(str[..])[index := if allocOk then s else None]
    {
      var sz := if |buf| > 0 && buf[|buf| - 1] == '\n' then |buf| - 1 else |buf|;
      if str[index].Some? {
        str[index] := None;
      }
      ret := |buf|;
      if sz > 0 {
        if !allocOk {
          ret := -ENOMEM;
        } else {
          str[index] := Some(buf[..sz]);
        }
      }
    }

    /**
     * xeth_kstrs_string: -EINVAL for an index outside the table (a
     * negative one included, as the comparison is unsigned), -ENOENT for
     * a NULL entry, else the entry's length with its first size - 1
     * characters copied out.
     */
    method String(size: nat, i: int) returns (ret: int, out: string)
      requires Valid()
      ensures i < 0 || i >= n ==> ret == -EINVAL && out == []
      ensures 0 <= i < n && str[i].None? ==> ret == -ENOENT && out == []
      ensures 0 <= i < n && str[i].Some? ==> (out, ret) == (Strlcpy(str[i].value, size).0, Strlcpy(str[i].value, size).1 as int)
    {
      if i < 0 || i >= n {
        return -EINVAL, [];
      }
      match str[i]
      case None =>
        ret, out := -ENOENT, [];
      case Some(s) =>
        var r := Strlcpy(s, size);
        ret, out := r.1, r.0;
    }

    /** xeth_kstrs_count: how many entries are set before the first NULL one. */
    method Count() returns (k: nat)
      requires Valid()
      ensures k == Prefix(str[..], n)
      ensures k <= n && (forall j :: 0 <= j < k ==> str[j].Some?) && (k < n ==> str[k].None?)
    {
      k := 0;
      while k < n && str[k].Some?
        invariant 0 <= k <= n && forall j :: 0 <= j < k ==> str[j].Some?
      {
        k := k + 1;
      }
      PrefixIs(str[..], n, k);
    }
  }

  /** The prefix is the one index below n before which every entry is set and at which one is not. */
  lemma {:induction false} PrefixIs(str: seq<Option<string>>, n: nat, k: nat)
    requires k <= n <= |str| && (forall j :: 0 <= j < k ==> str[j].Some?) && (k < n ==> str[k].None?)
    ensures Prefix(str, n) == k
  {
    if n > 0 && k < n {
      PrefixIs(str, n - 1, k);
    } else if n > 0 {
      PrefixIs(str, n - 1, n - 1);
    }
  }
}

=== FILE: xeth_mux.dfy ===
/**
 * The mux device of drivers/net/ethernet/xeth/xeth_mux.c: its counters,
 * the 16-slot table of lower devices that frames leave through, the
 * choice of slot, the upper hash buckets and the ethtool string-set
 * sizes.  Devices are named by their ifindex.
 */
module XethMux {
  import opened Errno
  import opened Wrappers
  import opened Bytes
  import Ethtool

  const UpperHashBkts: nat := 16
  const LowerHashBkts: nat := 16

  /** The counter names, in counter-index order. */
  const CounterNames: seq<string> := [
    "ex_frames", "ex_bytes", "sb_connections", "sbex_invalid", "sbex_dropped",
    "sbrx_invalid", "sbrx_no_dev", "sbrx_no_mem", "sbrx_msgs", "sbrx_ticks",
    "sbtx_msgs", "sbtx_retries", "sbtx_no_mem", "sbtx_queued", "sbtx_ticks"]

  /** The private-flag names, in bit order. */
  const FlagNames: seq<string> := [
    "fib_notifier", "inetaddr_notifier", "inet6addr_notifier", "netdevice_notifier",
    "netevent_notifier", "sb_task", "sb_listen", "sb_connected", "sbrx_task"]

  const Counters: nat := |CounterNames|
  const Flags: nat := |FlagNames|

  /** The counter that counts sideband messages the drivers refuse. */
  const SbrxInvalid: nat := 5

  /** The encapsulation of frames between the mux and its lowers. */
  datatype Encap = VlanEncap | OtherEncap

  /** xeth_mux_bits: how many low bits of an xid the encapsulation carries. */
  function MuxBits(encap: Encap): (bits: nat)
    ensures bits == 12 <==> encap == VlanEncap
    ensures bits == 0 <==> encap != VlanEncap
  {
    match encap
    case VlanEncap => 12
    case OtherEncap => 0
  }

  /** xeth_mux_lower_hash: slot 0 for an untagged frame, else the low bit of its TCI. */
  function LowerHash(tagged: bool, tci: nat): (slot: nat)
    ensures slot < 2 && slot < LowerHashBkts
    ensures !tagged ==> slot == 0
    ensures tagged ==> slot == tci % 2
  {
    if !tagged then 0 else tci % 2
  }

  /** xeth_mux_upper_head_indexed: bucket index, none past the last bucket. */
  function UpperHeadIndexed(index: nat): (r: Option<nat>)
    ensures r.Some? <==> index < UpperHashBkts
    ensures r.Some? ==> r.value == index
  {
    if index >= UpperHashBkts then None else Some(index)
  }

  /** xeth_mux_eto_get_sset_count */
  function GetSsetCount(sset: int): (n: int)
    ensures sset == Ethtool.SsTest ==> n == 0
    ensures sset == Ethtool.SsStats ==> n == |CounterNames|
    ensures sset == Ethtool.SsPrivFlags ==> n == |FlagNames|
    ensures sset !in {Ethtool.SsTest, Ethtool.SsStats, Ethtool.SsPrivFlags} ==> n == -EOPNOTSUPP
  {
    if sset == Ethtool.SsTest then 0
    else if sset == Ethtool.SsStats then Counters
    else if sset == Ethtool.SsPrivFlags then Flags
    else -EOPNOTSUPP
  }

  /**
   * What reload_lowers leaves in slot j, which held prev: the k-th lower
   * (1-based) is written to every slot j with k dividing j + 1, later
   * lowers over earlier ones.
   */
  function Striped(prev: Option<nat>, lowers: seq<nat>, j: nat): (r: Option<nat>)
    ensures lowers == [] ==> r == prev
    ensures lowers != [] ==> r.Some? && r.value in lowers
  {
    if |lowers| == 0 then prev
    else if (j + 1) % |lowers| == 0 then Some(lowers[|lowers| - 1])
    else Striped(prev, lowers[..|lowers| - 1], j)
  }

  /** The whole table after reload_lowers. */
  function Reloaded(table: seq<Option<nat>>, lowers: seq<nat>): (r: seq<Option<nat>>)
    ensures |r| == |table| && forall j :: 0 <= j < |r| ==> r[j] == Striped(table[j], lowers, j)
  {
    seq(|table|, j requires 0 <= j < |table| => Striped(table[j], lowers, j))
  }

  /** The largest k in 1..n that divides x. */
  function LastDivisor(x: nat, n: nat): (k: nat)
    requires n >= 1
    ensures 1 <= k <= n && x % k == 0
    ensures forall k' :: k < k' <= n ==> x % k' != 0
  {
    if x % n == 0 then n else LastDivisor(x, n - 1)
  }

  /** Slot j holds the lower whose 1-based position is the largest one dividing j + 1. */
  lemma {:induction false} StripedIsLastDivisor(prev: Option<nat>, lowers: seq<nat>, j: nat)
    requires |lowers| >= 1
    ensures Striped(prev, lowers, j) == Some(lowers[LastDivisor(j + 1, |lowers|) - 1])
  {
    var n := |lowers|;
    if (j + 1) % n != 0 {
      StripedIsLastDivisor(prev, lowers[..n - 1], j);
    }
  }

  /** With no lowers the table is left as it was; with any, every slot names one of them. */
  lemma ReloadedFills(table: seq<Option<nat>>, lowers: seq<nat>)
    ensures lowers == [] ==> Reloaded(table, lowers) == table
    ensures lowers != [] ==> forall j :: 0 <= j < |table| ==>
      Reloaded(table, lowers)[j].Some? && Reloaded(table, lowers)[j].value in lowers
  {
    forall j | 0 <= j < |table| && lowers != []
      ensures Reloaded(table, lowers)[j].Some? && Reloaded(table, lowers)[j].value in lowers
    {
      StripedIsLastDivisor(table[j], lowers, j);
    }
  }

  /**
   * After a reload a frame leaves through the first lower when it is
   * untagged or its TCI is even, and through the second (when there is
   * one) when its TCI is odd.
   */
  lemma XmitLower(table: seq<Option<nat>>, lowers: seq<nat>, tagged: bool, tci: nat)
    requires |table| == LowerHashBkts && |lowers| >= 1
    ensures Reloaded(table, lowers)[LowerHash(tagged, tci)] ==
      Some(lowers[if |lowers| >= 2 then LowerHash(tagged, tci) else 0])
  {
    var slot := LowerHash(tagged, tci);
    StripedIsLastDivisor(table[slot], lowers, slot);
    assert 2 % 2 == 0;
  }

  /** Slot j is one the n-th lower is written to. */
  predicate Hit(n: nat, j: nat)
    requires n >= 1
  { (j + 1) % n == 0 }

  /** (j + 1) is a multiple of n only at the multiples the stride visits. */
  lemma StrideSkips(n: nat, m: nat, j: nat)
    requires n >= 1 && m * n <= j + 1 < m * n + n
    ensures Hit(n, j) <==> j + 1 == m * n
  {
    var r := j + 1 - m * n;
    assert j + 1 == m * n + r && 0 <= r < n;
    assert (j + 1) / n == m && (j + 1) % n == r by {
      DivModUnique(j + 1, n, m, r);
    }
  }

  /** From one slot the stride writes, the next it writes is n further on. */
  lemma NextHit(n: nat, i: nat, j: nat)
    requires n >= 1 && Hit(n, i) && i < j <= i + n
    ensures Hit(n, j) <==> j == i + n
  {
    var q := (i + 1) / n;
    assert i + 1 == q * n;
    assert (q + 1) * n == q * n + n;
    StrideSkips(n, q + 1, i + n);
    if j < i + n {
      StrideSkips(n, q, j);
    }
  }

  class Mux {
    /** The counters, indexed as CounterNames. */
    const counter: array<int>
    /** lower[]: the lower device per slot, none until the first reload. */
    const lower: array<Option<nat>>

    ghost predicate Valid()
      reads this
    {
      counter.Length == Counters && lower.Length == LowerHashBkts
    }

    /** xeth_mux_setup: every counter zero, no lowers. */
    constructor ()
      ensures Valid() && fresh(counter) && fresh(lower)
      ensures forall i :: 0 <= i < Counters ==> counter[i] == 0
      ensures forall j :: 0 <= j < LowerHashBkts ==> lower[j].None?
    {
      counter := new int[Counters](_ => 0);
      lower := new Option<nat>[LowerHashBkts](_ => None);
    }

    /** xeth_mux_counter_inc */
    method CounterInc(index: nat)
      requires Valid() && index < Counters
      modifies counter
      ensures counter[..] == old(counter[..])[index := old(counter[index]) + 1]
    {
      counter[index] := counter[index] + 1;
    }

    /** xeth_mux_reload_lowers: the k-th of lowers fills slots k - 1, 2k - 1, ... */
    method ReloadLowers(lowers: seq<nat>)
      requires Valid()
      modifies lower
      ensures lower[..] == Reloaded(old(lower[..]), lowers)
    {
      ghost var table := lower[..];
      var n := 1;
      while n <= |lowers|
        invariant 1 <= n <= |lowers| + 1
        invariant forall j :: 0 <= j < LowerHashBkts ==> lower[j] == Striped(table[j], lowers[..n - 1], j)
      {
        Stripe(lowers, n, table);
        n := n + 1;
      }
      assert lowers[..n - 1] == lowers;
    }

    /** One pass of the outer loop: lowers[n - 1] into slots n - 1, 2n - 1, ... */
    method Stripe(lowers: seq<nat>, n: nat, ghost table: seq<Option<nat>>)
      requires Valid() && 1 <= n <= |lowers| && |table| == LowerHashBkts
      requires forall j :: 0 <= j < LowerHashBkts ==> lower[j] == Striped(table[j], lowers[..n - 1], j)
      modifies lower
      ensures forall j :: 0 <= j < LowerHashBkts ==> lower[j] == Striped(table[j], lowers[..n], j)
    {
      ghost var before := lower[..];
      var i := n - 1;
      StrideSkips(n, 1, i);
      forall j | 0 <= j < i
        ensures !Hit(n, j)
      {
        StrideSkips(n, 0, j);
      }
      while i < LowerHashBkts
        invariant Hit(n, i)
        invariant forall j :: 0 <= j < LowerHashBkts ==>
          lower[j] == if j < i && Hit(n, j) then Some(lowers[n - 1]) else before[j]
      {
        lower[i] := Some(lowers[n - 1]);
        forall j | i < j < i + n
          ensures !Hit(n, j)
        {
          NextHit(n, i, j);
        }
        NextHit(n, i, i + n);
        i := i + n;
      }
      assert lowers[..n][..n - 1] == lowers[..n - 1];
    }
  }
}

=== FILE: xeth_parse.dfy ===
/**
 * The interface-name parser of drivers/net/ethernet/xeth/parse.c.  A name
 * "xethbr.ID" denotes a bridge; "xethPORT[-SUBPORT][.ID(t|u)]" a port, a
 * subport, or a tagged or untagged bridge port on one of them.  Port and
 * subport numbers are offset by the platform's base; numbers are read
 * with sscanf "%hu%n" (Text.ScanU16).  A name is a C string: the end of
 * the sequence is its terminating NUL.
 */
module XethParse {
  import opened Errno
  import opened Wrappers
  import opened Text

  datatype DevType = Port | Bridge | TaggedBridgePort | UntaggedBridgePort

  /** The fields of xeth.n the parser checks against. */
  datatype Limits = Limits(base: nat, ports: nat, subports: nat, userids: nat)

  /** struct xeth_priv_ref as a value. */
  datatype Ref = Ref(porti: int, subporti: int, portid: int, id: int, ndi: int, iflinki: int, devtype: DevType)

  /** What follows a port's numbers: nothing, or ".ID" and 't' or 'u' for a bridge port. */
  datatype Suffix = Plain | Member(id: nat, kind: DevType)

  /** The subport read (-1 when absent) and the cursor after it. */
  datatype SubStep = SubStep(sub: int, next: nat)

  /** The suffix read and the cursor after it. */
  datatype IdStep = IdStep(suffix: Suffix, next: nat)


  predicate HasPrefix(s: string, p: string) { |p| <= |s| && s[..|p|] == p }

  /** A u16 subtraction: the result wraps modulo 2^16. */
  function U16Sub(a: nat, b: nat): (r: nat)
    ensures r < 0x1_0000 && (b <= a < b + 0x1_0000 ==> r == a - b)
  { (a - b) % 0x1_0000 }

  /* ------------------------------------------------------------ specification */

  /** xeth_parse_xethbr: the id after "xethbr." must lie in [1, userids); trailing text is ignored. */
  function ParseXethbr(name: string, lim: Limits): (r: Option<Ref>)
    requires HasPrefix(name, "xethbr.")
    ensures r.Some? ==> var x := r.value;
      x.devtype == Bridge && 1 <= x.id < lim.userids && x.ndi == x.id && x.iflinki == x.id % 2 &&
      x.porti == -1 && x.subporti == -1 && x.portid == -1
    ensures r.None? <==> ScanU16(name, 7).None? || !(1 <= ScanU16(name, 7).value.value < lim.userids)
  {
    match ScanU16(name, 7)
    case None => None
    case Some(s) =>
      if 1 <= s.value < lim.userids then Some(Ref(-1, -1, -1, s.value, s.value, s.value % 2, Bridge))
      else None
  }

  /** "-SUBPORT": -1 and the same cursor when absent; the subport index, which must be below subports. */
  function Subport(name: string, p: nat, lim: Limits): (r: Option<SubStep>)
    requires p <= |name|
    ensures r.Some? ==> p <= r.value.next <= |name| && -1 <= r.value.sub < lim.subports
    ensures r.Some? && r.value.sub < 0 ==> r.value.next == p
    ensures r.Some? && r.value.next == p ==> r.value.sub == -1
  {
    if p == |name| || name[p] != '-' then Some(SubStep(-1, p))
    else match ScanU16(name, p + 1)
      case None => None
      case Some(s) =>
        var u := U16Sub(s.value, lim.base);
        if u >= lim.subports then None else Some(SubStep(u, s.next))
  }

  /** ".ID" followed by 't' or 'u': the id, in [1, userids), and the device type; None inside when absent. */
  function UserId(name: string, p: nat, lim: Limits): (r: Option<IdStep>)
    requires p <= |name|
    ensures r.Some? ==> p <= r.value.next <= |name|
    ensures r.Some? && r.value.suffix.Plain? ==> r.value.next == p && (p == |name| || name[p] != '.')
    ensures r.Some? && r.value.suffix.Member? ==> var x := r.value.suffix;
      p < r.value.next && 1 <= x.id < lim.userids && (x.kind == TaggedBridgePort || x.kind == UntaggedBridgePort) &&
      name[r.value.next - 1] == (if x.kind == TaggedBridgePort then 't' else 'u')
  {
    if p == |name| || name[p] != '.' then Some(IdStep(Plain, p))
    else match ScanU16(name, p + 1)
      case None => None
      case Some(s) =>
        if !(1 <= s.value < lim.userids) || s.next == |name| then None
        else if name[s.next] == 't' then Some(IdStep(Member(s.value, TaggedBridgePort), s.next + 1))
        else if name[s.next] == 'u' then Some(IdStep(Member(s.value, UntaggedBridgePort), s.next + 1))
        else None
  }

  /**
   * xeth_parse_xeth: the port (less base) must be below ports and gives
   * portid 4094 - port, from which a subport takes subport * ports more;
   * an id suffix makes the device a bridge port with that id and no ndi;
   * nothing may follow.
   */
  function ParseXeth(name: string, lim: Limits): (r: Option<Ref>)
    requires HasPrefix(name, "xeth")
  {
    match ScanU16(name, 4)
    case None => None
    case Some(s) =>
      var port := U16Sub(s.value, lim.base);
      if port >= lim.ports then None
      else match Subport(name, s.next, lim)
        case None => None
        case Some(sp) =>
          var portid := 4094 - port - (if sp.sub < 0 then 0 else sp.sub * lim.ports);
          match UserId(name, sp.next, lim)
          case None => None
          case Some(u) =>
            if u.next != |name| then None
            else match u.suffix
              case Plain => Some(Ref(port, sp.sub, portid, portid, portid, portid % 2, Port))
              case Member(id, t) => Some(Ref(port, sp.sub, portid, id, -1, id % 2, t))
  }

  /**
   * What a parsed port name yields: a port index below ports, a subport
   * index below subports or -1, portid 4094 - port - subport * ports, and
   * either a plain port (id and ndi are portid) or a bridge port with a
   * user id and no ndi; iflinki is the id's low bit.
   */
  lemma ParseXethFields(name: string, lim: Limits)
    requires HasPrefix(name, "xeth")
    ensures var r := ParseXeth(name, lim);
      r.Some? ==> var x := r.value;
      0 <= x.porti < lim.ports && -1 <= x.subporti < lim.subports && x.iflinki == x.id % 2 &&
      x.portid == 4094 - x.porti - (if x.subporti < 0 then 0 else x.subporti * lim.ports) &&
      (x.devtype == Port ==> x.id == x.portid == x.ndi) &&
      (x.devtype != Port ==> x.devtype != Bridge && 1 <= x.id < lim.userids && x.ndi == -1)
  {
  }

  /** xeth_parse_name: "xethbr." names are bridges, other "xeth" names ports; anything else is refused. */
  function Parse(name: string, lim: Limits): (r: Option<Ref>)
    ensures !HasPrefix(name, "xeth") ==> r.None?
    ensures r.Some? ==> (r.value.devtype == Bridge <==> HasPrefix(name, "xethbr."))
  {
    if HasPrefix(name, "xethbr.") then ParseXethbr(name, lim)
    else if HasPrefix(name, "xeth") then ParseXeth(name, lim)
    else None
  }

  /* ------------------------------------------------------------- the names */

  /** "-SUBPORT" of a name, offset by base; empty for a port (sub < 0). */
  function SubportText(base: nat, sub: int): string
  { if sub >= 0 then "-" + Decimal(base + sub) else "" }

  /** ".IDt" or ".IDu" of a bridge-port name; empty without a tag. */
  function SuffixText(x: Suffix): string
  {
    match x
    case Plain => ""
    case Member(id, t) => "." + Decimal(id) + (if t == TaggedBridgePort then "t" else "u")
  }

  /** The name of a port, subport or bridge port, its numbers offset by base. */
  function PortName(base: nat, port: nat, sub: int, x: Suffix): string
  {
    "xeth" + Decimal(base + port) + SubportText(base, sub) + SuffixText(x)
  }

  function BridgeName(id: nat): string { "xethbr." + Decimal(id) }

  /** A bridge's name parses back to its id exactly when the id is a valid user id. */
  lemma BridgeNameParses(id: nat, lim: Limits)
    requires id < 0x1_0000
    ensures Parse(BridgeName(id), lim) ==
      if 1 <= id < lim.userids then Some(Ref(-1, -1, -1, id, id, id % 2, Bridge)) else None
  {
    var name := BridgeName(id);
    assert name == "xethbr." + Decimal(id) + "";
    assert name[..7] == "xethbr.";
    assert Parse(name, lim) == ParseXethbr(name, lim);
    ScanDecimal("xethbr.", id, "");
    ModSmall(id);
  }

  /** The subport step once "-" and its number have been read. */
  lemma SubportScanned(name: string, p: nat, lim: Limits, n: nat, next: nat)
    requires p < |name| && name[p] == '-' && ScanU16(name, p + 1) == Some(Scan(n, next)) && lim.base <= n
    ensures Subport(name, p, lim) == if n - lim.base < lim.subports then Some(SubStep(n - lim.base, next)) else None
  {
    assert U16Sub(n, lim.base) == n - lim.base;
  }

  /** The id step once "." and its number have been read, with one character left. */
  lemma UserIdScanned(name: string, p: nat, lim: Limits, n: nat)
    requires p < |name| && name[p] == '.' && ScanU16(name, p + 1) == Some(Scan(n, |name| - 1))
    requires name[|name| - 1] == 't' || name[|name| - 1] == 'u'
    ensures UserId(name, p, lim) ==
      if 1 <= n < lim.userids then
        Some(IdStep(Member(n, if name[|name| - 1] == 't' then TaggedBridgePort else UntaggedBridgePort), |name|))
      else None
  {
  }

  lemma Assoc(x: string, y: string, z: string)
    ensures x + (y + z) == x + y + z
  {
  }

  /** The subport step of a name whose subport text follows a. */
  lemma SubportOfName(a: string, sub: int, tg: string, lim: Limits)
    requires sub >= -1 && lim.base + sub < 0x1_0000 && (tg == [] || tg[0] == '.')
    ensures var sp := SubportText(lim.base, sub);
      Subport(a + sp + tg, |a|, lim) ==
        if sub < 0 then Some(SubStep(-1, |a|))
        else if sub < lim.subports then Some(SubStep(sub, |a| + |sp|))
        else None
  {
    if sub >= 0 {
      var k := lim.base + sub;
      var d := Decimal(k);
      var name := a + "-" + d + tg;
      assert SubportText(lim.base, sub) == "-" + d;
      assert a + SubportText(lim.base, sub) + tg == name by {
        Assoc(a, "-", d);
      }
      ScanDecimal(a + "-", k, tg);
      ModSmall(k);
      assert name[|a|] == '-';
      SubportScanned(name, |a|, lim, k, |a| + 1 + |d|);
    } else {
      assert a + SubportText(lim.base, sub) + tg == a + tg;
    }
  }

  predicate MemberKind(x: Suffix) { x.Member? ==> x.kind == TaggedBridgePort || x.kind == UntaggedBridgePort }

  /** The id step of a name whose suffix text follows a. */
  lemma UserIdOfName(a: string, x: Suffix, lim: Limits)
    requires MemberKind(x) && (x.Member? ==> x.id < 0x1_0000)
    ensures var name := a + SuffixText(x);
      UserId(name, |a|, lim) ==
        if x.Plain? then Some(IdStep(Plain, |a|))
        else if 1 <= x.id < lim.userids then Some(IdStep(x, |name|))
        else None
  {
    if x.Member? {
      var d := Decimal(x.id);
      var c := if x.kind == TaggedBridgePort then 't' else 'u';
      Assoc(a, "." + d, [c]);
      Assoc(a, ".", d);
      ScanDecimal(a + ".", x.id, [c]);
      ModSmall(x.id);
      var name := a + "." + d + [c];
      assert name[|a|] == '.' && name[|name| - 1] == c;
      UserIdScanned(name, |a|, lim, x.id);
    } else {
      assert a + SuffixText(x) == a;
    }
  }

  /** The reference a port name with these numbers denotes. */
  function PortRef(port: nat, sub: int, x: Suffix, lim: Limits): Ref
  {
    var portid := 4094 - port - (if sub < 0 then 0 else sub * lim.ports);
    match x
    case Plain => Ref(port, sub, portid, portid, portid, portid % 2, Port)
    case Member(id, t) => Ref(port, sub, portid, id, -1, id % 2, t)
  }

  /** ParseXeth in terms of its three steps. */
  lemma ParseXethFrom(name: string, lim: Limits, port: nat, k: nat, sp: Option<SubStep>, ui: Option<IdStep>)
    requires HasPrefix(name, "xeth") && k <= |name| && lim.base + port < 0x1_0000
    requires ScanU16(name, 4) == Some(Scan(lim.base + port, k)) && Subport(name, k, lim) == sp
    requires sp.Some? ==> UserId(name, sp.value.next, lim) == ui
    ensures ParseXeth(name, lim) ==
      if port >= lim.ports || sp.None? || ui.None? || ui.value.next != |name| then None
      else Some(PortRef(port, sp.value.sub, ui.value.suffix, lim))
  {
  }

  /**
   * A port, subport or bridge-port name parses back to the numbers it was
   * printed from, and is refused exactly when one of them is out of range.
   */
  lemma PortNameParses(port: nat, sub: int, x: Suffix, lim: Limits)
    requires lim.base + port < 0x1_0000 && sub >= -1 && lim.base + sub < 0x1_0000
    requires MemberKind(x) && (x.Member? ==> x.id < 0x1_0000)
    ensures var r := Parse(PortName(lim.base, port, sub, x), lim);
      r == if port < lim.ports && sub < lim.subports && (x.Member? ==> 1 <= x.id < lim.userids)
        then Some(PortRef(port, sub, x, lim)) else None
  {
    var sp, tg := SubportText(lim.base, sub), SuffixText(x);
    var n := lim.base + port;
    var d := Decimal(n);
    var a := "xeth" + d;
    var name := PortName(lim.base, port, sub, x);
    assert name == a + sp + tg;
    assert a + (sp + tg) == name by {
      Assoc(a, sp, tg);
    }
    assert HasPrefix(name, "xeth") && !HasPrefix(name, "xethbr.") by {
      assert name[4] == d[0];
    }
    assert sp + tg == [] || (sp + tg)[0] in "-.";
    ScanDecimal("xeth", n, sp + tg);
    ModSmall(n);
    assert ScanU16(name, 4) == Some(Scan(n, |a|));
    assert Parse(name, lim) == ParseXeth(name, lim);
    SubportOfName(a, sub, tg, lim);
    var spr := Subport(name, |a|, lim);
    assert spr.Some? ==> spr.value.next == |a + sp|;
    var uir := UserId(name, |a + sp|, lim);
    ParseXethFrom(name, lim, port, |a|, spr, uir);
    UserIdOfName(a + sp, x, lim);
  }

  /* ------------------------------------------------------------ the parser */

  /** struct xeth_priv_ref, written field by field by the parser. */
  class PrivRef {
    var porti: int
    var subporti: int
    var portid: int
    var id: int
    var ndi: int
    var iflinki: int
    var devtype: DevType

    constructor ()
      ensures porti == 0 && subporti == 0 && portid == 0 && id == 0 && ndi == 0 && iflinki == 0 && devtype == Port
    {
      porti, subporti, portid, id, ndi, iflinki, devtype := 0, 0, 0, 0, 0, 0, Port;
    }

    function Value(): Ref
      reads this
    {
      Ref(porti, subporti, portid, id, ndi, iflinki, devtype)
    }
  }

  /** xeth_parse_xethbr with its cursor at name + 7. */
  method ParseXethbrInto(name: string, lim: Limits, ref: PrivRef) returns (err: int)
    requires HasPrefix(name, "xethbr.")
    modifies ref
    ensures var r := ParseXethbr(name, lim); err == (if r.Some? then 0 else -EINVAL) && (r.Some? ==> ref.Value() == r.value)
  {
    var p := 7;
    if p == |name| {
      return -EINVAL;
    }
    var s := ScanU16(name, p);
    if s.None? {
      return -EINVAL;
    }
    var u := s.value.value;
    if 1 > u || u >= lim.userids {
      return -EINVAL;
    }
    ref.porti, ref.subporti, ref.portid := -1, -1, -1;
    ref.id := u;
    ref.ndi := ref.id;
    ref.iflinki := ref.id % 2;
    ref.devtype := Bridge;
    err := 0;
  }

  /** The "-SUBPORT" step of xeth_parse_xeth, from cursor p0. */
  method SubportInto(name: string, p0: nat, lim: Limits, ref: PrivRef) returns (ok: bool, p: nat)
    requires p0 <= |name|
    modifies ref
    ensures var sp := Subport(name, p0, lim); ok == sp.Some?
    ensures var sp := Subport(name, p0, lim); ok ==> p == sp.value.next && ref.subporti == sp.value.sub
    ensures ok ==> ref.porti == old(ref.porti) && ref.devtype == old(ref.devtype) && ref.ndi == old(ref.ndi) && ref.iflinki == old(ref.iflinki)
    ensures ok && ref.subporti < 0 ==> ref.portid == old(ref.portid) && ref.id == old(ref.id)
    ensures ok && ref.subporti >= 0 ==> ref.portid == old(ref.portid) - ref.subporti * lim.ports && ref.id == ref.portid
  {
    p := p0;
    ok := true;
    if p < |name| && name[p] == '-' {
      p := p + 1;
      var s := ScanU16(name, p);
      if s.None? {
        return false, p;
      }
      var u := U16Sub(s.value.value, lim.base);
      if u >= lim.subports {
        return false, p;
      }
      p := s.value.next;
      ref.subporti := u;
      ref.portid := ref.portid - u * lim.ports;
      ref.id := ref.portid;
    } else {
      ref.subporti := -1;
    }
  }

  /** The ".ID" step of xeth_parse_xeth, from cursor p0: without it ndi takes the id. */
  method UserIdInto(name: string, p0: nat, lim: Limits, ref: PrivRef) returns (ok: bool, p: nat)
    requires p0 <= |name|
    modifies ref
    ensures var ui := UserId(name, p0, lim); ok == ui.Some? && (ok ==> p == ui.value.next)
    ensures ok ==> ref.porti == old(ref.porti) && ref.subporti == old(ref.subporti) && ref.portid == old(ref.portid) && ref.iflinki == old(ref.iflinki)
    ensures var ui := UserId(name, p0, lim); ok ==> match ui.value.suffix
      case Plain => ref.id == old(ref.id) && ref.ndi == ref.id && ref.devtype == old(ref.devtype)
      case Member(id, t) => ref.id == id && ref.ndi == -1 && ref.devtype == t
  {
    p := p0;
    if p < |name| && name[p] == '.' {
      p := p + 1;
      var s := ScanU16(name, p);
      if s.None? {
        return false, p;
      }
      var u := s.value.value;
      if 1 > u || u >= lim.userids {
        return false, p;
      }
      p := s.value.next;
      if p == |name| {
        return false, p;
      } else if name[p] == 't' {
        ref.devtype := TaggedBridgePort;
      } else if name[p] == 'u' {
        ref.devtype := UntaggedBridgePort;
      } else {
        return false, p;
      }
      p := p + 1;
      ref.id := u;
      ref.ndi := -1;
    } else {
      ref.ndi := ref.id;
    }
    ok := true;
  }

  /** xeth_parse_xeth with its cursor p advanced over each part as it is read. */
  method ParseXethInto(name: string, lim: Limits, ref: PrivRef) returns (err: int)
    requires HasPrefix(name, "xeth")
    modifies ref
    ensures var r := ParseXeth(name, lim); err == (if r.Some? then 0 else -EINVAL) && (r.Some? ==> ref.Value() == r.value)
  {
    var p := 4;
    if p == |name| {
      return -EINVAL;
    }
    var s := ScanU16(name, p);
    if s.None? {
      return -EINVAL;
    }
    p := s.value.next;
    var u := U16Sub(s.value.value, lim.base);
    if u >= lim.ports {
      return -EINVAL;
    }
    ref.porti := u;
    ref.subporti := -1;
    ref.portid := 4094 - u;
    ref.id := ref.portid;
    ref.devtype := Port;
    var ok;
    ok, p := SubportInto(name, p, lim, ref);
    if !ok {
      return -EINVAL;
    }
    ok, p := UserIdInto(name, p, lim, ref);
    if !ok || p < |name| {
      return -EINVAL;
    }
    ref.iflinki := ref.id % 2;
    err := 0;
  }

  /** xeth_parse_name: ref holds the parsed reference on success; -EINVAL otherwise. */
  method ParseName(name: string, lim: Limits, ref: PrivRef) returns (err: int)

    modifies ref
    ensures var r := Parse(name, lim); err == (if r.Some? then 0 else -EINVAL) && (r.Some? ==> ref.Value() == r.value)
  {
    if |name| >= 7 && name[..7] == "xethbr." {
      err := ParseXethbrInto(name, lim, ref);
    } else if |name| >= 4 && name[..4] == "xeth" {
      err := ParseXethInto(name, lim, ref);
    } else {
      err := -EINVAL;
    }
  }
}

=== FILE: xeth_port.dfy ===
/**
 * The ethtool side of a front-panel port device,
 * drivers/net/ethernet/xeth/xeth_port.c: private flags, the ethtool
 * statistics the switch daemon pushes, and the link and FEC settings,
 * each accepted change being sent back over the sideband.
 */
module XethPort {
  import opened Errno
  import opened Wrappers
  import opened Bytes
  import opened Ethtool
  import opened XethSbtx
  import opened XethMux

  /** The link mode a connector needs to be supported. */
  const PortModes: map<nat, nat> :=
    map[PortTp := ModeTp, PortAui := ModeAui, PortMii := ModeMii, PortFibre := ModeFibre, PortBnc := ModeBnc]

  /**
   * xeth_port_validate_port: a connector with a link mode is accepted
   * when that mode is supported; DA, NONE and OTHER always are.
   */
  function ValidatePort(ks: KSettings, port: nat): (r: int)
    ensures r == 0 || r == -EINVAL
    ensures r == 0 <==> port in {PortDa, PortNone, PortOther} || (port in PortModes && PortModes[port] in ks.supported)
  {
    var t :=
      if port == PortTp then ModeTp in ks.supported
      else if port == PortAui then ModeAui in ks.supported
      else if port == PortMii then ModeMii in ks.supported
      else if port == PortFibre then ModeFibre in ks.supported
      else if port == PortBnc then ModeBnc in ks.supported
      else port == PortDa || port == PortNone || port == PortOther;
    if t then 0 else -EINVAL
  }

  /** The result of a settings request: 0 or an error, and the settings left behind. */
  datatype Outcome = Outcome(err: int, ks: KSettings)

  /**
   * xeth_port_set_link_ksettings without the final send.  A new
   * connector is checked and written first, so a request refused later
   * for its speed, duplex or modes still leaves the new connector.
   */
  function SetLink(ks: KSettings, req: KSettings): (o: Outcome)
    ensures o.err == 0 || o.err == -EINVAL
    ensures o.ks.supported == ks.supported
    ensures o.err == 0 <==>
      (req.base.port == ks.base.port || ValidatePort(ks, req.base.port) == 0) && Apply(ks, req).Ok?
    ensures o.err == 0 ==> o.ks == Apply(ks, req).value.(base := Apply(ks, req).value.base.(port := req.base.port))
    ensures o.err != 0 ==> o.ks == ks || (o.ks == ks.(base := ks.base.(port := req.base.port)) && ValidatePort(ks, req.base.port) == 0)
  {
    var ks1 := if req.base.port == ks.base.port then ks else ks.(base := ks.base.(port := req.base.port));
    if req.base.port != ks.base.port && ValidatePort(ks, req.base.port) != 0 then Outcome(-EINVAL, ks)
    else match Apply(ks1, req)
      case Err(e) => Outcome(-e, ks1)
      case Ok(ks2) => Outcome(0, ks2)
  }

  /** A refused request can still change the connector. */
  lemma RefusedRequestChangesPort(ks: KSettings, req: KSettings)
    requires ks.base.port == PortTp && req.base.port == PortDa
    requires req.base.autoneg == AutonegDisable && req.base.speed == 0
    ensures SetLink(ks, req).err == -EINVAL && SetLink(ks, req).ks.base.port == PortDa
  {
  }

  /** A request accepted once is accepted again and changes nothing the second time. */
  lemma SetLinkIdempotent(ks: KSettings, req: KSettings)
    requires SetLink(ks, req).err == 0
    ensures SetLink(SetLink(ks, req).ks, req) == SetLink(ks, req)
  {
    var ks1 := if req.base.port == ks.base.port then ks else ks.(base := ks.base.(port := req.base.port));
    ApplyIdempotent(ks1, req);
  }

  /** The FEC link modes that ETHTOOL_FEC_AUTO, _OFF, _RS and _BASER each call for. */
  function FecModesOf(fec: bv32): set<nat>
  {
    if fec == FecAuto then {ModeFecRs, ModeFecBaser}
    else if fec == FecOff then {ModeFecNone}
    else if fec == FecRs then {ModeFecRs}
    else if fec == FecBaser then {ModeFecBaser}
    else {}
  }

  /**
   * xeth_port_set_fecparam without the final send: an unknown mode is
   * refused, a mode whose FEC link modes are not all supported is not
   * supported, else exactly those FEC modes are advertised.
   */
  function SetFec(ks: KSettings, fec: bv32): (r: Result<KSettings>)
    ensures r.Err? ==> r.errno == EINVAL || r.errno == EOPNOTSUPP
    ensures r.Err? && r.errno == EINVAL <==> fec !in {FecAuto, FecOff, FecRs, FecBaser}
    ensures r.Ok? <==> fec in {FecAuto, FecOff, FecRs, FecBaser} && FecModesOf(fec) <= ks.supported
    ensures r.Ok? ==> r.value.base == ks.base && r.value.supported == ks.supported
    ensures r.Ok? ==> r.value.advertising * FecModes == FecModesOf(fec)
    ensures r.Ok? ==> r.value.advertising - FecModes == ks.advertising - FecModes
  {
    var adv := ks.advertising;
    if fec == FecAuto then
      if ModeFecRs !in ks.supported || ModeFecBaser !in ks.supported then Err(EOPNOTSUPP)
      else Ok(ks.(advertising := adv - {ModeFecNone} + {ModeFecRs} + {ModeFecBaser}))
    else if fec == FecOff then
      if ModeFecNone !in ks.supported then Err(EOPNOTSUPP)
      else Ok(ks.(advertising := adv + {ModeFecNone} - {ModeFecRs} - {ModeFecBaser}))
    else if fec == FecRs then
      if ModeFecRs !in ks.supported then Err(EOPNOTSUPP)
      else Ok(ks.(advertising := adv - {ModeFecNone} + {ModeFecRs} - {ModeFecBaser}))
    else if fec == FecBaser then
      if ModeFecBaser !in ks.supported then Err(EOPNOTSUPP)
      else Ok(ks.(advertising := adv - {ModeFecNone} - {ModeFecRs} + {ModeFecBaser}))
    else Err(EINVAL)
  }

  /** struct ethtool_fecparam: the modes the port can do, and the one in use. */
  datatype FecParam = FecParam(fec: bv32, active: bv32)

  /**
   * The fec word of xeth_port_get_fecparam: OFF, RS and BASER for the
   * supported FEC modes, AUTO when both RS and BASER are, NONE when
   * there is none.
   */
  function FecCaps(supported: LinkModes): (w: bv32)
    ensures w == FecNone <==> ModeFecNone !in supported && ModeFecRs !in supported && ModeFecBaser !in supported
    ensures w & FecOff != 0 <==> ModeFecNone in supported
    ensures w & FecRs != 0 <==> ModeFecRs in supported
    ensures w & FecBaser != 0 <==> ModeFecBaser in supported
    ensures w & FecAuto != 0 <==> ModeFecRs in supported && ModeFecBaser in supported
  {
    var w0: bv32 := (if ModeFecNone in supported then FecOff else 0) |
                    (if ModeFecRs in supported then FecRs else 0) |
                    (if ModeFecBaser in supported then FecBaser else 0);
    var w1 := if w0 & (FecRs | FecBaser) == FecRs | FecBaser then w0 | FecAuto else w0;
    if w1 == 0 then FecNone else w1
  }

  /** xeth_port_get_fecparam as written: advertising BASER alone overwrites fec and leaves active_fec 0. */
  function GetFecparamAsWritten(ks: KSettings): (p: FecParam)
    ensures (ModeFecNone !in ks.advertising && ModeFecRs !in ks.advertising && ModeFecBaser in ks.advertising &&
             FecCaps(ks.supported) != FecNone) ==> p == FecParam(FecBaser, 0)
  {
    var fec := FecCaps(ks.supported);
    var adv := ks.advertising;
    if fec == FecNone then FecParam(fec, FecNone)
    else if ModeFecNone in adv then FecParam(fec, FecOff)
    else if ModeFecRs in adv then FecParam(fec, if ModeFecBaser in adv then FecAuto else FecRs)
    else if ModeFecBaser in adv then FecParam(FecBaser, 0)
    else FecParam(fec, 0)
  }

  /** xeth_port_get_fecparam with active_fec, not fec, set to BASER. */
  function GetFecparam(ks: KSettings): (p: FecParam)
    ensures p.fec == FecCaps(ks.supported)
    ensures p.fec == FecNone ==> p.active == FecNone
  {
    var fec := FecCaps(ks.supported);
    var adv := ks.advertising;
    if fec == FecNone then FecParam(fec, FecNone)
    else if ModeFecNone in adv then FecParam(fec, FecOff)
    else if ModeFecRs in adv then FecParam(fec, if ModeFecBaser in adv then FecAuto else FecRs)
    else if ModeFecBaser in adv then FecParam(fec, FecBaser)
    else FecParam(fec, 0)
  }

  /** After a mode is set, the port reports it as the active one. */
  lemma FecRoundTrip(ks: KSettings, fec: bv32)
    requires SetFec(ks, fec).Ok?
    ensures GetFecparam(SetFec(ks, fec).value).active == fec
    ensures GetFecparam(SetFec(ks, fec).value).fec == GetFecparam(ks).fec
  {
    var ks1 := SetFec(ks, fec).value;
    assert FecModesOf(fec) <= ks.supported * FecModes;
    assert ModeFecNone in ks1.advertising <==> ModeFecNone in FecModesOf(fec);
    assert ModeFecRs in ks1.advertising <==> ModeFecRs in FecModesOf(fec);
    assert ModeFecBaser in ks1.advertising <==> ModeFecBaser in FecModesOf(fec);
  }

  /** As written, a port set to BASER reports no active mode and BASER alone as its capability. */
  lemma FecBaserNotReported(ks: KSettings)
    requires ModeFecBaser in ks.supported
    ensures SetFec(ks, FecBaser).Ok?
    ensures GetFecparamAsWritten(SetFec(ks, FecBaser).value) == FecParam(FecBaser, 0)
  {
    var ks1 := SetFec(ks, FecBaser).value;
    assert ModeFecBaser in ks1.supported * FecModes;
  }

  /**
   * The statistics a port's private area is allocated with: the platform's
   * count for an unsplit port or first subport, none for a later subport.
   */
  function StatsLength(subport: int, nStats: nat): nat
  { if subport <= 0 then nStats else 0 }

  /**
   * As written, xeth_port_ethtool_stat stores the count into
   * ext[0].stats[index] whenever the index is below the platform's count,
   * whatever the subport.
   */
  predicate StatStoredAsWritten(subport: int, nStats: nat, index: nat)
  { index < nStats }

  /**
   * The store lands past the port's allocation exactly on a later subport
   * with an index the platform counts; subport 2 with index 0 is one.
   */
  lemma SubportStatOverrun(subport: int, nStats: nat, index: nat)
    ensures StatStoredAsWritten(subport, nStats, index) && index >= StatsLength(subport, nStats)
      <==> subport > 0 && index < nStats
    ensures nStats > 0 ==> StatStoredAsWritten(2, nStats, 0) && StatsLength(2, nStats) == 0
  {
  }

  class Port {
    const port: int
    /** -1 for a port that is not split, else the subport number. */
    const subport: int
    const xid: nat
    var ksettings: KSettings
    /** ext[0].n_priv_flags */
    const nPrivFlags: nat
    /** ext[0].priv_flags */
    var privFlags: nat
    /** The platform's number of ethtool statistics. */
    const nStats: nat
    /** ext[0].stats: allocated only for an unsplit port or first subport. */
    const stats: array<int>

    ghost predicate Valid()
      reads this
    {
      nPrivFlags < 0x100 && privFlags < 0x1_0000_0000 && stats.Length == StatsLength(subport, nStats)
    }

    constructor (port: int, subport: int, xid: nat, ks: KSettings, nPrivFlags: nat, nStats: nat)
      requires nPrivFlags < 0x100
      ensures Valid() && this.port == port && this.subport == subport && this.xid == xid && ksettings == ks
      ensures this.nPrivFlags == nPrivFlags && privFlags == 0
      ensures this.nStats == nStats && fresh(stats)
      ensures subport <= 0 ==> stats.Length == nStats && forall i :: 0 <= i < nStats ==> stats[i] == 0
      ensures subport > 0 ==> stats.Length == 0
    {
      this.port, this.subport, this.xid, ksettings := port, subport, xid, ks;
      this.nPrivFlags, privFlags, this.nStats := nPrivFlags, 0, nStats;
      stats := new int[StatsLength(subport, nStats)](_ => 0);
    }

    /** xeth_port_get_priv_flags: the flags of an unsplit port or first subport, else none. */
    function PrivFlags(): (f: nat)
      reads this
      ensures subport > 0 ==> f == 0
      ensures subport <= 0 ==> f == privFlags
    {
      if subport <= 0 then privFlags else 0
    }

    /**
     * xeth_port_set_priv_flags: refused on a later subport or for a bit
     * beyond the port's flags; else stored, read back by PrivFlags, and
     * sent (the send's own result is dropped).
     */
    method SetPrivFlags(flags: nat, tx: Sbtx, allocOk: bool) returns (err: int)
      requires Valid() && tx.Valid() && flags < 0x1_0000_0000
      modifies this, tx
      ensures Valid() && tx.Valid() && ksettings == old(ksettings) && tx.connected == old(tx.connected)
      ensures subport > 0 || flags >= ShlOne32(nPrivFlags) ==>
        err == -EINVAL && privFlags == old(privFlags) && tx.queue == old(tx.queue)
      ensures subport <= 0 && flags < ShlOne32(nPrivFlags) ==> (err == 0 && privFlags == flags && PrivFlags() == flags &&
        tx.queue == old(tx.queue) +
          (if allocOk && tx.connected then [Entry(MsgSet(tx.version, EthtoolFlags), FlagsBody(xid, flags))] else []))
    {
      if subport > 0 {
        return -EINVAL;
      }
      if flags >= ShlOne32(nPrivFlags) {
        return -EINVAL;
      }
      privFlags := flags;
      // xeth_sbtx_et_flags, taken to queue what xeth_sbtx_ethtool_flags queues
      var _ := tx.SendFlags(xid, flags, allocOk);
      err := 0;
    }

    /**
     * xeth_port_ethtool_stat, corrected: the daemon's count for statistic
     * index on an unsplit port or first subport; an index past the
     * platform's statistics, or any index on a later subport (which has no
     * statistics), is counted as an invalid sideband message instead.
     */
    method EthtoolStat(index: nat, count: int, mux: Mux)
      requires Valid() && mux.Valid() && stats != mux.counter
      modifies stats, mux.counter
      ensures subport <= 0 && index < nStats ==>
        (stats[..] == old(stats[..])[index := count] && mux.counter[..] == old(mux.counter[..]))
      ensures subport > 0 || index >= nStats ==> (stats[..] == old(stats[..]) &&
        mux.counter[..] == old(mux.counter[..])[SbrxInvalid := old(mux.counter[SbrxInvalid]) + 1])
    {
      if index < stats.Length {
        stats[index] := count;
      } else {
        mux.CounterInc(SbrxInvalid);
      }
    }

    /** xeth_port_reset_ethtool_stats: every statistic zero, on an unsplit port or first subport. */
    method ResetEthtoolStats()
      modifies stats
      ensures subport <= 0 ==> forall i :: 0 <= i < stats.Length ==> stats[i] == 0
      ensures subport > 0 ==> stats[..] == old(stats[..])
    {
      if subport <= 0 {
        var i := 0;
        while i < stats.Length
          invariant 0 <= i <= stats.Length
          invariant forall j :: 0 <= j < i ==> stats[j] == 0
        {
          stats[i] := 0;
          i := i + 1;
        }
      }
    }

    /**
     * xeth_port_set_link_ksettings: the settings SetLink leaves,
     * its error, or on success what sending them returns, with the
     * settings and link-mode messages queued.
     */
    method SetLinkKsettings(req: KSettings, tx: Sbtx, nbits: nat, allocOk: bool, allocModesOk: bool) returns (err: int)
      requires Valid() && tx.Valid()
      modifies this, tx
      ensures Valid() && tx.Valid() && privFlags == old(privFlags) && tx.connected == old(tx.connected)
      ensures ksettings == SetLink(old(ksettings), req).ks
      ensures SetLink(old(ksettings), req).err != 0 ==>
        err == SetLink(old(ksettings), req).err && tx.queue == old(tx.queue)
      ensures SetLink(old(ksettings), req).err == 0 ==> Sent(err, tx, old(tx.queue), allocOk, allocModesOk, nbits)
    {
      if req.base.port != ksettings.base.port {
        err := ValidatePort(ksettings, req.base.port);
        if err != 0 {
          return;
        }
        ksettings := ksettings.(base := ksettings.base.(port := req.base.port));
      }
      if req.base.autoneg == AutonegDisable {
        err := ValidateSpeed(req.base.speed);
        if err != 0 {
          return;
        }
        err := ValidateDuplex(req.base.duplex);
        if err != 0 {
          return;
        }
        ksettings := ksettings.(base := ksettings.base.(autoneg := req.base.autoneg, speed := req.base.speed,
                                                         duplex := req.base.duplex));
      } else {
        if req.advertising - ksettings.supported != {} {
          return -EINVAL;
        }
        err := ValidateDuplex(req.base.duplex);
        if err != 0 {
          return;
        }
        ksettings := ksettings.(advertising := req.advertising,
                                base := ksettings.base.(autoneg := AutonegEnable, speed := 0, duplex := req.base.duplex));
      }
      err := tx.SendSettings(xid, ksettings, nbits, allocOk, allocModesOk);
    }

    /**
     * xeth_port_set_fecparam: the settings SetFec leaves, its error, or
     * on success what sending them returns, with the messages queued.
     */
    method SetFecparam(fec: bv32, tx: Sbtx, nbits: nat, allocOk: bool, allocModesOk: bool) returns (err: int)
      requires Valid() && tx.Valid()
      modifies this, tx
      ensures Valid() && tx.Valid() && privFlags == old(privFlags) && tx.connected == old(tx.connected)
      ensures SetFec(old(ksettings), fec).Err? ==>
        err == -SetFec(old(ksettings), fec).errno && ksettings == old(ksettings) && tx.queue == old(tx.queue)
      ensures SetFec(old(ksettings), fec).Ok? ==>
        ksettings == SetFec(old(ksettings), fec).value && Sent(err, tx, old(tx.queue), allocOk, allocModesOk, nbits)
    {
      var ks := ksettings;
      if fec == FecAuto {
        if ModeFecRs !in ks.supported || ModeFecBaser !in ks.supported {
          return -EOPNOTSUPP;
        }
        ks := ks.(advertising := ks.advertising - {ModeFecNone});
        ks := ks.(advertising := ks.advertising + {ModeFecRs});
        ks := ks.(advertising := ks.advertising + {ModeFecBaser});
      } else if fec == FecOff {
        if ModeFecNone !in ks.supported {
          return -EOPNOTSUPP;
        }
        ks := ks.(advertising := ks.advertising + {ModeFecNone});
        ks := ks.(advertising := ks.advertising - {ModeFecRs});
        ks := ks.(advertising := ks.advertising - {ModeFecBaser});
      } else if fec == FecRs {
        if ModeFecRs !in ks.supported {
          return -EOPNOTSUPP;
        }
        ks := ks.(advertising := ks.advertising - {ModeFecNone});
        ks := ks.(advertising := ks.advertising + {ModeFecRs});
        ks := ks.(advertising := ks.advertising - {ModeFecBaser});
      } else if fec == FecBaser {
        if ModeFecBaser !in ks.supported {
          return -EOPNOTSUPP;
        }
        ks := ks.(advertising := ks.advertising - {ModeFecNone});
        ks := ks.(advertising := ks.advertising - {ModeFecRs});
        ks := ks.(advertising := ks.advertising + {ModeFecBaser});
      } else {
        return -EINVAL;
      }
      ksettings := ks;
      err := tx.SendSettings(xid, ksettings, nbits, allocOk, allocModesOk);
    }

    /**
     * What the settings send did for the current settings.  The port calls
     * xeth_sbtx_et_settings, whose body is not part of this model; it is
     * taken to queue what xeth_sbtx_ethtool_settings queues: -ENOMEM and
     * nothing queued when the first entry cannot be allocated, else the
     * settings messages queued and -ENOMEM or 0 for the second.
     */
    ghost predicate Sent(err: int, tx: Sbtx, before: seq<Entry>, allocOk: bool, allocModesOk: bool, nbits: nat)
      reads this, tx
    {
      err == (if allocOk && allocModesOk then 0 else -ENOMEM) &&
      tx.queue == before + (if allocOk then SettingsEntries(tx.version, tx.connected, xid, ksettings, nbits, allocModesOk) else [])
    }
  }
}

=== FILE: xeth_sbtx.dfy ===
/**
 * The sideband transmit queue of drivers/net/ethernet/xeth/xeth_sbtx.c:
 * messages are built into freshly allocated entries and queued FIFO for
 * the service thread, which sends them one at a time, puts an entry the
 * socket would not take back at the head, and sleeps with a backoff
 * when the queue is empty.  The socket, the clock and the thread's stop
 * conditions are parameters; allocation failure is a parameter of each
 * message builder.
 */
module XethSbtx {
  import opened Errno
  import opened Wrappers
  import opened Ethtool
  import opened Bytes

  /** enum xeth_msg_kind, the kinds this queue builds. */
  datatype Kind = Break | ChangeUpperXid | EthtoolFlags | EthtoolSettings | LinkModesAdvertising

  /** struct xeth_msg_header */
  datatype Header = Header(z64: nat, z32: nat, z16: nat, version: nat, kind: Kind)

  /** The message bodies, one per kind. */
  datatype Body =
    | BreakBody
    | ChangeUpperBody(upper: nat, lower: nat, linking: nat)
    | FlagsBody(xid: nat, flags: nat)
    | SettingsBody(xid: nat, speed: nat, duplex: nat, port: nat, phyAddress: nat, autoneg: nat,
                   mdioSupport: nat, ethTpMdix: nat, ethTpMdixCtrl: nat)
    | LinkModesBody(xid: nat, modes: bv64)

  datatype Entry = Entry(header: Header, body: Body)

  /** xeth_sbrx_is_msg: the receiver takes a buffer as a message when its three pad words are zero. */
  predicate IsMsg(h: Header)
  {
    h.z64 == 0 && h.z32 == 0 && h.z16 == 0
  }

  /** xeth_sbtx_msg_set: a header the receiver accepts, of the given version and kind. */
  function MsgSet(version: nat, kind: Kind): (h: Header)
    ensures IsMsg(h) && h.version == version && h.kind == kind
  {
    Header(0, 0, 0, version, kind)
  }

  /** Bit b of a 64-bit word. */
  predicate Bit(w: bv64, b: bv7)
    requires b < 64
  {
    (w >> b) & 1 == 1
  }

  lemma SetBitAt(w: bv64, j: bv7, b: bv7)
    requires j < 64 && b < 64
    ensures Bit(w | (1 << j), b) <==> Bit(w, b) || b == j
  {
  }

  lemma SetBit(w: bv64, i: nat, b: bv7)
    requires i < 64 && b < 64
    ensures Bit(w | Mask(i), b) <==> Bit(w, b) || b as int == i
  {
    var j := i as bv7;
    SetBitAt(w, j, b);
    SameIndex(b, j);
    IndexRoundTrip(i);
  }

  lemma IndexRoundTrip(i: nat)
    requires i < 64
    ensures (i as bv7) as int == i
  {
  }

  lemma ZeroBits(b: bv7)
    requires b < 64
    ensures !Bit(0, b)
  {
  }

  lemma SameIndex(b: bv7, i: bv7)
    ensures b == i <==> b as int == i as int
  {
  }

  /** The speed a settings message carries: 0 under autoneg, whatever the settings hold. */
  function Settings(xid: nat, ks: KSettings): (m: Body)
    ensures m.SettingsBody? && m.xid == xid && m.autoneg == ks.base.autoneg && m.duplex == ks.base.duplex
    ensures m.speed == if ks.base.autoneg != 0 then 0 else ks.base.speed
  {
    SettingsBody(xid, if ks.base.autoneg != 0 then 0 else ks.base.speed, ks.base.duplex, ks.base.port,
                 ks.base.phyAddress, ks.base.autoneg, ks.base.mdioSupport, ks.base.ethTpMdix, ks.base.ethTpMdixCtrl)
  }

  const MinMs: nat := 10
  const MaxMs: nat := 320

  /** The service thread's sleep after an empty poll: doubled until it reaches 320 ms. */
  function Backoff(ms: nat): (r: nat)
    ensures IsBackoff(ms) ==> IsBackoff(r) && (r == MaxMs <==> ms >= MaxMs / 2)
  {
    if ms < MaxMs then ms * 2 else ms
  }

  /** The sleep after k empty polls in a row, starting from 10 ms. */
  function BackoffAfter(k: nat): (r: nat)
    ensures IsBackoff(r) && MinMs <= r <= MaxMs
  {
    if k == 0 then MinMs else Backoff(BackoffAfter(k - 1))
  }

  /** After k empty polls the sleep is 10 * 2^k ms, capped at 320 ms from the fifth on. */
  lemma {:induction false} BackoffDoubles(k: nat)
    ensures BackoffAfter(k) == if k >= 5 then MaxMs else MinMs * Pow2(k)
  {
    if k > 0 {
      BackoffDoubles(k - 1);
    }
  }

  /** The sleeps the service thread can take. */
  predicate IsBackoff(ms: nat)
  {
    ms in {10, 20, 40, 80, 160, 320}
  }

  /**
   * What xeth_sbtx_ethtool_settings queues once its first entry is
   * allocated: nothing when disconnected, else the settings message and,
   * when its entry can be allocated too, the advertising link modes.
   */
  function SettingsEntries(version: nat, connected: bool, xid: nat, ks: KSettings, nbits: nat, allocModesOk: bool): (q: seq<Entry>)
    ensures |q| == (if !connected then 0 else if allocModesOk then 2 else 1)
    ensures connected ==> q[0] == Entry(MsgSet(version, EthtoolSettings), Settings(xid, ks))
    ensures connected && allocModesOk ==>
      q[1] == Entry(MsgSet(version, LinkModesAdvertising), LinkModesBody(xid, Modes(ks.advertising, nbits)))
  {
    (if connected then [Entry(MsgSet(version, EthtoolSettings), Settings(xid, ks))] else []) +
    (if connected && allocModesOk
     then [Entry(MsgSet(version, LinkModesAdvertising), LinkModesBody(xid, Modes(ks.advertising, nbits)))] else [])
  }

  class Sbtx {
    /** xeth_sbtx.head, oldest first. */
    var queue: seq<Entry>
    /** xeth_flag(sb_connected) */
    var connected: bool
    /** The sbtx_queued counter. */
    var queued: int
    /** The sbtx_no_mem, sbtx_retries and sbtx_msgs counters. */
    var noMem: nat
    var retries: nat
    var msgs: nat
    /** The XETH_MSG_VERSION every header carries. */
    const version: nat

    /**
     * The entries the service thread's INIT_LIST_HEAD let go of: no longer
     * on the list, never freed, still counted by sbtx_queued.
     */
    ghost var leaked: nat

    /** The queued counter is the queue's length plus the entries let go of. */
    ghost predicate Valid()
      reads this
    {
      queued == |queue| + leaked
    }

    constructor (version: nat, connected: bool)
      ensures Valid() && queue == [] && leaked == 0 && this.connected == connected && this.version == version
      ensures noMem == 0 && retries == 0 && msgs == 0
    {
      this.version, this.connected := version, connected;
      queue, queued, noMem, retries, msgs := [], 0, 0, 0, 0;
      leaked := 0;
    }

    /** xeth_sbtx_pop: the head entry, removed, or none from an empty queue. */
    method Pop() returns (e: Option<Entry>)
      requires Valid()
      modifies this
      ensures Valid() && connected == old(connected) && noMem == old(noMem) && retries == old(retries) && msgs == old(msgs)
      ensures leaked == old(leaked)
      ensures old(queue) == [] ==> e.None? && queue == []
      ensures old(queue) != [] ==> e == Some(old(queue)[0]) && queue == old(queue)[1..]
    {
      if queue == [] {
        return None;
      }
      e := Some(queue[0]);
      queue := queue[1..];
      queued := queued - 1;
    }

    /** xeth_sbtx_push: back at the head, so it is the next one popped. */
    method Push(e: Entry)
      requires Valid()
      modifies this
      ensures Valid() && queue == [e] + old(queue) && leaked == old(leaked)
      ensures connected == old(connected) && noMem == old(noMem) && retries == old(retries) && msgs == old(msgs)
    {
      queue := [e] + queue;
      queued := queued + 1;
    }

    /** xeth_sbtx_queue: dropped while no controller is connected, else appended at the tail. */
    method Queue(e: Entry)
      requires Valid()
      modifies this
      ensures Valid() && queue == (if connected then old(queue) + [e] else old(queue)) && leaked == old(leaked)
      ensures connected == old(connected) && noMem == old(noMem) && retries == old(retries) && msgs == old(msgs)
    {
      if !connected {
        return;
      }
      queue := queue + [e];
      queued := queued + 1;
    }

    /**
     * xeth_sbtx_flush: every entry popped and freed.  The counter is left
     * at the entries let go of, which its debug check reports when there
     * are any.
     */
    method Flush()
      requires Valid()
      modifies this
      ensures Valid() && queue == [] && queued == leaked && leaked == old(leaked)
      ensures connected == old(connected) && noMem == old(noMem) && retries == old(retries) && msgs == old(msgs)
    {
      var e := Pop();
      while e.Some?
        invariant Valid() && (e.None? ==> queue == []) && leaked == old(leaked)
        invariant connected == old(connected) && noMem == old(noMem) && retries == old(retries) && msgs == old(msgs)
        decreases |queue|, e.Some?
      {
        e := Pop();
      }
    }

    /** Allocate and queue one message: -ENOMEM, counted, when the entry cannot be allocated. */
    method Send(kind: Kind, body: Body, allocOk: bool) returns (err: int)
      requires Valid()
      modifies this
      ensures Valid() && connected == old(connected) && retries == old(retries) && msgs == old(msgs)
      ensures leaked == old(leaked)
      ensures !allocOk ==> err == -ENOMEM && queue == old(queue) && noMem == old(noMem) + 1
      ensures allocOk ==> (err == 0 && noMem == old(noMem) &&
        queue == old(queue) + (if connected then [Entry(MsgSet(version, kind), body)] else []))
    {
      if !allocOk {
        noMem := noMem + 1;
        return -ENOMEM;
      }
      Queue(Entry(MsgSet(version, kind), body));
      err := 0;
    }

    /** xeth_sbtx_ethtool_flags */
    method SendFlags(xid: nat, flags: nat, allocOk: bool) returns (err: int)
      requires Valid()
      modifies this
      ensures Valid() && connected == old(connected)
      ensures !allocOk ==> err == -ENOMEM && queue == old(queue)
      ensures allocOk ==> (err == 0 &&
        queue == old(queue) + (if connected then [Entry(MsgSet(version, EthtoolFlags), FlagsBody(xid, flags))] else []))
    {
      err := Send(EthtoolFlags, FlagsBody(xid, flags), allocOk);
    }

    /** xeth_sbtx_change_upper: linking is sent as 1 or 0. */
    method SendChangeUpper(upper: nat, lower: nat, linking: bool, allocOk: bool) returns (err: int)
      requires Valid()
      modifies this
      ensures Valid() && connected == old(connected)
      ensures !allocOk ==> err == -ENOMEM && queue == old(queue)
      ensures allocOk ==> (err == 0 && queue == old(queue) +
        (if connected then [Entry(MsgSet(version, ChangeUpperXid), ChangeUpperBody(upper, lower, if linking then 1 else 0))] else []))
    {
      err := Send(ChangeUpperXid, ChangeUpperBody(upper, lower, if linking then 1 else 0), allocOk);
    }

    /** xeth_sbtx_break */
    method SendBreak(allocOk: bool) returns (err: int)
      requires Valid()
      modifies this
      ensures Valid() && connected == old(connected)
      ensures !allocOk ==> err == -ENOMEM && queue == old(queue)
      ensures allocOk ==> err == 0 && queue == old(queue) + (if connected then [Entry(MsgSet(version, Break), BreakBody)] else [])
    {
      err := Send(Break, BreakBody, allocOk);
    }

    /**
     * xeth_sbtx_ethtool_settings: the settings message, then the
     * advertising link modes; either allocation can fail, the first
     * before anything is queued.
     */
    method SendSettings(xid: nat, ks: KSettings, nbits: nat, allocOk: bool, allocModesOk: bool) returns (err: int)
      requires Valid()
      modifies this
      ensures Valid() && connected == old(connected)
      ensures !allocOk ==> err == -ENOMEM && queue == old(queue)
      ensures allocOk ==> (err == (if allocModesOk then 0 else -ENOMEM) &&
        queue == old(queue) + SettingsEntries(version, connected, xid, ks, nbits, allocModesOk))
    {
      err := Send(EthtoolSettings, Settings(xid, ks), allocOk);
      if err != 0 {
        return;
      }
      var modes := ModesWord(ks.advertising, nbits);
      err := Send(LinkModesAdvertising, LinkModesBody(xid, modes), allocModesOk);
    }

    /**
     * xeth_sbtx_service.  Its INIT_LIST_HEAD lets go of whatever was
     * queued before it starts.  arrive(i) is what the other threads queue
     * before the i-th poll, send(i) what the i-th call of kernel_sendmsg
     * returns, and ticks bounds the polls (the thread's stop conditions).
     * Entries leave in the order they were queued, an entry the socket
     * refuses with -EAGAIN being retried first.  The polls, the entries
     * sent, the result and the counters are those of Serviced, which takes
     * the same inputs one poll at a time; the sleeps are those the poll
     * trace calls for; the loop ends on a send error (its value) or end of
     * file (1), and the queue is flushed.
     */
    method Service(send: nat -> int, arrive: nat -> seq<Entry>, ticks: nat)
      returns (err: int, sent: seq<Entry>, polls: seq<Poll>, sleeps: seq<nat>)
      requires Valid()
      modifies this
      ensures Valid() && queue == [] && connected == old(connected)
      ensures leaked == old(leaked) + |old(queue)| && queued == leaked
      ensures |polls| <= ticks && (err == 0 ==> |polls| == ticks)
      ensures var arrived := if connected then Arrived(arrive, |polls|) else [];
        |sent| <= |arrived| && sent == arrived[..|sent|]
      ensures sleeps == Sleeps(polls)
      ensures err == 0 || err == 1 || (err < 0 && err != -EAGAIN)
      ensures var run := Serviced(send, arrive, connected, ticks);
        polls == run.polls && |sent| == run.taken && err == run.err &&
        msgs == old(msgs) + run.msgs && retries == old(retries) + Retries(polls)
    {
      leaked := leaked + |queue|;
      queue := [];
      ghost var leaked0, msgs0, retries0 := leaked, msgs, retries;
      var ms: nat := MinMs;
      var attempt: nat := 0;
      ghost var arrived: seq<Entry> := [];
      err, sent, polls, sleeps := 0, [], [], [];
      while err == 0 && |polls| < ticks
        invariant connected == old(connected) && |polls| <= ticks
        invariant Serving(send, arrive, leaked0, msgs0, retries0, ms, attempt, arrived, err, sent, polls, sleeps)
        decreases ticks - |polls|
      {
        ms, attempt, arrived, err, sent, polls, sleeps :=
          Tick(send, arrive, leaked0, msgs0, retries0, ms, attempt, arrived, sent, polls, sleeps);
      }
      assert sent == arrived[..|sent|];
      if err != 0 {
        ServicedStops(send, arrive, connected, |polls|, ticks);
      }
      Flush();
    }

    /**
     * Where the service loop stands after some polls: the queue holds what
     * arrived and was not sent, ms is the backoff the trace calls for, and
     * the trace, the sends, the result and the counters are Serviced's.
     */
    ghost predicate Serving(send: nat -> int, arrive: nat -> seq<Entry>, leaked0: nat, msgs0: nat, retries0: nat,
                            ms: nat, attempt: nat, arrived: seq<Entry>, err: int, sent: seq<Entry>, polls: seq<Poll>, sleeps: seq<nat>)
      reads this
    {
      Valid() && leaked == leaked0 &&
      arrived == (if connected then Arrived(arrive, |polls|) else []) && sent + queue == arrived &&
      ms == BackoffAfter(Streak(polls)) && sleeps == Sleeps(polls) &&
      Follows(send, arrive, connected, polls, |sent|, attempt, err, msgs - msgs0, retries - retries0)
    }

    /** One turn of the service loop: the other threads' entries arrive, then one poll. */
    method Tick(send: nat -> int, arrive: nat -> seq<Entry>, ghost leaked0: nat, ghost msgs0: nat, ghost retries0: nat,
                ms: nat, attempt: nat, ghost arrived: seq<Entry>, sent: seq<Entry>, polls: seq<Poll>, sleeps: seq<nat>)
      returns (ms': nat, attempt': nat, ghost arrived': seq<Entry>, err': int, sent': seq<Entry>, polls': seq<Poll>, sleeps': seq<nat>)
      requires Serving(send, arrive, leaked0, msgs0, retries0, ms, attempt, arrived, 0, sent, polls, sleeps)
      modifies this
      ensures connected == old(connected) && |polls'| == |polls| + 1
      ensures Serving(send, arrive, leaked0, msgs0, retries0, ms', attempt', arrived', err', sent', polls', sleeps')
    {
      var k := |polls|;
      var n := send(attempt);
      ghost var msgsRun, retriesRun := msgs - msgs0, retries - retries0;
      var p, e := PollOnce(arrive(k), n, sent, arrived);
      arrived' := arrived;
      if connected {
        assert Arrived(arrive, k + 1) == arrived + arrive(k);
        arrived' := arrived + arrive(k);
      }
      assert Avail(arrive, connected, k + 1) == |arrived'|;
      FollowsTick(send, arrive, connected, polls, |sent|, attempt, msgsRun, retriesRun, p, n);
      Polled(polls, p, ms);
      polls', sleeps' := polls + [p], sleeps + (if p == Idle then [ms] else if p == Retried then [MinMs] else []);
      ms', attempt' := if p == Idle then Backoff(ms) else MinMs, if p == Idle then attempt else attempt + 1;
      sent' := if p == Taken then sent + [e] else sent;
      err' := if p != Taken then 0 else if n > 0 then 0 else if n < 0 then n else 1;
    }

    /**
     * One poll of the service loop, after the other threads have queued
     * es: the head entry is taken off, or the poll is empty; a send of
     * the entry that returns -EAGAIN (n) puts it back and counts a retry,
     * any other result frees it, counting a message when positive.
     */
    method PollOnce(es: seq<Entry>, n: int, ghost sent: seq<Entry>, ghost arrived: seq<Entry>) returns (p: Poll, e: Entry)
      requires Valid() && sent + queue == arrived
      modifies this
      ensures Valid() && leaked == old(leaked) && connected == old(connected) && noMem == old(noMem)
      ensures var now := if connected then arrived + es else arrived;
        (p == Idle ==> sent == now && queue == []) &&
        (p == Retried ==> n == -EAGAIN && queue != [] && sent + queue == now) &&
        (p == Taken ==> n != -EAGAIN && sent + [e] + queue == now)
      ensures var now := if connected then arrived + es else arrived;
        (p == Idle <==> |sent| >= |now|) && (p == Retried <==> p != Idle && n == -EAGAIN)
      ensures retries == old(retries) + (if p == Retried then 1 else 0)
      ensures msgs == old(msgs) + (if p == Taken && n > 0 then 1 else 0)
    {
      Arrive(es, arrived, sent);
      var head := Pop();
      if head.None? {
        return Idle, Entry(MsgSet(version, Break), BreakBody);
      }
      e := head.value;
      if n == -EAGAIN {
        retries := retries + 1;
        Push(e);
        p := Retried;
      } else {
        p := Taken;
        if n > 0 {
          msgs := msgs + 1;
        }
      }
    }

    /** Other threads' xeth_sbtx_queue calls, between two polls. */
    method Arrive(es: seq<Entry>, ghost arrived: seq<Entry>, ghost sent: seq<Entry>)
      requires Valid() && sent + queue == arrived
      modifies this
      ensures Valid() && leaked == old(leaked) && connected == old(connected)
      ensures noMem == old(noMem) && retries == old(retries) && msgs == old(msgs)
      ensures sent + queue == if connected then arrived + es else arrived
    {
      if connected {
        queue := queue + es;
        queued := queued + |es|;
      }
    }
  }

  /** What a poll of the service loop found: an empty queue, a refused send, or an entry taken off. */
  datatype Poll = Idle | Retried | Taken

  /** Everything the other threads queue before the n-th poll, in order. */
  function Arrived(arrive: nat -> seq<Entry>, n: nat): seq<Entry>
  {
    if n == 0 then [] else Arrived(arrive, n - 1) + arrive(n - 1)
  }

  /** The number of polls of the trace whose send was refused with -EAGAIN. */
  function Retries(polls: seq<Poll>): nat
  {
    if polls == [] then 0 else Retries(polls[..|polls| - 1]) + (if polls[|polls| - 1] == Retried then 1 else 0)
  }

  /** How many entries the other threads have queued before the n-th poll, none while disconnected. */
  function Avail(arrive: nat -> seq<Entry>, connected: bool, n: nat): nat
  {
    if connected then |Arrived(arrive, n)| else 0
  }

  /**
   * Where the service thread stands after some polls: the trace, the
   * entries taken off the queue, the sends made, the result so far and the
   * messages counted.
   */
  datatype ServiceRun = ServiceRun(polls: seq<Poll>, taken: nat, attempts: nat, err: int, msgs: nat)

  /**
   * One poll, with avail entries queued so far and n the result of the
   * next send: empty when every queued entry has been taken, else the
   * head is sent; -EAGAIN puts it back, anything else takes it, a
   * negative result being the error and 0 end of file (1).
   */
  function Step(r: ServiceRun, avail: nat, n: int): ServiceRun
  {
    if r.taken >= avail then r.(polls := r.polls + [Idle])
    else if n == -EAGAIN then r.(polls := r.polls + [Retried], attempts := r.attempts + 1)
    else r.(polls := r.polls + [Taken], taken := r.taken + 1, attempts := r.attempts + 1,
            err := (if n > 0 then 0 else if n < 0 then n else 1), msgs := r.msgs + (if n > 0 then 1 else 0))
  }

  /**
   * The service loop after n ticks, one poll per tick until a send ends
   * it: the reference the loop is proved against.
   */
  function Serviced(send: nat -> int, arrive: nat -> seq<Entry>, connected: bool, n: nat): (r: ServiceRun)
    ensures |r.polls| <= n && (r.err == 0 ==> |r.polls| == n)
    ensures r.taken <= Avail(arrive, connected, n) && r.taken <= r.attempts
    ensures r.err == 0 || r.err == 1 || (r.err < 0 && r.err != -EAGAIN)
  {
    if n == 0 then ServiceRun([], 0, 0, 0, 0)
    else
      var r := Serviced(send, arrive, connected, n - 1);
      if r.err != 0 then r else Step(r, Avail(arrive, connected, n), send(r.attempts))
  }

  /** The tick after a run that has not stopped, given which poll it makes. */
  lemma ServicedTick(send: nat -> int, arrive: nat -> seq<Entry>, connected: bool, k: nat, p: Poll, n: int)
    requires Serviced(send, arrive, connected, k).err == 0
    requires var r := Serviced(send, arrive, connected, k);
      send(r.attempts) == n &&
      (p == Idle <==> r.taken >= Avail(arrive, connected, k + 1)) && (p == Retried <==> p != Idle && n == -EAGAIN)
    ensures var r, r' := Serviced(send, arrive, connected, k), Serviced(send, arrive, connected, k + 1);
      r'.polls == r.polls + [p] && r'.taken == r.taken + (if p == Taken then 1 else 0) &&
      r'.attempts == r.attempts + (if p == Idle then 0 else 1) &&
      r'.err == (if p == Taken then (if n > 0 then 0 else if n < 0 then n else 1) else 0) &&
      r'.msgs == r.msgs + (if p == Taken && n > 0 then 1 else 0)
  {
  }

  /** A trace with its counts is where Serviced stands after as many ticks as polls. */
  ghost predicate Follows(send: nat -> int, arrive: nat -> seq<Entry>, connected: bool, polls: seq<Poll>,
                          taken: nat, attempts: nat, err: int, msgs: int, retries: int)
  {
    var run := Serviced(send, arrive, connected, |polls|);
    polls == run.polls && taken == run.taken && attempts == run.attempts && err == run.err &&
    msgs == run.msgs && retries == Retries(polls)
  }

  /** One more poll of a run still going, given which poll it is. */
  lemma FollowsTick(send: nat -> int, arrive: nat -> seq<Entry>, connected: bool, polls: seq<Poll>,
                    taken: nat, attempts: nat, msgs: int, retries: int, p: Poll, n: int)
    requires Follows(send, arrive, connected, polls, taken, attempts, 0, msgs, retries)
    requires send(attempts) == n
    requires (p == Idle <==> taken >= Avail(arrive, connected, |polls| + 1)) && (p == Retried <==> p != Idle && n == -EAGAIN)
    ensures Follows(send, arrive, connected, polls + [p], taken + (if p == Taken then 1 else 0),
      attempts + (if p == Idle then 0 else 1), (if p != Taken then 0 else if n > 0 then 0 else if n < 0 then n else 1),
      msgs + (if p == Taken && n > 0 then 1 else 0), retries + (if p == Retried then 1 else 0))
  {
    ServicedTick(send, arrive, connected, |polls|, p, n);
    RetriesSnoc(polls, p);
    var run := Serviced(send, arrive, connected, |polls| + 1);
    assert run.polls == polls + [p];
  }

  lemma RetriesSnoc(polls: seq<Poll>, p: Poll)
    ensures Retries(polls + [p]) == Retries(polls) + (if p == Retried then 1 else 0)
  {
    assert (polls + [p])[..|polls|] == polls;
  }

  /** Once a send has ended the loop, further ticks change nothing. */
  lemma {:induction false} ServicedStops(send: nat -> int, arrive: nat -> seq<Entry>, connected: bool, n: nat, m: nat)
    requires n <= m && Serviced(send, arrive, connected, n).err != 0
    ensures Serviced(send, arrive, connected, m) == Serviced(send, arrive, connected, n)
    decreases m
  {
    if n < m {
      ServicedStops(send, arrive, connected, n, m - 1);
    }
  }

  /**
   * The i-th poll of a run was made by the (i + 1)-th tick, from a run
   * still going after i ticks.
   */
  lemma {:induction false} ServicedPrefix(send: nat -> int, arrive: nat -> seq<Entry>, connected: bool, n: nat, i: nat)
    requires i < |Serviced(send, arrive, connected, n).polls|
    ensures var r := Serviced(send, arrive, connected, i);
      r.err == 0 && |r.polls| == i &&
      Serviced(send, arrive, connected, i + 1).polls == r.polls + [Serviced(send, arrive, connected, n).polls[i]]
    decreases n
  {
    var p := Serviced(send, arrive, connected, n - 1);
    if p.err == 0 {
      StepPoll(p, Avail(arrive, connected, n), send(p.attempts));
    }
    if p.err != 0 || i < n - 1 {
      ServicedPrefix(send, arrive, connected, n - 1, i);
    }
  }

  /** The poll a Step adds. */
  lemma StepPoll(r: ServiceRun, avail: nat, n: int)
    ensures Step(r, avail, n).polls == r.polls + [if r.taken >= avail then Idle else if n == -EAGAIN then Retried else Taken]
  {
  }

  /**
   * What the i-th poll of a run means: it is empty exactly when every
   * entry queued by then had been taken, and it is refused exactly when
   * it is not empty and its send returned -EAGAIN.
   */
  lemma ServicedPolls(send: nat -> int, arrive: nat -> seq<Entry>, connected: bool, n: nat, i: nat)
    requires i < |Serviced(send, arrive, connected, n).polls|
    ensures var r, q := Serviced(send, arrive, connected, i), Serviced(send, arrive, connected, n).polls[i];
      r.err == 0 && |r.polls| == i &&
      (q == Idle <==> r.taken >= Avail(arrive, connected, i + 1)) &&
      (q == Retried <==> q != Idle && send(r.attempts) == -EAGAIN)
  {
    ServicedPrefix(send, arrive, connected, n, i);
    var r := Serviced(send, arrive, connected, i);
    StepPoll(r, Avail(arrive, connected, i + 1), send(r.attempts));
  }

  /** The number of empty polls that end the trace. */
  function Streak(polls: seq<Poll>): nat
  {
    if polls == [] || polls[|polls| - 1] != Idle then 0 else Streak(polls[..|polls| - 1]) + 1
  }

  /**
   * The sleeps a poll trace calls for: an empty poll after k empty polls
   * in a row sleeps BackoffAfter(k), a refused send sleeps 10 ms, a taken
   * entry does not sleep.
   */
  function Sleeps(polls: seq<Poll>): seq<nat>
  {
    if polls == [] then []
    else
      var before := polls[..|polls| - 1];
      Sleeps(before) +
        match polls[|polls| - 1]
        case Idle => [BackoffAfter(Streak(before))]
        case Retried => [MinMs]
        case Taken => []
  }

  /** The service loop's doubling of ms after an empty poll follows the trace. */
  lemma Idled(polls: seq<Poll>, ms: nat)
    requires ms == BackoffAfter(Streak(polls))
    ensures Backoff(ms) == BackoffAfter(Streak(polls + [Idle]))
    ensures Sleeps(polls + [Idle]) == Sleeps(polls) + [ms]
    ensures Retries(polls + [Idle]) == Retries(polls)
  {
    assert (polls + [Idle])[..|polls|] == polls;
  }

  /** After a send, taken or refused, the backoff starts again from 10 ms. */
  lemma Sent(polls: seq<Poll>, p: Poll)
    requires p != Idle
    ensures Streak(polls + [p]) == 0
    ensures Sleeps(polls + [p]) == Sleeps(polls) + (if p == Retried then [MinMs] else [])
    ensures Retries(polls + [p]) == Retries(polls) + (if p == Retried then 1 else 0)
  {
    assert (polls + [p])[..|polls|] == polls;
  }

  /** One more poll of either kind: its sleep, the next backoff and the retry count. */
  lemma Polled(polls: seq<Poll>, p: Poll, ms: nat)
    requires ms == BackoffAfter(Streak(polls))
    ensures Sleeps(polls + [p]) == Sleeps(polls) + (if p == Idle then [ms] else if p == Retried then [MinMs] else [])
    ensures BackoffAfter(Streak(polls + [p])) == if p == Idle then Backoff(ms) else MinMs
    ensures Retries(polls + [p]) == Retries(polls) + (if p == Retried then 1 else 0)
  {
    if p == Idle {
      Idled(polls, ms);
    } else {
      Sent(polls, p);
    }
  }

  /** Every sleep of every trace is one of 10, 20, 40, 80, 160 and 320 ms. */
  lemma {:induction false} SleepsAreBackoff(polls: seq<Poll>)
    ensures forall i :: 0 <= i < |Sleeps(polls)| ==> IsBackoff(Sleeps(polls)[i])
  {
    if polls != [] {
      var before := polls[..|polls| - 1];
      SleepsAreBackoff(before);
    }
  }

  /** The modes word of a link-mode bitmap: bit b set iff mode b is, for b below min(nbits, 64). */
  function Modes(addr: set<nat>, nbits: nat): (w: bv64)
    ensures forall b: bv7 :: b < 64 ==> (Bit(w, b) <==> (b as int) < nbits && (b as int) in addr)
  {
    ModesUpTo(addr, if nbits < 64 then nbits else 64)
  }

  function ModesUpTo(addr: set<nat>, bits: nat): (w: bv64)
    requires bits <= 64
    ensures forall b: bv7 :: b < 64 ==> (Bit(w, b) <==> (b as int) < bits && (b as int) in addr)
  {
    if bits == 0 then
      assert forall b: bv7 | b < 64 :: !Bit(0, b) by {
        forall b: bv7 | b < 64 ensures !Bit(0, b) { ZeroBits(b); }
      }
      0
    else
      var w := ModesUpTo(addr, bits - 1);
      if bits - 1 in addr then
        AddBit(w, w | Mask(bits - 1), addr, bits);
        w | Mask(bits - 1)
      else w
  }

  /** 1ULL << i */
  function Mask(i: nat): bv64
    requires i < 64
  {
    1 << (i as bv7)
  }

  /** Setting bit bits - 1 extends the modes word from bits - 1 to bits. */
  lemma AddBit(w: bv64, v: bv64, addr: set<nat>, bits: nat)
    requires 1 <= bits <= 64 && bits - 1 in addr && v == w | Mask(bits - 1)
    requires forall b: bv7 :: b < 64 ==> (Bit(w, b) <==> (b as int) < bits - 1 && (b as int) in addr)
    ensures forall b: bv7 :: b < 64 ==> (Bit(v, b) <==> (b as int) < bits && (b as int) in addr)
  {
    forall b: bv7 | b < 64 ensures Bit(v, b) <==> (b as int) < bits && (b as int) in addr {
      AddBitAt(w, v, addr, bits, b);
    }
  }

  lemma AddBitAt(w: bv64, v: bv64, addr: set<nat>, bits: nat, b: bv7)
    requires 1 <= bits <= 64 && bits - 1 in addr && v == w | Mask(bits - 1) && b < 64
    requires Bit(w, b) <==> (b as int) < bits - 1 && (b as int) in addr
    ensures Bit(v, b) <==> (b as int) < bits && (b as int) in addr
  {
    SetBit(w, bits - 1, b);
    AddIndex(Bit(v, b), Bit(w, b), b as int, bits, addr);
  }

  /** The set-membership step of AddBitAt, apart from the bit arithmetic. */
  lemma AddIndex(isSet: bool, wasSet: bool, i: nat, bits: nat, addr: set<nat>)
    requires bits >= 1 && bits - 1 in addr
    requires isSet <==> wasSet || i == bits - 1
    requires wasSet <==> i < bits - 1 && i in addr
    ensures isSet <==> i < bits && i in addr
  {
  }

  /** The bit loop of xeth_sbtx_ethtool_link_modes, from a zeroed word. */
  method ModesWord(addr: set<nat>, nbits: nat) returns (modes: bv64)
    ensures modes == Modes(addr, nbits)
  {
    var bits := if nbits < 64 then nbits else 64;
    modes := 0;
    var bit := 0;
    while bit < bits
      invariant 0 <= bit <= bits && modes == ModesUpTo(addr, bit)
    {
      if bit in addr {
        modes := modes | Mask(bit);
      }
      bit := bit + 1;
    }
  }
}

=== FILE: xeth_upper.dfy ===
/**
 * The mux's upper devices, drivers/net/ethernet/xeth/xeth_upper.c: the
 * search for a free xid, the checks on a new link's netlink attributes,
 * the VLAN tags that carry an upper's xid to the switch, and the
 * ethtool flags, statistics and link settings of an upper.  The set of
 * xids in use (the mux's hash lists) is a parameter.
 */
module XethUpper {
  import opened Errno
  import opened Wrappers
  import opened Bytes
  import opened Ethtool
  import opened XethSbtx
  import opened XethMux
  import opened XethKstrs

  const EthtoolFlagNames: nat := 32
  const EthtoolStats: nat := 512
  /** The u64 counters of struct rtnl_link_stats64. */
  const LinkStats: nat := 24
  const VlanNVid: nat := 4096

  /** The end of xeth_upper_search's range, as a u32 sum. */
  function SearchLimit(base: nat, range: nat): nat
  {
    U32(base + range)
  }

  /** xeth_upper_search: the first xid from base below base + range that no upper has, else -ENOSPC. */
  method Search(base: nat, range: nat, used: set<nat>) returns (r: int)
    requires base < U32Limit
    ensures r == -ENOSPC || base <= r < SearchLimit(base, range)
    ensures r >= 0 ==> r !in used && forall x :: base <= x < r ==> x in used
    ensures r == -ENOSPC <==> forall x :: base <= x < SearchLimit(base, range) ==> x in used
  {
    var xid := base;
    var limit := U32(base + range);
    while xid < limit
      invariant base <= xid && forall x :: base <= x < xid ==> x in used
      invariant xid <= limit || xid == base
      decreases if xid <= limit then limit - xid else 0
    {
      if xid !in used {
        return xid;
      }
      xid := xid + 1;
    }
    r := -ENOSPC;
  }

  /** The device kinds an upper can be created as. */
  datatype DevKind = Unspec | PortKind | VlanKind | BridgeKind | LagKind | OtherKind(code: nat)

  /** The xeth-specific netlink attributes of a new link, each optional. */
  datatype XethAttrs = XethAttrs(xid: Option<nat>, vid: Option<nat>, kind: Option<DevKind>)

  /** IFLA_ADDRESS and the xeth attributes, each optional. */
  datatype LinkAttrs = LinkAttrs(address: Option<seq<Byte>>, data: Option<XethAttrs>)

  /** is_valid_ether_addr: not multicast and not all zero. */
  predicate ValidEtherAddr(a: seq<Byte>)
    requires |a| == 6
  {
    a[0] % 2 == 0 && a != [0, 0, 0, 0, 0, 0]
  }

  predicate AddressOk(a: Option<seq<Byte>>)
  {
    a.Some? ==> |a.value| == 6 && ValidEtherAddr(a.value)
  }

  /** The xid attribute, as a u16, is non-zero, fits the mux bits and is free. */
  predicate XidOk(xid: Option<nat>, muxbits: nat, used: set<nat>)
  {
    xid.Some? ==> 0 < U16(xid.value) < Pow2(muxbits) && U16(xid.value) !in used
  }

  predicate VidOk(vid: Option<nat>)
  {
    vid.Some? ==> 0 < U16(vid.value) < VlanNVid
  }

  predicate KindOk(kind: Option<DevKind>)
  {
    kind.Some? ==> kind.value in {PortKind, VlanKind, BridgeKind, LagKind}
  }

  /**
   * xeth_upper_lnko_validate: the first failing check in the order
   * address length (-EINVAL), address (-EADDRNOTAVAIL), xid range
   * (-ERANGE), xid in use (-EBUSY), vid range (-ERANGE), kind (-ERANGE).
   */
  function LnkoValidate(attrs: LinkAttrs, muxbits: nat, used: set<nat>): (r: int)
    ensures r in {0, -EINVAL, -EADDRNOTAVAIL, -ERANGE, -EBUSY}
    ensures r == 0 <==> (AddressOk(attrs.address) &&
      (attrs.data.Some? ==> XidOk(attrs.data.value.xid, muxbits, used) && VidOk(attrs.data.value.vid) &&
                            KindOk(attrs.data.value.kind)))
    ensures attrs.address.Some? && |attrs.address.value| != 6 ==> r == -EINVAL
    ensures r == -EADDRNOTAVAIL <==> attrs.address.Some? && |attrs.address.value| == 6 && !ValidEtherAddr(attrs.address.value)
    ensures r == -EBUSY <==> (AddressOk(attrs.address) && attrs.data.Some? && attrs.data.value.xid.Some? &&
      0 < U16(attrs.data.value.xid.value) < Pow2(muxbits) && U16(attrs.data.value.xid.value) in used)
  {
    match attrs.address
    case Some(a) =>
      if |a| != 6 then -EINVAL
      else if !ValidEtherAddr(a) then -EADDRNOTAVAIL
      else ValidateData(attrs.data, muxbits, used)
    case None => ValidateData(attrs.data, muxbits, used)
  }

  /** The part of xeth_upper_lnko_validate after the address. */
  function ValidateData(data: Option<XethAttrs>, muxbits: nat, used: set<nat>): (r: int)
    ensures r in {0, -ERANGE, -EBUSY}
    ensures r == 0 <==> (data.Some? ==> XidOk(data.value.xid, muxbits, used) && VidOk(data.value.vid) && KindOk(data.value.kind))
    ensures r == -EBUSY <==> (data.Some? && data.value.xid.Some? &&
      0 < U16(data.value.xid.value) < Pow2(muxbits) && U16(data.value.xid.value) in used)
  {
    match data
    case None => 0
    case Some(d) =>
      if d.xid.Some? && (U16(d.xid.value) == 0 || U16(d.xid.value) >= Pow2(muxbits)) then -ERANGE
      else if d.xid.Some? && U16(d.xid.value) in used then -EBUSY
      else if d.vid.Some? && (U16(d.vid.value) == 0 || U16(d.vid.value) >= VlanNVid) then -ERANGE
      else if d.kind.Some? && d.kind.value !in {PortKind, VlanKind, BridgeKind, LagKind} then -ERANGE
      else 0
  }

  /** The 802.1Q and 802.1ad tag protocol identifiers. */
  const TpidQ: nat := 0x8100
  const TpidAd: nat := 0x88a8

  /** A VLAN tag: its TPID and its tag control information. */
  datatype Tag = Tag(tpid: nat, tci: nat)

  /** (u16)(skb->priority) << VLAN_PRIO_SHIFT, kept to 16 bits. */
  function Pcp(priority: nat): (r: nat)
    ensures r == (priority % 8) * 0x2000
  {
    var b := U16(priority);
    DivModUnique(b, 8, b / 8, b % 8);
    DivModUnique(priority, 8, 0x2000 * (priority / 0x1_0000) + b / 8, b % 8);
    DivModUnique(b * 0x2000, 0x1_0000, b / 8, (b % 8) * 0x2000);
    U16(b * 0x2000)
  }

  /** (u16)x & 0xfff */
  function Vid(x: nat): (r: nat)
    ensures r == x % 0x1000
  {
    LowBits(x);
    U16(x) % 0x1000
  }

  /** The low twelve bits of x are those of its low sixteen. */
  lemma LowBits(x: nat)
    ensures U16(x) % 0x1000 == x % 0x1000
  {
    var q, r := x / 0x1_0000, x % 0x1_0000;
    var q', r' := r / 0x1000, r % 0x1000;
    assert x == (q * 16 + q') * 0x1000 + r';
    DivModUnique(x, 0x1000, q * 16 + q', r');
  }

  /** pcp | vid: the bits of the two do not overlap, so the or is a sum. */
  function Tci(pcp: nat, vid: nat): nat
  {
    pcp + vid
  }

  /** The fields of a TCI, as IEEE 802.1Q clause 9.6 lays them out. */
  function PcpOf(tci: nat): nat { (tci / 0x2000) % 8 }
  function DeiOf(tci: nat): nat { (tci / 0x1000) % 2 }
  function VidOf(tci: nat): nat { tci % 0x1000 }

  /**
   * The tags xeth_upper_encap_vlan pushes, innermost first: for a VLAN
   * upper an 802.1Q tag with the high twelve bits of its xid under an
   * 802.1ad tag with the low twelve; for any other an 802.1Q tag with
   * the low twelve.
   */
  function EncapTags(kind: DevKind, xid: nat, priority: nat): (tags: seq<Tag>)
    ensures |tags| == if kind == VlanKind then 2 else 1
    ensures forall t :: t in tags ==> t.tci < 0x1_0000 && PcpOf(t.tci) == priority % 8 && DeiOf(t.tci) == 0
    ensures kind == VlanKind ==> (tags[0].tpid == TpidQ && VidOf(tags[0].tci) == (xid / VlanNVid) % 0x1000 &&
                                  tags[1].tpid == TpidAd && VidOf(tags[1].tci) == xid % 0x1000)
    ensures kind != VlanKind ==> tags[0].tpid == TpidQ && VidOf(tags[0].tci) == xid % 0x1000
  {
    var pcp := Pcp(priority);
    if kind == VlanKind then
      var inner := Tag(TpidQ, Tci(pcp, Vid(xid / VlanNVid)));
      var outer := Tag(TpidAd, Tci(pcp, Vid(xid)));
      TciFields(priority, Vid(xid / VlanNVid));
      TciFields(priority, Vid(xid));
      [inner, outer]
    else
      TciFields(priority, Vid(xid));
      [Tag(TpidQ, Tci(pcp, Vid(xid)))]
  }

  lemma TciFields(priority: nat, vid: nat)
    requires vid < 0x1000
    ensures var tci := Tci(Pcp(priority), vid);
      tci < 0x1_0000 && PcpOf(tci) == priority % 8 && DeiOf(tci) == 0 && VidOf(tci) == vid
  {
  }

  /** The two tags of a VLAN upper give back any xid of up to 24 bits. */
  lemma VlanTagsCarryXid(xid: nat, priority: nat)
    requires xid < 0x100_0000
    ensures var tags := EncapTags(VlanKind, xid, priority);
      VidOf(tags[0].tci) * VlanNVid + VidOf(tags[1].tci) == xid
  {
  }

  /**
   * The private-flags check of xeth_upper_eto_set_priv_flags as
   * written, flags < 1 << n, with the shift of a 32-bit int.
   */
  function FlagsAcceptedAsWritten(flags: nat, n: nat): (ok: bool)
    ensures ok <==> flags < Pow2(n % 32)
    ensures n < 32 ==> (ok <==> FlagsAccepted(flags, n))
  {
    flags < ShlOne32(n)
  }

  /** The evidently intended check: every set bit is one of the n named flags. */
  function FlagsAccepted(flags: nat, n: nat): (ok: bool)
    ensures ok <==> flags / Pow2(n) == 0
  {
    if flags < Pow2(n) then
      assert flags / Pow2(n) == 0 by { DivModUnique(flags, Pow2(n), 0, flags); }
      true
    else
      assert flags / Pow2(n) >= 1 by { DivModUnique(flags, Pow2(n), flags / Pow2(n), flags % Pow2(n)); }
      false
  }

  /** Naming more flags never refuses a flag word accepted before. */
  lemma {:induction false} FlagsAcceptedMonotone(flags: nat, n: nat, m: nat)
    requires n <= m && FlagsAccepted(flags, n)
    ensures FlagsAccepted(flags, m)
  {
    if n < m {
      FlagsAcceptedMonotone(flags, n, m - 1);
    }
  }

  /**
   * As written, naming all 32 flags refuses every flag word but 0:
   * flag 0 alone is accepted with 31 names and refused with 32.
   */
  lemma FlagsRefusedWithAllNames()
    ensures FlagsAcceptedAsWritten(1, 31) && !FlagsAcceptedAsWritten(1, 32)
  {
    assert FlagsAccepted(1, 1);
    FlagsAcceptedMonotone(1, 1, 31);
  }

  class Upper {
    const xid: nat
    /** ethtool.settings */
    var settings: KSettings
    /** ethtool.stat.counters */
    const counters: array<int>
    /** link.stats, as its array of u64 */
    const linkStats: array<int>
    /** ethtool.flag.bits */
    var flagBits: nat
    /** ethtool.flag.names and ethtool.stat.names */
    const flagNames: Kstrs
    const statNames: Kstrs

    ghost predicate Valid()
      reads this, flagNames, statNames
    {
      counters.Length == EthtoolStats && linkStats.Length == LinkStats && counters != linkStats &&
      flagNames.Valid() && statNames.Valid()
    }

    constructor (xid: nat, settings: KSettings, flagNames: Kstrs, statNames: Kstrs)
      requires flagNames.Valid() && statNames.Valid()
      ensures Valid() && this.xid == xid && this.settings == settings && flagBits == 0
      ensures this.flagNames == flagNames && this.statNames == statNames && fresh(counters) && fresh(linkStats)
      ensures forall i :: 0 <= i < EthtoolStats ==> counters[i] == 0
      ensures forall i :: 0 <= i < LinkStats ==> linkStats[i] == 0
    {
      this.xid, this.settings, flagBits := xid, settings, 0;
      this.flagNames, this.statNames := flagNames, statNames;
      counters := new int[EthtoolStats](_ => 0);
      linkStats := new int[LinkStats](_ => 0);
    }

    /**
     * xeth_upper_eto_set_priv_flags, with the intended check: a word
     * with a bit beyond the named flags is refused and changes nothing;
     * else it is stored and sent.
     */
    method SetPrivFlags(flags: nat, tx: Sbtx, allocOk: bool) returns (err: int)
      requires Valid() && tx.Valid()
      modifies this, tx
      ensures Valid() && tx.Valid() && settings == old(settings) && tx.connected == old(tx.connected)
      ensures !FlagsAccepted(flags, Prefix(flagNames.str[..], flagNames.n)) ==>
        err == -EINVAL && flagBits == old(flagBits) && tx.queue == old(tx.queue)
      ensures FlagsAccepted(flags, Prefix(flagNames.str[..], flagNames.n)) ==> (err == 0 && flagBits == flags &&
        tx.queue == old(tx.queue) +
          (if allocOk && tx.connected then [Entry(MsgSet(tx.version, EthtoolFlags), FlagsBody(xid, flags))] else []))
    {
      var n := flagNames.Count();
      if !FlagsAccepted(flags, n) {
        return -EINVAL;
      }
      flagBits := flags;
      var _ := tx.SendFlags(xid, flags, allocOk);
      err := 0;
    }

    /** xeth_upper_eto_get_sset_count: the named statistics, the named flags, or -EOPNOTSUPP. */
    method GetSsetCount(sset: int) returns (n: int)
      requires Valid()
      ensures sset == SsTest ==> n == 0
      ensures sset == SsStats ==> n == Prefix(statNames.str[..], statNames.n)
      ensures sset == SsPrivFlags ==> n == Prefix(flagNames.str[..], flagNames.n)
      ensures sset !in {SsTest, SsStats, SsPrivFlags} ==> n == -EOPNOTSUPP
    {
      if sset == SsTest {
        n := 0;
      } else if sset == SsStats {
        n := statNames.Count();
      } else if sset == SsPrivFlags {
        n := flagNames.Count();
      } else {
        n := -EOPNOTSUPP;
      }
    }

    /** xeth_upper_ethtool_stat: an index past the 512 counters is counted as invalid instead. */
    method EthtoolStat(index: nat, count: int, mux: Mux)
      requires Valid() && mux.Valid() && counters != mux.counter
      modifies counters, mux.counter
      ensures index < EthtoolStats ==> (counters[..] == old(counters[..])[index := count] &&
        mux.counter[..] == old(mux.counter[..]))
      ensures index >= EthtoolStats ==> (counters[..] == old(counters[..]) &&
        mux.counter[..] == old(mux.counter[..])[SbrxInvalid := old(mux.counter[SbrxInvalid]) + 1])
    {
      if index >= EthtoolStats {
        mux.CounterInc(SbrxInvalid);
        return;
      }
      counters[index] := count;
    }

    /** xeth_upper_link_stat: an index past the 24 link counters is counted as invalid instead. */
    method LinkStat(index: nat, count: int, mux: Mux)
      requires Valid() && mux.Valid() && linkStats != mux.counter
      modifies linkStats, mux.counter
      ensures index < LinkStats ==> (linkStats[..] == old(linkStats[..])[index := count] &&
        mux.counter[..] == old(mux.counter[..]))
      ensures index >= LinkStats ==> (linkStats[..] == old(linkStats[..]) &&
        mux.counter[..] == old(mux.counter[..])[SbrxInvalid := old(mux.counter[SbrxInvalid]) + 1])
    {
      if index >= LinkStats {
        mux.CounterInc(SbrxInvalid);
        return;
      }
      linkStats[index] := count;
    }

    /** xeth_upper_cb_reset_stats: every link and ethtool counter zero. */
    method ResetStats()
      requires Valid()
      modifies linkStats, counters
      ensures forall i :: 0 <= i < LinkStats ==> linkStats[i] == 0
      ensures forall i :: 0 <= i < EthtoolStats ==> counters[i] == 0
    {
      var i := 0;
      while i < LinkStats
        invariant 0 <= i <= LinkStats
        invariant forall j :: 0 <= j < i ==> linkStats[j] == 0
      {
        linkStats[i] := 0;
        i := i + 1;
      }
      i := 0;
      while i < EthtoolStats
        invariant 0 <= i <= EthtoolStats
        invariant forall j :: 0 <= j < i ==> counters[j] == 0
        invariant forall j :: 0 <= j < LinkStats ==> linkStats[j] == 0
      {
        counters[i] := 0;
        i := i + 1;
      }
    }

    /**
     * xeth_upper_eto_set_link_ksettings: a refused request changes
     * nothing and sends nothing; an accepted one is applied and sent.
     */
    method SetLinkKsettings(req: KSettings, tx: Sbtx, nbits: nat, allocOk: bool, allocModesOk: bool) returns (err: int)
      requires Valid() && tx.Valid()
      modifies this, tx
      ensures Valid() && tx.Valid() && flagBits == old(flagBits) && tx.connected == old(tx.connected)
      ensures Apply(old(settings), req).Err? ==> err == -EINVAL && settings == old(settings) && tx.queue == old(tx.queue)
      ensures Apply(old(settings), req).Ok? ==> (settings == Apply(old(settings), req).value &&
        err == (if allocOk && allocModesOk then 0 else -ENOMEM) &&
        tx.queue == old(tx.queue) + (if allocOk then SettingsEntries(tx.version, tx.connected, xid, settings, nbits, allocModesOk) else []))
    {
      if req.base.autoneg == AutonegDisable {
        err := ValidateSpeed(req.base.speed);
        if err == 0 {
          err := ValidateDuplex(req.base.duplex);
        }
        if err == 0 {
          settings := settings.(base := settings.base.(autoneg := req.base.autoneg, speed := req.base.speed,
                                                       duplex := req.base.duplex));
        }
      } else {
        if req.advertising - settings.supported != {} {
          err := -EINVAL;
        } else {
          err := ValidateDuplex(req.base.duplex);
          if err == 0 {
            settings := settings.(advertising := req.advertising,
                                  base := settings.base.(autoneg := AutonegEnable, speed := 0, duplex := req.base.duplex));
          }
        }
      }
      if err == 0 {
        err := tx.SendSettings(xid, settings, nbits, allocOk, allocModesOk);
      }
    }
  }
}

=== FILE: xeth_vlan.dfy ===
/**
 * The VLAN-id table of drivers/net/ethernet/xeth/xeth_vlan.c: one slot per
 * VLAN id below 4000.  xeth ports and subports take ids from 3999
 * downwards, the user devices that associate with them (bridges, tunnels)
 * take ids from 3000 upwards; each end keeps a cursor, and the two meet
 * when the table is full.
 */
module XethVlan {
  import opened Errno

  const FirstDev: int := 3999
  const FirstAssociateDev: int := 3000
  const NumNd: int := FirstDev + 1
  /** The bytes an 802.1Q tag adds to a frame (VLAN_HLEN). */
  const VlanHlen: int := 4

  /** The parts of a net_device and of its xeth_priv that the table reads or writes. */
  class NetDev {
    const isXeth: bool
    const ifindex: int
    /** dev_get_iflink: the ifindex of the device it sends through. */
    const iflink: int
    var mtu: int
    var maxMtu: int
    /** xeth_priv.id, the VLAN id of an xeth device. */
    var id: int

    constructor (isXeth: bool, ifindex: int, iflink: int, mtu: int, maxMtu: int)
      ensures this.isXeth == isXeth && this.ifindex == ifindex && this.iflink == iflink
      ensures this.mtu == mtu && this.maxMtu == maxMtu && id == 0
    {
      this.isXeth, this.ifindex, this.iflink := isXeth, ifindex, iflink;
      this.mtu, this.maxMtu, id := mtu, maxMtu, 0;
    }
  }

  /** The first index in [lo, hi) whose slot holds d, else -ENODEV. */
  function Find(s: seq<NetDev?>, lo: int, hi: int, d: NetDev?): (r: int)
    requires 0 <= lo <= hi <= |s|
    ensures r == -ENODEV || lo <= r < hi
    ensures r >= 0 ==> s[r] == d && forall j :: lo <= j < r ==> s[j] != d
    ensures r < 0 ==> forall j :: lo <= j < hi ==> s[j] != d
    decreases hi - lo
  {
    if lo == hi then -ENODEV else if s[lo] == d then lo else Find(s, lo + 1, hi, d)
  }

  /** A slot written with d, before which d appears nowhere in the range, is where Find finds d. */
  lemma {:induction false} FindWritten(s: seq<NetDev?>, lo: int, hi: int, i: int, d: NetDev?)
    requires 0 <= lo <= i < hi <= |s| && forall j :: lo <= j < i ==> s[j] != d
    ensures Find(s[i := d], lo, hi, d) == i
    decreases i - lo
  {
    if lo < i {
      FindWritten(s, lo + 1, hi, i, d);
    }
  }

  /** dev_set_mtu to the new limit when the mtu exceeds it. */
  function Clamp(mtu: int, limit: int): (r: int)
    ensures r <= limit && r <= mtu && (r == mtu || r == limit)
  {
    if mtu > limit then limit else mtu
  }

  class VlanTable {
    /** xeth_vlan_nd: null is an empty slot. */
    const nd: array<NetDev?>
    /** The next id for an xeth device, taken downwards. */
    var nextDev: int
    /** The next id for an associate device, taken upwards. */
    var nextAssociate: int

    ghost predicate Valid()
      reads this
    {
      nd.Length == NumNd && FirstAssociateDev <= nextAssociate <= nextDev <= FirstDev
    }

    /** Every id handed to an xeth device still has its device (true until Stop). */
    ghost predicate DevsPresent()
      reads this, nd
      requires Valid()
    {
      forall i :: nextDev < i <= FirstDev ==> nd[i] != null
    }

    constructor ()
      ensures Valid() && nextDev == FirstDev && nextAssociate == FirstAssociateDev && fresh(nd)
      ensures forall i :: 0 <= i < NumNd ==> nd[i] == null
    {
      nd := new NetDev?[NumNd](_ => null);
      nextDev, nextAssociate := FirstDev, FirstAssociateDev;
    }

    /** The walk of xeth_vlan_for_each_associate_dev looking for d (null finds a free slot). */
    method SearchAssociates(d: NetDev?) returns (r: int)
      requires Valid()
      ensures r == Find(nd[..], FirstAssociateDev, nextAssociate, d)
    {
      var i := FirstAssociateDev;
      while i < nextAssociate
        invariant FirstAssociateDev <= i <= nextAssociate
        invariant Find(nd[..], FirstAssociateDev, nextAssociate, d) == Find(nd[..], i, nextAssociate, d)
      {
        if nd[i] == d {
          return i;
        }
        i := i + 1;
      }
      return -ENODEV;
    }

    /** xeth_vlan_id: an xeth device's own id, else the first associate slot holding d, else -ENODEV. */
    method Id(d: NetDev) returns (r: int)
      requires Valid()
      ensures r == if d.isXeth then d.id else Find(nd[..], FirstAssociateDev, nextAssociate, d)
    {
      if d.isXeth {
        return d.id;
      }
      r := SearchAssociates(d);
    }

    /**
     * xeth_vlan_new_dev: -ENOSPC when the cursors meet, else d takes the top
     * free id, which becomes its priv id, and the cursor moves down.
     */
    method NewDev(d: NetDev) returns (r: int)
      requires Valid()
      modifies this, nd, d
      ensures Valid() && nextAssociate == old(nextAssociate)
      ensures old(nextDev) == old(nextAssociate) ==>
        r == -ENOSPC && nextDev == old(nextDev) && unchanged(nd) && d.id == old(d.id)
      ensures old(nextDev) != old(nextAssociate) ==>
        r == old(nextDev) && nextDev == r - 1 && nd[..] == old(nd[..])[r := d] && d.id == r
    {
      if nextDev == nextAssociate {
        return -ENOSPC;
      }
      r := nextDev;
      nd[r] := d;
      nextDev := nextDev - 1;
      d.id := r;
    }

    /**
     * xeth_vlan_associate_dev: the next bottom id while it is below the top
     * cursor, else the first emptied associate slot, else -ENOSPC.  When d
     * was not associated before, Id finds it at the slot returned.
     */
    method Associate(d: NetDev) returns (r: int)
      requires Valid()
      modifies this, nd
      ensures Valid() && nextDev == old(nextDev)
      ensures var free := Find(old(nd[..]), FirstAssociateDev, old(nextAssociate), null);
        if old(nextAssociate) < old(nextDev) then
          r == old(nextAssociate) && nextAssociate == r + 1 && nd[..] == old(nd[..])[r := d]
        else if free >= 0 then
          r == free && nextAssociate == old(nextAssociate) && nd[..] == old(nd[..])[r := d]
        else
          r == -ENOSPC && nextAssociate == old(nextAssociate) && unchanged(nd)
      ensures r >= 0 && Find(old(nd[..]), FirstAssociateDev, old(nextAssociate), d) < 0 ==>
        Find(nd[..], FirstAssociateDev, nextAssociate, d) == r
    {
      if nextAssociate < nextDev {
        r := nextAssociate;
        nextAssociate := nextAssociate + 1;
        nd[r] := d;
        if Find(old(nd[..]), FirstAssociateDev, old(nextAssociate), d) < 0 {
          FindWritten(old(nd[..]), FirstAssociateDev, nextAssociate, r, d);
        }
        return;
      }
      r := SearchAssociates(null);
      if r < 0 {
        return -ENOSPC;
      }
      nd[r] := d;
      if Find(old(nd[..]), FirstAssociateDev, nextAssociate, d) < 0 {
        FindWritten(old(nd[..]), FirstAssociateDev, nextAssociate, r, d);
      }
    }

    /** xeth_vlan_disassociate_dev: the first associate slot holding d is emptied; xeth devices are left alone. */
    method Disassociate(d: NetDev)
      requires Valid()
      modifies nd
      ensures var i := Find(old(nd[..]), FirstAssociateDev, nextAssociate, d);
        if !d.isXeth && i >= 0 then nd[..] == old(nd[..])[i := null] else unchanged(nd)
    {
      if d.isXeth {
        return;
      }
      var i := SearchAssociates(d);
      if i >= 0 {
        nd[i] := null;
      }
    }

    /**
     * xeth_vlan_changemtu: every xeth device sending through the link gets
     * the link's mtu less the tag as its limit, and its mtu clamped to it;
     * no other device changes.
     */
    method ChangeMtu(link: NetDev)
      requires Valid() && DevsPresent()
      requires forall i :: nextDev < i <= FirstDev ==> nd[i] != link
      modifies set i | nextDev < i <= FirstDev :: nd[i]
      ensures forall i :: nextDev < i <= FirstDev ==>
        var x := nd[i];
        if x.iflink == link.ifindex then
          x.maxMtu == link.mtu - VlanHlen && x.mtu == Clamp(old(x.mtu), link.mtu - VlanHlen)
        else x.maxMtu == old(x.maxMtu) && x.mtu == old(x.mtu)
    {
      var limit := link.mtu - VlanHlen;
      var i := FirstDev;
      while i > nextDev
        invariant nextDev <= i <= FirstDev
        invariant forall j :: nextDev < j <= FirstDev ==>
          var x := nd[j];
          if x.iflink != link.ifindex then x.maxMtu == old(x.maxMtu) && x.mtu == old(x.mtu)
          else if j > i then x.maxMtu == limit && x.mtu == Clamp(old(x.mtu), limit)
          else (x.maxMtu == limit && x.mtu == Clamp(old(x.mtu), limit)) || (x.maxMtu == old(x.maxMtu) && x.mtu == old(x.mtu))
        invariant link.mtu == old(link.mtu)
      {
        var x := nd[i];
        if x.iflink == link.ifindex {
          x.maxMtu := limit;
          if x.mtu > x.maxMtu {
            x.mtu := x.maxMtu;
          }
        }
        i := i - 1;
      }
    }

    /** xeth_vlan_stop: every slot of both ranges is emptied; the cursors stay where they are. */
    method Stop()
      requires Valid()
      modifies nd
      ensures forall i :: FirstAssociateDev <= i < nextAssociate || nextDev < i <= FirstDev ==> nd[i] == null
      ensures forall i :: 0 <= i < NumNd && !(FirstAssociateDev <= i < nextAssociate || nextDev < i <= FirstDev) ==>
        nd[i] == old(nd[i])
    {
      var i := FirstAssociateDev;
      while i < nextAssociate
        invariant FirstAssociateDev <= i <= nextAssociate
        invariant forall j :: FirstAssociateDev <= j < i ==> nd[j] == null
        invariant forall j :: 0 <= j < NumNd && !(FirstAssociateDev <= j < i) ==> nd[j] == old(nd[j])
      {
        if nd[i] != null {
          nd[i] := null;
        }
        i := i + 1;
      }
      i := FirstDev;
      while i > nextDev
        invariant nextDev <= i <= FirstDev
        invariant forall j :: FirstAssociateDev <= j < nextAssociate || i < j <= FirstDev ==> nd[j] == null
        invariant forall j :: 0 <= j < NumNd && !(FirstAssociateDev <= j < nextAssociate || i < j <= FirstDev) ==>
          nd[j] == old(nd[j])
      {
        if nd[i] != null {
          nd[i] := null;
        }
        i := i - 1;
      }
    }
  }
}
